=== FILE: README.md ===
# CalDAV data layer — a Dafny model

This project models the data layer of the Forward Email CalDAV server
(`caldav-server.js`). It covers the operations that read and change calendars and
events in the document store:

- the sync-token arithmetic (`bumpSyncToken`);
- calendar creation and the get-or-create lookup every request starts with
  (`createCalendar`, `getCalendar`, and `authenticate`, which relies on it);
- the single-event mutations and their token bumps (`createEvent`, `updateEvent`,
  `deleteEvent`), plus the read operations (`getEvent`, `getEventsForCalendar`,
  `getCalendarsForPrincipal`);
- the bulk replace of a calendar from an uploaded document (`updateCalendar`),
  which covers:
  - extracting the `X-` properties;
  - the principal lock;
  - deleting the calendar's events;
  - regrouping the upload's VEVENTs by UID;
- the time-range filter (`getEventsByDate`) of RFC 4791 section 9.9;
- the assembly of calendar text (`buildICS`).

## How the model is built

- **Store.** The store is a `World`: the calendar records, the event records, and
  the set of locks currently held.
  - Sequences keep the store's natural order, so `findOne` is the first match and
    `find` keeps order.
  - A map view `View(events)`, keyed by (calendar id, event UID), states the mutation
    rules.
  - `Wf` is the store invariant:
    - internal ids are positions;
    - every event belongs to an existing calendar;
    - no two events share a key.
- **Failures.** Every call into a collaborator that can throw is a `Step`. A
  `Faults` value says which steps throw during one operation. It also gives the
  `success` flag that `acquireLock` returns. Each operation returns a `Reply`: the
  new state and either a value or an `Error`.
- **ical.js** is abstracted:
  - a `Document` is either a serialized component tree or unparseable text;
  - `Parse` and `Serialize` form an exact round trip that keeps names as written;
  - ical.js lower-cases property names when it parses text. The model does not,
    so the lemmas that rely on it take lower-case names as a premise
    (`Assembly.ParsedNames`).
- **Date-times.** An `ICAL.Time` value is kept as its fields in UTC: date, hour,
  minute and second (`ICalTime.Stamp`).
  - `ICalTime.Seconds` gives the instant it names, as `toJSDate` does, in seconds.
  - `ICalTime.TimeText` gives the text `toString()` writes, such as
    `1970-01-01T00:00:05Z`. That text is the grouping key of a date-time UID.
- **rrule** is abstracted. `rrulestr` and the rule set it builds become a
  `Recurrence` value of four functions over the VEVENT's recurrence lines:
  - whether the library accepts the lines (it throws otherwise);
  - inclusive `between`;
  - inclusive `after`;
  - inclusive `before`.
- **Clock and randomness.** Instants are integer seconds. `randomUUID()`, the locale, the
  translated label and the web URL come from a `Ctx` value.
- **`Object.keys` order.** The key order is modelled: array-index keys come first in
  ascending numeric order, then the other keys in creation order.

### Two readings of the code

Three defects are listed under "## Findings": the `__proto__` UID, the
upper-case `X-MOZ-` names, and the lock left held after a successful replace.
The functions they touch take a `Variant` parameter:

- `AsWritten` follows the code as it stands;
- `Corrected` applies the evident fix.

`BulkReplace.UpdateCalendarAsWritten` is the code as written in all three
respects. `BulkReplace.UpdateCalendar` is corrected in all three. Each
bulk-replace lemma is proved for both readings.

### Behaviour worth knowing

- **`createCalendar`** does not look for an existing calendar. Two calls with the
  same name create two records. Only `getCalendar` is get-or-create.
- **`getEventsByDate`** skips a stored record with no VEVENT and a VEVENT whose
  DTSTART is missing or not an `ICAL.Time`; both are only logged. Two other
  cases end the whole request with an error instead of being skipped:
  - a stored record whose text does not parse;
  - a VEVENT whose recurrence lines the library rejects.
- **`buildICS`** wraps every group in the calendar's full header (VERSION, UID, NAME,
  the optional metadata and the `X-` properties), not a minimal wrapper.
- **Lock with `success: false`.** A lock returned with `success` false does not stop
  `updateCalendar`: the writes go ahead, and only the release is skipped.
- **Token bumps.** Every mutation bumps the token before its write. When the write
  then fails, the bump stays. The code's own TODO notes at caldav-server.js:701 and
  caldav-server.js:1000 say the bump should wait for the write.
- **Non-atomic replace.** The bulk replace is not atomic, as the NOTE at
  caldav-server.js:718 admits. When inserting the new records fails after the
  delete, the calendar keeps none of its old events
  (`BulkReplace.InsertFailureEmptiesCalendar`). The model takes the failing insert
  to store none of the new records (see "## Left out").
- **Lock release.** The step list at caldav-server.js:637-644 ends with "release
  lock", but a successful replace returns before the release (see "## Findings").

## Model

| member | source | states |
|---|---|---|
| SyncToken.BumpSyncToken | caldav-server.js:38-45 | The bumped token keeps everything before its last `/` unchanged, and its counter is the old counter plus one (a counter that does not parse stays NaN) |
| SyncToken.TokenParts | caldav-server.js:38-45 | A token written as `prefix/counter` reads back that prefix and that counter, so bumping is determined by the two parts |
| SyncToken.BumpWellFormed | caldav-server.js:38-45 | Bumping `base/n` gives exactly `base/n+1` |
| SyncToken.BumpTimesWellFormed | caldav-server.js:38-45 | Applying the bump k times to `base/n` gives `base/n+k` |
| SyncToken.BumpTimesKeepsPrefix | caldav-server.js:38-45 | Any number of bumps leaves the part before the last `/` unchanged, whatever the counter holds |
| SyncToken.InitialSyncToken | caldav-server.js:577 | A new calendar's token is `<web url>/ns/sync-token` with counter 1 |
| JsText.JoinSplit | caldav-server.js:39-41 | Splitting on `/` and joining the pieces back with `/` gives the original string |
| JsText.SplitAppendSegment | caldav-server.js:39-41 | Splitting `a/d`, where `d` has no `/`, gives the pieces of `a` followed by `d`, so the last piece is the counter |
| JsText.ParseIntOfNumberToString | caldav-server.js:43 | `Number.parseInt` reads back the counter that string concatenation wrote, for negative counters and NaN too |
| JsText.OrElse | caldav-server.js:560-561 | JavaScript's logical-or default on a string that may be missing: a missing or empty string falls through to the default |
| ICal.Serialize | caldav-server.js:745-750 | Parsing serialized calendar text gives back the component that was serialized |
| ICal.AllSubcomponents | caldav-server.js:652 | The result holds exactly the sub-components with the requested name, and no more than there are |
| ICal.FirstPropertyValue | caldav-server.js:684-692 | With no property of the requested name the value is null. Otherwise it is the first value of the first such property, and a non-null value always comes from such a property |
| ICal.FirstPropertyIsFirst | caldav-server.js:684-692 | The property `getFirstProperty` finds is the earliest with the name: no property before it has that name |
| ICal.UpdatePropertyWithValue | caldav-server.js:1179-1189 | Afterwards the first property with the name carries exactly the given values. An existing property is replaced in place; otherwise the property is appended |
| ICal.UpdateKeepsOthers | caldav-server.js:1179-1225 | Setting one property leaves the first property of every other name as it was |
| ICal.RemoveAllProperties | caldav-server.js:1250-1251 | Exactly the properties whose name equals the given one are removed, and all others are kept |
| Store.LookupById | caldav-server.js:587-589 | The lookup by object id finds a calendar with that id, and finds none exactly when no calendar has it |
| Store.LookupByCalendarId | caldav-server.js:591-593 | The lookup by `calendarId` finds the first calendar in store order with that identifier, and finds none exactly when no calendar has it |
| Store.ReplaceCalendar | caldav-server.js:705-715 | The update by id replaces exactly the record with that id and keeps every other record in place |
| Store.SetToken | caldav-server.js:1001-1005 | Only the chosen calendar's token changes, to the given value. Every other record, all events and all locks are unchanged, and the store invariant is kept |
| Store.BumpCalendar | caldav-server.js:1001-1005 | The calendar's stored token becomes the bump of the token read when the calendar was resolved. Nothing else changes |
| Store.LookupEvent | caldav-server.js:992-995 | `findOne` by (calendar, UID) finds an event exactly when the key is in the store's view, and returns that key's text |
| Store.EventsOf | caldav-server.js:828-830 | `find` by calendar returns exactly the calendar's events |
| Store.EventsOfKeepsOrder | caldav-server.js:828-830 | `find` keeps store order: for two stretches of the store, it lists the first stretch's events of the calendar, then the second's |
| Store.DeleteEventsOf | caldav-server.js:722-731 | `deleteMany` by calendar removes exactly that calendar's events and keeps all others |
| Store.ReplaceEventsOf | caldav-server.js:722-778 | After deleting a calendar's events and inserting new records for it, its events are exactly the new records, and every other calendar's events are unchanged |
| Store.ReplaceKeepsWf | caldav-server.js:705-778 | The metadata update followed by delete-then-insert keeps the store invariant when the new records have distinct UIDs |
| Store.SetIcal | caldav-server.js:1130-1133 | Saving an existing event changes only that key's text; saving a missing key changes nothing |
| Store.DeleteFirstView | caldav-server.js:1160-1162 | `deleteOne` removes exactly the deleted key from the view and keeps keys unique |
| Calendars.NewCalendar | caldav-server.js:594-623 | A created calendar gets the next internal id and the requested identifier. It has no `X-` properties, is not read-only, and its token is `<web url>/ns/sync-token/1` |
| Calendars.CreateCalendar | caldav-server.js:553-579 | Without consulting existing records, a new calendar is appended. Name: the given name, else the path's calendar id, else a fresh UUID. Identifier: the path's calendar id, else the name. Timezone: the given one, else the user's. Counter 1. A failed create changes nothing |
| Calendars.Existing | caldav-server.js:586-593 | The lookup by object id (only for a 24-hex-digit identifier), then by `calendarId`, finds a stored calendar, and finds none only when no calendar has the identifier |
| Calendars.GetCalendar | caldav-server.js:582-628 | A calendar either lookup finds is returned unchanged with no create. A record is created exactly when both lookups miss and the create succeeds; it carries the identifier and counter 1. A lookup or create that throws fails the call with that step's error and changes nothing. Events and locks never change |
| Calendars.GetCalendarIdempotent | caldav-server.js:582-628 | A second `getCalendar` with the same identifier after a successful one returns the same calendar and creates nothing more |
| Calendars.ExistingAfterBump | caldav-server.js:1001-1005 | Bumping a calendar's token does not change which record `getCalendar` resolves the identifier to |
| Calendars.Authenticate | caldav-server.js:500-551 | Authentication succeeds exactly when the credentials verify, the locale middleware and the session refresh succeed, and the default calendar resolves. Then the principal id and name are the username. Every error becomes Unauthorized and leaves the store unchanged |
| Calendars.AuthenticateEnsuresDefaultCalendar | caldav-server.js:537-542 | After a successful authentication the user's default calendar exists, so resolving it again creates nothing |
| Events.GetCalendarsForPrincipal | caldav-server.js:809-812 | Returns every calendar in store order and changes nothing |
| Events.GetEvent | caldav-server.js:949-970 | After resolving the calendar, an event is returned exactly when its key is in the view, with that key's text |
| Events.GetEventsForCalendar | caldav-server.js:814-831 | After resolving the calendar, returns exactly the events stored for it, as `find` lists them in store order |
| Events.CreateInCalendar | caldav-server.js:991-1016 | A duplicate key fails with no bump and no insert. Otherwise, with no step failing, exactly one record is added under the key and the token is bumped once. A failure never inserts. Before the bump, a failure changes nothing. When the insert throws after the bump, the bumped token stays and the insert error is returned. Locks and every other calendar are never touched |
| Events.CreateEvent | caldav-server.js:977-1089 | The same rules as `CreateInCalendar`, including the bump that stays when the insert throws and the frame on locks and other calendars, after the calendar is resolved (or created); a failed resolve is passed on unchanged |
| Events.UpdateInCalendar | caldav-server.js:1106-1133 | A missing key fails with no bump. Otherwise, with no step failing, only that key's text changes and the token is bumped once. A failure never changes events. Before the bump, a failure changes nothing. When the save throws after the bump, the bumped token stays and the save error is returned. Locks and every other calendar are never touched |
| Events.UpdateEvent | caldav-server.js:1092-1136 | The same rules as `UpdateInCalendar`, including the bump that stays when the save throws and the frame on locks and other calendars, after the calendar is resolved (or created) |
| Events.DeleteInCalendar | caldav-server.js:1147-1165 | A missing key is a no-op that returns nothing. Otherwise, with no step failing, exactly that key leaves the view and the token is bumped once. Before the bump, a failure changes nothing. When the delete throws after the bump, the bumped token stays, events are unchanged and the delete error is returned. Locks and every other calendar are never touched |
| Events.DeleteEvent | caldav-server.js:1138-1166 | The same rules as `DeleteInCalendar`, including the bump that stays when the delete throws and the frame on locks and other calendars, after the calendar is resolved (or created) |
| Events.ResolvesAfterCreate | caldav-server.js:977-1005 | After a successful create, resolving the calendar again yields the same calendar with its token bumped once, and creates nothing |
| Events.CreateThenGet | caldav-server.js:949-1089 | After a successful create, `getEvent` for the same key returns the created record |
| Events.DeleteResolved | caldav-server.js:1138-1166 | Deleting an existing event returns the stored record, removes exactly its key, and bumps the token once |
| Events.CreateThenDelete | caldav-server.js:977-1166 | Create then delete of the same key restores the event view, returns the created record, and leaves the token bumped twice |
| Grouping.ExtensionProps | caldav-server.js:656-669 | The collected entries are no more than the properties, and each key starts with `X-` and is upper-case |
| Grouping.ExtensionPropsComplete | caldav-server.js:656-669 | Every property whose name starts with `x-` is collected, with its key upper-cased and all its values |
| Grouping.ExtensionPropsSound | caldav-server.js:656-669 | Every collected entry comes from a property whose name starts with `x-` |
| Grouping.ExtensionPropsAppend | caldav-server.js:657-669 | The collection respects document order: the entries of two property runs are those of the first, then those of the second |
| Grouping.UidKey | caldav-server.js:741-743 | A VEVENT's grouping key is `String(uid)`: the UID text, `"null"` without a UID, and for a date-time UID the ISO text `ICAL.Time` writes, which is never an array index |
| ICalTime.TimeTextNotDigits | caldav-server.js:741-743 | The text of a UTC date-time ends in `Z`, so it is never all digits |
| ICalTime.Pad2Digits | caldav-server.js:741-743 | ical.js's `pad2` writes any field below 100 as exactly two digits |
| ICalTime.FiveSecondsText | caldav-server.js:741-743 | The date-time five seconds after the epoch is written `1970-01-01T00:00:05Z` |
| ICalTime.StampOf | caldav-server.js:885-888 | Every instant has UTC fields in range (month 1-12, day 1-31, hour, minute, second) that `toJSDate` turns back into that instant |
| ICalTime.CivilRoundTrip | caldav-server.js:885-888 | The date of a day has month and day in range and counts back to that day, in the proleptic Gregorian calendar |
| Grouping.Wrap | caldav-server.js:745-750 | Wrapping a VEVENT in an empty calendar gives text whose VEVENTs are exactly that VEVENT |
| Grouping.GroupByUid | caldav-server.js:738-752 | Every VEVENT's UID gets a group, the groups' creation order has no repeats, and exactly the grouped UIDs are recorded |
| Grouping.GroupMembers | caldav-server.js:741-752 | The group for a UID is exactly the VEVENTs carrying that UID, each wrapped alone, in document order |
| Grouping.GroupsCover | caldav-server.js:741-752 | Every uploaded VEVENT lands in the group of its own UID |
| Grouping.GroupsNonEmpty | caldav-server.js:741-752 | Every group's UID is the UID of some uploaded VEVENT |
| Grouping.GroupsStoreNonEmpty | caldav-server.js:743-751 | No group is empty |
| Grouping.SortIndex | caldav-server.js:754 | The array-index keys come out in ascending numeric order, with the same keys |
| Grouping.ObjectKeys | caldav-server.js:754 | `Object.keys` lists every key exactly once |
| Grouping.ObjectKeysOrder | caldav-server.js:754 | Only smaller array indexes precede an array-index key, and the other keys keep their creation order |
| Grouping.ListedKeysAsWritten | caldav-server.js:738-754 | With a plain object as the grouping map, the listed keys are exactly the UIDs other than `__proto__` |
| Grouping.ListedKeys | caldav-server.js:738-754 | With a real map, every UID's group is listed exactly once |
| Grouping.KeysFor | caldav-server.js:738-754 | The keys the replace iterates have no repeats. As written they are the grouped UIDs other than `__proto__`; corrected, they are all the grouped UIDs |
| Grouping.ProtoGroupDropped | caldav-server.js:738-754 | An upload whose only VEVENT has UID `__proto__` lists no group as written, and lists that UID once when corrected |
| Assembly.LastValue | caldav-server.js:1235-1239 | The value for a name is that of the last `X-` entry whose upper-cased key is the name; there is none exactly when no key matches |
| Assembly.ApplyXLookup | caldav-server.js:1235-1239 | After the `X-` loop, a name set by an entry carries the last such entry's value; any other name is as before |
| Assembly.ApplyXKeepsLower | caldav-server.js:1235-1239 | The `X-` loop cannot overwrite a lower-case header property (VERSION, UID, NAME, ...) |
| Assembly.SetIfTruthy | caldav-server.js:1197-1225 | An optional field is written only when its value is truthy; otherwise the component is unchanged |
| Assembly.Required | caldav-server.js:1177-1189 | The header starts as VERSION 2.0, UID = the calendar id, NAME = the calendar name, in that order |
| Assembly.OptionalsSet | caldav-server.js:1196-1225 | PRODID, DESCRIPTION, CALSCALE, URL and SOURCE are present exactly when the calendar's field is truthy, with that value |
| Assembly.HeaderProperties | caldav-server.js:1177-1239 | The final header carries the required properties and each truthy optional field, whatever the `X-` entries are |
| Assembly.HeaderExtensions | caldav-server.js:1235-1239 | Each `X-` name in the header carries the last stored value for it |
| Assembly.StripAsWritten | caldav-server.js:1250-1251 | The removal as written drops only properties named exactly `X-MOZ-LASTACK` or `X-MOZ-GENERATION` |
| Assembly.Strip | caldav-server.js:1250-1251 | The corrected removal drops exactly the alarm-state properties, in any letter case, and keeps every other property |
| Assembly.StripAsWrittenIsIdentity | caldav-server.js:1250-1251 | On a parsed VEVENT (lower-case names) the removal as written changes nothing |
| Assembly.ItemVevents | caldav-server.js:1243-1251 | An event's VEVENTs can be read exactly when its text parses. There are as many as the parsed text holds, each is a VEVENT, and under the corrected removal none keeps an alarm-state property |
| Assembly.CollectVevents | caldav-server.js:1242-1256 | All VEVENTs can be collected exactly when every event's text parses. Each collected component is a VEVENT, and under the corrected removal none keeps an alarm-state property |
| Assembly.CollectVeventsOne | caldav-server.js:1242-1256 | One event contributes exactly the VEVENTs of its own parsed text, each cleaned, in document order |
| Assembly.CollectVeventsAppend | caldav-server.js:1242-1256 | Events are visited in array order: two runs of events together collect exactly when each run does, and then give the VEVENTs of the first run followed by those of the second |
| Assembly.BuildICS | caldav-server.js:1173-1263 | A single event is returned verbatim, and a missing argument throws. For an array: success exactly when every text parses, and the result is a VCALENDAR with the calendar's header and every event's VEVENTs in order, cleaned by the removal as written (`AsWritten`) or the corrected removal (`Corrected`). Under the corrected removal no built VEVENT keeps an alarm-state property |
| Assembly.AcknowledgedCollected | caldav-server.js:1242-1251 | A stored event holding one VEVENT with an `x-moz-lastack` line yields that VEVENT, cleaned as the reading says |
| Assembly.MozStateSurvives | caldav-server.js:1242-1256 | `buildICS` as written puts a stored VEVENT's `x-moz-lastack` line into the built calendar unchanged; with the corrected removal the built VEVENT has no such line |
| BulkReplace.Updated | caldav-server.js:683-715 | The updated record keeps id, identifier, timezone and read-only flag. Its `x` is the collected extension properties. Its token has the same prefix and a counter one higher |
| BulkReplace.UpdatedMetadata | caldav-server.js:683-703 | The updated name, PRODID, description, source, URL and CALSCALE are the upload's first values of the NAME, PRODID, DESCRIPTION, SOURCE, URL and CALSCALE properties (null when absent) |
| BulkReplace.BuildGroups | caldav-server.js:754-772 | One record per listed key, in key order, each holding the text `buildICS` made for that key; every key building means success |
| BulkReplace.BuildGroupsMap | caldav-server.js:754-772 | When every key builds the text a reference function gives, the records are exactly that function mapped over the keys |
| BulkReplace.BuildMembers | caldav-server.js:756-760 | `buildICS` on one UID's group gives the calendar's header around that group's VEVENTs in document order, each cleaned by the removal of the reading |
| BulkReplace.BuildMembersAsWritten | caldav-server.js:756-760 | As written, `buildICS` on a group of parsed VEVENTs gives the header around those VEVENTs unchanged, alarm-state lines included |
| BulkReplace.NewRecordsRegroup | caldav-server.js:734-778 | The records the events step builds are the regrouped records for the keys the reading lists: as written without `__proto__`, corrected with every UID |
| BulkReplace.RegroupKeysShape | caldav-server.js:754-772 | All new records belong to the calendar and no two share a UID |
| BulkReplace.RegroupCoversUpload | caldav-server.js:741-772 | An uploaded UID gets a new record exactly when it is listed: always when corrected, and as written for every UID except `__proto__` |
| BulkReplace.RegroupFromUpload | caldav-server.js:741-772 | Every stored record's UID comes from the upload |
| BulkReplace.RegroupPartition | caldav-server.js:734-779 | The new records partition the upload by UID: at most one record per uploaded UID, none for any other UID, and a record for each UID the reading lists (as written, `__proto__` gets none) |
| BulkReplace.WritesSucceed | caldav-server.js:705-778 | With no write failing: the metadata is replaced, the calendar's events are deleted, and the records regrouped for the reading's keys and cleaning are appended |
| BulkReplace.WritesInsertFails | caldav-server.js:722-778 | When the insert fails after the delete, the metadata update and the delete stay and the insert error is returned |
| BulkReplace.ReplaceBody | caldav-server.js:647-781 | Unparseable text fails before anything happens. A lock is obtained exactly when the text parses, the calendar resolves and `acquireLock` does not throw. The lock is held afterwards only when its `success` flag is set |
| BulkReplace.Release | caldav-server.js:786-800 | The release runs exactly when a lock was granted with `success`. A throwing release is swallowed, and the collections are never touched |
| BulkReplace.UpdateCalendar | caldav-server.js:635-804 | The corrected replace: every UID is listed, alarm-state lines are removed in any case, and the lock is released on every path. The result (value or original error) is the `try` block's, whatever the release does. When the principal held no lock before and the release does not throw, no lock is left behind |
| BulkReplace.UpdateCalendarAsWritten | caldav-server.js:635-804 | The replace as written: `__proto__` is not listed, upper-case `X-MOZ-` names remove nothing, and success returns before the release. Its result and collections are those of the as-written writes; a failure releases the lock like the corrected operation, and success leaves the store as the writes did |
| BulkReplace.UpdateCalendarWrites | caldav-server.js:683-781 | For either reading, with no step failing: the result is the updated record, and the collections are the metadata replace plus delete-then-regroup with that reading's keys and cleaning |
| BulkReplace.UpdateCalendarReplaces | caldav-server.js:635-804 | For either reading, with no step failing: the token is bumped once, the calendar's events are exactly the records regrouped for that reading, other calendars' events are unchanged, and the store invariant holds |
| BulkReplace.UpdateCalendarStoresGroups | caldav-server.js:734-779 | For either reading, after a successful replace the calendar's stored events each parse back to the updated header around exactly the uploaded VEVENTs with their UID, cleaned. Every stored UID comes from the upload, none is stored twice, and an uploaded UID is stored exactly when the reading lists it |
| BulkReplace.InsertFailureEmptiesCalendar | caldav-server.js:705-778 | A failing insert after the delete leaves the calendar bumped and with no events, and reports the insert error |
| BulkReplace.MalformedTouchesNothing | caldav-server.js:649-650 | Unparseable upload text fails with nothing changed and no lock taken |
| BulkReplace.FailureAfterLockReleases | caldav-server.js:782-803 | A failure after a granted lock re-raises the original error, and the lock is released unless the release itself throws |
| BulkReplace.LockLeaksAsWritten | caldav-server.js:781-800 | As written, a successful replace keeps the principal's lock; the corrected operation releases it |
| BulkReplace.LockFlagIgnored | caldav-server.js:678-715 | The lock's `success` flag does not affect the result or the writes |
| DateRange.RecurrenceLines | caldav-server.js:890-895 | The lines handed to the recurrence library are exactly the VEVENT's RRULE, EXRULE, EXDATE and RDATE properties |
| DateRange.VeventMatch | caldav-server.js:874-941 | A DTSTART that is missing or not an `ICAL.Time` means skip. Without recurrence lines, a match is the interval test. With them, the library throws on lines it rejects, and otherwise a match is its inclusive `between`, `after` or `before` for the bounds given. No bounds match no recurring VEVENT |
| DateRange.AnyMatch | caldav-server.js:873-941 | The only error the VEVENT loop raises is a rejected recurrence |
| DateRange.AnyMatchFirst | caldav-server.js:873-941 | The loop reports a match exactly when some VEVENT matches with every VEVENT before it skipped |
| DateRange.AnyMatchFirstFailure | caldav-server.js:873-941 | The loop throws exactly when the library rejects some VEVENT with every VEVENT before it skipped |
| DateRange.EventMatch | caldav-server.js:865-871 | Unparseable stored text fails the request; a record with no VEVENT is not listed |
| DateRange.ListUntilThrow | caldav-server.js:864-946 | The outer loop succeeds exactly when no event throws, and then keeps exactly the matching events, in order, each once. Otherwise it fails with the first throwing event's error |
| DateRange.GetEventsByDate | caldav-server.js:834-947 | After resolving the calendar and reading its events, the result is the matching events in store order, or the error of the first event that throws |
| DateRange.OverlapsIsIntersection | caldav-server.js:897-901 | With both bounds and ordered intervals, the non-recurring test holds exactly when the query and the event share an instant |
| DateRange.NoEndMissesStartedQuery | caldav-server.js:887-901 | A non-recurring VEVENT without a date-time DTEND never matches a query with a start bound |
| DateRange.UnboundedQueryMatchesPlain | caldav-server.js:897-901 | A query with no bounds matches every non-recurring VEVENT that has a date-time DTSTART |
| DateRange.MatchIgnoresLater | caldav-server.js:902-903 | After the first match the loop stops, so later VEVENTs (even rejected ones) cannot change the outcome |
| DateRange.NoVeventNeverListed | caldav-server.js:866-871 | A parsed record with no VEVENT is skipped without failing the request |

## Left out

- **Text formats.** ical.js parsing and serialisation of RFC 5545 text are not
  modelled. A document is a component tree or unparseable, and `Parse` inverts
  `Serialize`.
- **Recurrences.** rrule expansion is not modelled. It is the `Recurrence`
  parameter, which also stands in for `rrulestr` reading the current clock when
  DTSTART is absent from the lines.
- **Date-time values.** Every date-time value is a UTC `ICAL.Time` with whole
  seconds. `toJSDate` gives its instant in seconds, not milliseconds. Query bounds
  use the same unit, so comparisons are unchanged. Time zones, floating times and
  DATE values are not modelled.
- DateRange.VeventMatch: the model has no DATE value, so an all-day VEVENT cannot
  be written in it. In the code a DATE DTSTART is an `ICAL.Time` too; it is not
  skipped but tested through `toJSDate` (local midnight of that day). The model's
  skip covers only a DTSTART that is missing or of another value type.
- **DURATION.** A VEVENT with DURATION instead of DTEND is not given an end. The
  code ignores DURATION too.
- **Store return value.** `findByIdAndUpdate` is taken to return the updated
  record, so the grouping and `buildICS` in `updateCalendar` see the new metadata.
  The document store's options are not modelled.
- **Lock internals.** The Redis lock is a set of held principal ids. Lock expiry and
  contention are not modelled.
- **Concurrency.** Requests are modelled one at a time. In the code, the
  single-event writes (`createEvent`, `updateEvent`, `deleteEvent`) take no lock.
  They can interleave with a bulk replace between its delete and its insert.
- **Auth and i18n.** `onAuth`, `refreshSession` and `i18n.middleware` are
  collaborators whose only effect is success or failure. The middleware's failure
  is the `I18nMiddleware` step. `authenticate` receives the verified user or the
  error as a parameter. The session object and the locale the middleware sets are
  not modelled.
- **Logging.** Logging (`logger.debug`, `logger.error`, `logger.fatal`) has no
  effect on the model.
- **Record fields.** `instance`, `session` and `lock` fields passed to the store are
  not modelled, nor are mongoose document methods beyond `save`.
- **`getCalendarId` and `getETag`.** They are a `toString` of the object id and a
  hash of the update time, with no data-layer logic.
- **Commented-out code.** The commented-out alarm, attendee, location and organizer
  handling at lines 62-435 is dead code.
- **Object-id lookups.** An object id is modelled as the number its 24 hexadecimal
  digits denote, compared with the internal id; the object-id byte layout is not
  modelled.
- SyncToken.BumpSyncToken: the counter is a JavaScript Number, modelled as an
  unbounded integer. Counters are taken to stay below 2^53, which takes about 2^53
  writes to one calendar. Above that, adding 1 can leave the Number unchanged, and
  from 1e21 up it is written in exponent form (`1e+21`), which `parseInt` reads
  back as 1. Neither the rounding nor the exponent text is modelled. The same holds
  for `SyncToken.BumpWellFormed`, `SyncToken.BumpTimesWellFormed` and
  `JsText.ParseIntOfNumberToString`.
- SyncToken.BumpTimesWellFormed: states "k bumps add k" only for tokens whose
  counter is already an integer. For a token whose last segment does not parse,
  the counter stays NaN, and `SyncToken.BumpTimesKeepsPrefix` states what
  survives.
- BulkReplace.Updated: its own contract leaves out the six metadata fields (name,
  PRODID, description, source, URL, CALSCALE). `BulkReplace.UpdatedMetadata`
  states them, which keeps the proofs that unfold `Updated` small.
- Grouping.ExtensionProps: the upper-casing of `X-` keys maps only ASCII letters.
  JavaScript's `toUpperCase` also maps other letters, but RFC 5545 section 3.1
  restricts property names to ASCII letters, digits and `-`, so parsed names hold
  no other letters.
- ICal.Serialize: the round trip keeps names as written. ical.js lower-cases
  property names when it parses text, so a header that `buildICS` wrote with
  upper-case `X-` names reads back with lower-case names in the code. In the model
  those names stay upper-case.
- BulkReplace.UpdateCalendarStoresGroups: the parsed header it states keeps the
  upper-case `X-` names `buildICS` wrote. ical.js would read them back lower-cased.
  The header's other properties and the grouped VEVENTs are unaffected.
- BulkReplace.InsertFailureEmptiesCalendar: a failing insert is taken to store
  none of the new records. `CalendarEvents.create` on an array may store some
  records before it throws, and then the calendar keeps those. The lemma's other
  promises still hold: the old events are gone, the token is bumped and the error
  is returned.
- Grouping.UidKey: a date-time UID is rendered as a UTC time ending in `Z`. The
  rendering of zoned and floating times (no `Z`) and of DATE values (the date
  alone) is not modelled. Distinct instants are not proved to give distinct texts.
- **Other files.** `config/web.js`, `jobs/send-emails.js` and `app/models/payment.js`
  are not part of this model.

## Findings

| source | as written | input that shows it | evidently intended | confidence | as-written member | corrected member |
|---|---|---|---|---|---|---|
| caldav-server.js:781-800 | `return calendar` inside the `try` block leaves `updateCalendar` before the release code, so a successful replace never releases the principal's lock | any successful `updateCalendar` whose lock came back with `success: true` | release the lock on every path after it was acquired (the comment lists "release lock" as the last step) | high; not executed | BulkReplace.LockLeaksAsWritten | BulkReplace.UpdateCalendar |
| caldav-server.js:738-754 | the grouping object is a plain `{}`; assigning `eventIdToEvents['__proto__']` replaces its prototype, and `Object.keys` never lists that key | an upload whose only VEVENT has `UID:__proto__` stores no event, although the calendar's events were deleted | one record per distinct UID, for any UID text (a `Map` or `Object.create(null)`) | medium; not executed | Grouping.ProtoGroupDropped, BulkReplace.UpdateCalendarAsWritten | Grouping.ListedKeys, BulkReplace.UpdateCalendar |
| caldav-server.js:1250-1251 | ical.js compares property names exactly, and parsed names are lower-case, so removing the upper-case `X-MOZ-LASTACK` and `X-MOZ-GENERATION` removes nothing | a stored VEVENT with `X-MOZ-LASTACK:20240101T000000Z` keeps the line in the built calendar | drop the alarm-state properties whatever their letter case | medium; not executed | Assembly.MozStateSurvives, BulkReplace.BuildMembersAsWritten | Assembly.Strip, BulkReplace.BuildMembers |

=== FILE: assembly.dfy ===
/**
 * `buildICS`: the calendar text stored for a group of events (or served for a
 * calendar), assembled from the calendar's metadata and the VEVENTs of each
 * event, with the Thunderbird alarm-state properties removed.
 */
module Assembly {
  import opened Wrappers
  import opened Seqs
  import opened JsText
  import opened ICal
  import opened ICalTime
  import opened Store

  // ---------------------------------------------------------------- names

  /** A name with a lower-case ASCII letter, which no upper-cased key can equal. */
  predicate HasLower(n: string)
  {
    exists i :: 0 <= i < |n| && 'a' <= n[i] <= 'z'
  }

  lemma UpperDiffers(key: string, n: string)
    requires HasLower(n)
    ensures Upper(key) != n
  {
    var i :| 0 <= i < |n| && 'a' <= n[i] <= 'z';
    var u := Upper(key);
    if |u| == |n| {
      assert u[i] == UpperChar(key[i]);
      assert u[i] != n[i];
    }
  }

  // ---------------------------------------------------------------- extension properties

  /** Entry `i` has upper-cased key `n`, and no later entry does. */
  predicate IsLastMatch(xs: seq<XProp>, n: string, i: int)
  {
    && 0 <= i < |xs|
    && Upper(xs[i].key) == n
    && forall j :: i < j < |xs| ==> Upper(xs[j].key) != n
  }

  /** The value the last entry whose upper-cased key is `n` carries, if any entry has that key. */
  function LastValue(xs: seq<XProp>, n: string): (r: Option<seq<Value>>)
    ensures r.None? <==> forall i :: 0 <= i < |xs| ==> Upper(xs[i].key) != n
    ensures r.Some? ==> exists i :: IsLastMatch(xs, n, i) && r.value == xs[i].value
  {
    if |xs| == 0 then None
    else if Upper(xs[|xs| - 1].key) == n then
      assert IsLastMatch(xs, n, |xs| - 1);
      Some(xs[|xs| - 1].value)
    else
      var r := LastValue(xs[..|xs| - 1], n);
      assert forall i :: 0 <= i < |xs| - 1 ==> xs[..|xs| - 1][i] == xs[i];
      if r.Some? then
        LastMatchSnoc(xs[..|xs| - 1], xs[|xs| - 1], n, r.value);
        assert xs[..|xs| - 1] + [xs[|xs| - 1]] == xs;
        r
      else r
  }

  /** A last match before an entry with another key stays the last match. */
  lemma LastMatchSnoc(init: seq<XProp>, last: XProp, n: string, v: seq<Value>)
    requires Upper(last.key) != n
    requires exists i :: IsLastMatch(init, n, i) && v == init[i].value
    ensures exists i :: IsLastMatch(init + [last], n, i) && v == (init + [last])[i].value
  {
    var xs := init + [last];
    var i :| IsLastMatch(init, n, i) && v == init[i].value;
    assert forall j :: 0 <= j < |init| ==> xs[j] == init[j];
    assert IsLastMatch(xs, n, i);
  }

  /** The loop over `calendar.x`: each entry written with `updatePropertyWithValue`, key upper-cased. */
  function ApplyX(c: Component, xs: seq<XProp>): (r: Component)
    ensures r.name == c.name && r.subs == c.subs
  {
    if |xs| == 0 then c
    else
      var last := xs[|xs| - 1];
      UpdatePropertyWithValue(ApplyX(c, xs[..|xs| - 1]), Upper(last.key), last.value)
  }

  /** Later entries overwrite earlier ones with the same key; other properties are untouched. */
  lemma {:induction false} ApplyXLookup(c: Component, xs: seq<XProp>, n: string)
    ensures FirstProperty(ApplyX(c, xs).props, n) ==
            match LastValue(xs, n)
            case Some(v) => Some(Property(n, v))
            case None => FirstProperty(c.props, n)
  {
    if |xs| > 0 {
      var init := xs[..|xs| - 1];
      var last := xs[|xs| - 1];
      ApplyXLookup(c, init, n);
      if Upper(last.key) != n {
        UpdateKeepsOthers(ApplyX(c, init), Upper(last.key), last.value, n);
      }
    }
  }

  /** Extension properties never reach a name with a lower-case letter. */
  lemma ApplyXKeepsLower(c: Component, xs: seq<XProp>, n: string)
    requires HasLower(n)
    ensures FirstProperty(ApplyX(c, xs).props, n) == FirstProperty(c.props, n)
  {
    ApplyXLookup(c, xs, n);
    if LastValue(xs, n).Some? {
      var i :| 0 <= i < |xs| && Upper(xs[i].key) == n;
      UpperDiffers(xs[i].key, n);
    }
  }

  // ---------------------------------------------------------------- header

  /** `updatePropertyWithValue(name, value)` when `value` is truthy; nothing otherwise. */
  function SetIfTruthy(c: Component, name: string, v: Value): (r: Component)
    ensures r.name == c.name && r.subs == c.subs
    ensures Truthy(v) ==> FirstProperty(r.props, name) == Some(Property(name, [v]))
    ensures !Truthy(v) ==> r == c
  {
    if Truthy(v) then UpdatePropertyWithValue(c, name, [v]) else c
  }

  /** The names `buildICS` sets itself are pairwise different. */
  lemma HeaderNamesDistinct()
    ensures "uid" != "version" && "name" != "version" && "name" != "uid"
    ensures forall n :: n in ["version", "uid", "name"] ==>
      n != "prodid" && n != "description" && n != "calscale" && n != "url" && n != "source"
    ensures "prodid" != "description" && "prodid" != "calscale" && "prodid" != "url" && "prodid" != "source"
    ensures "description" != "calscale" && "description" != "url" && "description" != "source"
    ensures "calscale" != "url" && "calscale" != "source" && "url" != "source"
  {
    assert "uid"[1] != "url"[1];
    assert |"version"| == 7 && |"uid"| == 3 && |"name"| == 4 && |"prodid"| == 6;
    assert |"description"| == 11 && |"calscale"| == 8 && |"url"| == 3 && |"source"| == 6;
    assert "prodid"[0] != "source"[0];
  }

  /** The properties `buildICS` always sets: version, the calendar id as UID, and the name. */
  function Required(cal: Calendar): (c: Component)
    ensures c.name == "vcalendar" && c.subs == []
    ensures c.props == [Property("version", [Text("2.0")]), Property("uid", [Text(cal.calendarId)]), Property("name", [cal.name])]
  {
    var p1, p2, p3 := Property("version", [Text("2.0")]), Property("uid", [Text(cal.calendarId)]), Property("name", [cal.name]);
    HeaderNamesDistinct();
    UpdateThree(EmptyComponent("vcalendar"), p1, p2, p3);
    var c := UpdatePropertyWithValue(EmptyComponent("vcalendar"), p1.name, p1.values);
    var c := UpdatePropertyWithValue(c, p2.name, p2.values);
    UpdatePropertyWithValue(c, p3.name, p3.values)
  }

  /** What each header name finds among the required properties. */
  lemma RequiredLookup(cal: Calendar)
    ensures var p := Required(cal).props;
      && FirstProperty(p, "version") == Some(Property("version", [Text("2.0")]))
      && FirstProperty(p, "uid") == Some(Property("uid", [Text(cal.calendarId)]))
      && FirstProperty(p, "name") == Some(Property("name", [cal.name]))
      && NoOptionals(Required(cal))
  {
    var a, b, c := Property("version", [Text("2.0")]), Property("uid", [Text(cal.calendarId)]), Property("name", [cal.name]);
    HeaderNamesDistinct();
    FirstOfThree(a, b, c, "version");
    FirstOfThree(a, b, c, "uid");
    FirstOfThree(a, b, c, "name");
    FirstOfThree(a, b, c, "prodid");
    FirstOfThree(a, b, c, "description");
    FirstOfThree(a, b, c, "calscale");
    FirstOfThree(a, b, c, "url");
    FirstOfThree(a, b, c, "source");
  }

  /** The metadata `buildICS` sets only when it is truthy, in the order it sets it. */
  function Optionals(c: Component, cal: Calendar): (r: Component)
    ensures r.name == c.name && r.subs == c.subs
  {
    var c := SetIfTruthy(c, "prodid", cal.prodId);
    var c := SetIfTruthy(c, "description", cal.description);
    var c := SetIfTruthy(c, "calscale", cal.scale);
    var c := SetIfTruthy(c, "url", cal.url);
    SetIfTruthy(c, "source", cal.source)
  }

  /** The calendar properties before the extension properties, in the order `buildICS` sets them. */
  function BaseHeader(cal: Calendar): Component
  {
    Optionals(Required(cal), cal)
  }

  /**
   * The calendar component `buildICS` starts from: version 2.0, the calendar id
   * as UID, the name, the truthy optional metadata, then the extension properties.
   */
  function Header(cal: Calendar): (c: Component)
    ensures c.name == "vcalendar" && c.subs == []
  {
    ApplyX(BaseHeader(cal), cal.x)
  }

  lemma SetIfTruthyKeeps(c: Component, name: string, v: Value, n: string)
    requires n != name
    ensures FirstProperty(SetIfTruthy(c, name, v).props, n) == FirstProperty(c.props, n)
  {
    if Truthy(v) {
      UpdateKeepsOthers(c, name, [v], n);
    }
  }

  /** The optional properties leave every other name alone. */
  lemma OptionalsKeep(c: Component, cal: Calendar, n: string)
    requires n != "prodid" && n != "description" && n != "calscale" && n != "url" && n != "source"
    ensures FirstProperty(Optionals(c, cal).props, n) == FirstProperty(c.props, n)
  {
    var c1 := SetIfTruthy(c, "prodid", cal.prodId);
    var c2 := SetIfTruthy(c1, "description", cal.description);
    var c3 := SetIfTruthy(c2, "calscale", cal.scale);
    var c4 := SetIfTruthy(c3, "url", cal.url);
    SetIfTruthyKeeps(c, "prodid", cal.prodId, n);
    SetIfTruthyKeeps(c1, "description", cal.description, n);
    SetIfTruthyKeeps(c2, "calscale", cal.scale, n);
    SetIfTruthyKeeps(c3, "url", cal.url, n);
    SetIfTruthyKeeps(c4, "source", cal.source, n);
  }

  /** What `SetIfTruthy(c, name, v)` leaves under `name` when `c` has no such property. */
  function Expected(name: string, v: Value): Option<Property>
  {
    if Truthy(v) then Some(Property(name, [v])) else None
  }

  lemma SetIfTruthySets(c: Component, name: string, v: Value)
    requires FirstProperty(c.props, name).None?
    ensures FirstProperty(SetIfTruthy(c, name, v).props, name) == Expected(name, v)
  {
  }

  /** No optional property is set yet. */
  predicate NoOptionals(c: Component)
  {
    && FirstProperty(c.props, "prodid").None?
    && FirstProperty(c.props, "description").None?
    && FirstProperty(c.props, "calscale").None?
    && FirstProperty(c.props, "url").None?
    && FirstProperty(c.props, "source").None?
  }

  /** Each optional property is set from its metadata field exactly when that field is truthy. */
  lemma OptionalsSet(c: Component, cal: Calendar)
    requires NoOptionals(c)
    ensures var p := Optionals(c, cal).props;
      && FirstProperty(p, "prodid") == Expected("prodid", cal.prodId)
      && FirstProperty(p, "description") == Expected("description", cal.description)
      && FirstProperty(p, "calscale") == Expected("calscale", cal.scale)
      && FirstProperty(p, "url") == Expected("url", cal.url)
      && FirstProperty(p, "source") == Expected("source", cal.source)
  {
    var c1 := SetIfTruthy(c, "prodid", cal.prodId);
    var c2 := SetIfTruthy(c1, "description", cal.description);
    var c3 := SetIfTruthy(c2, "calscale", cal.scale);
    var c4 := SetIfTruthy(c3, "url", cal.url);
    var p := Optionals(c, cal).props;
    HeaderNamesDistinct();
    assert FirstProperty(p, "prodid") == Expected("prodid", cal.prodId) by {
      SetIfTruthySets(c, "prodid", cal.prodId);
      SetIfTruthyKeeps(c1, "description", cal.description, "prodid");
      SetIfTruthyKeeps(c2, "calscale", cal.scale, "prodid");
      SetIfTruthyKeeps(c3, "url", cal.url, "prodid");
      SetIfTruthyKeeps(c4, "source", cal.source, "prodid");
    }
    assert FirstProperty(p, "description") == Expected("description", cal.description) by {
      SetIfTruthyKeeps(c, "prodid", cal.prodId, "description");
      SetIfTruthySets(c1, "description", cal.description);
      SetIfTruthyKeeps(c2, "calscale", cal.scale, "description");
      SetIfTruthyKeeps(c3, "url", cal.url, "description");
      SetIfTruthyKeeps(c4, "source", cal.source, "description");
    }
    assert FirstProperty(p, "calscale") == Expected("calscale", cal.scale) by {
      SetIfTruthyKeeps(c, "prodid", cal.prodId, "calscale");
      SetIfTruthyKeeps(c1, "description", cal.description, "calscale");
      SetIfTruthySets(c2, "calscale", cal.scale);
      SetIfTruthyKeeps(c3, "url", cal.url, "calscale");
      SetIfTruthyKeeps(c4, "source", cal.source, "calscale");
    }
    assert FirstProperty(p, "url") == Expected("url", cal.url) by {
      SetIfTruthyKeeps(c, "prodid", cal.prodId, "url");
      SetIfTruthyKeeps(c1, "description", cal.description, "url");
      SetIfTruthyKeeps(c2, "calscale", cal.scale, "url");
      SetIfTruthySets(c3, "url", cal.url);
      SetIfTruthyKeeps(c4, "source", cal.source, "url");
    }
    assert FirstProperty(p, "source") == Expected("source", cal.source) by {
      SetIfTruthyKeeps(c, "prodid", cal.prodId, "source");
      SetIfTruthyKeeps(c1, "description", cal.description, "source");
      SetIfTruthyKeeps(c2, "calscale", cal.scale, "source");
      SetIfTruthyKeeps(c3, "url", cal.url, "source");
      SetIfTruthySets(c4, "source", cal.source);
    }
  }

  /** The properties set before the extension properties, name by name. */
  lemma BaseHeaderProperties(cal: Calendar)
    ensures var p := BaseHeader(cal).props;
      && FirstProperty(p, "version") == Some(Property("version", [Text("2.0")]))
      && FirstProperty(p, "uid") == Some(Property("uid", [Text(cal.calendarId)]))
      && FirstProperty(p, "name") == Some(Property("name", [cal.name]))
      && FirstProperty(p, "prodid") == Expected("prodid", cal.prodId)
      && FirstProperty(p, "description") == Expected("description", cal.description)
      && FirstProperty(p, "calscale") == Expected("calscale", cal.scale)
      && FirstProperty(p, "url") == Expected("url", cal.url)
      && FirstProperty(p, "source") == Expected("source", cal.source)
  {
    var r := Required(cal);
    RequiredLookup(cal);
    HeaderNamesDistinct();
    OptionalsSet(r, cal);
    OptionalsKeep(r, cal, "version");
    OptionalsKeep(r, cal, "uid");
    OptionalsKeep(r, cal, "name");
  }

  /** The names `buildICS` sets itself all carry a lower-case letter. */
  lemma HeaderNamesLower()
    ensures HasLower("version") && HasLower("uid") && HasLower("name") && HasLower("prodid")
    ensures HasLower("description") && HasLower("calscale") && HasLower("url") && HasLower("source")
  {
    assert "version"[0] == 'v';
    assert "uid"[0] == 'u';
    assert "name"[0] == 'n';
    assert "prodid"[0] == 'p';
    assert "description"[0] == 'd';
    assert "calscale"[0] == 'c';
    assert "url"[0] == 'u';
    assert "source"[0] == 's';
  }

  /** What the header says, property by property. */
  lemma HeaderProperties(cal: Calendar)
    ensures var p := Header(cal).props;
      && FirstProperty(p, "version") == Some(Property("version", [Text("2.0")]))
      && FirstProperty(p, "uid") == Some(Property("uid", [Text(cal.calendarId)]))
      && FirstProperty(p, "name") == Some(Property("name", [cal.name]))
      && FirstProperty(p, "prodid") == Expected("prodid", cal.prodId)
      && FirstProperty(p, "description") == Expected("description", cal.description)
      && FirstProperty(p, "calscale") == Expected("calscale", cal.scale)
      && FirstProperty(p, "url") == Expected("url", cal.url)
      && FirstProperty(p, "source") == Expected("source", cal.source)
  {
    var b := BaseHeader(cal);
    BaseHeaderProperties(cal);
    HeaderNamesLower();
    ApplyXKeepsLower(b, cal.x, "version");
    ApplyXKeepsLower(b, cal.x, "uid");
    ApplyXKeepsLower(b, cal.x, "name");
    ApplyXKeepsLower(b, cal.x, "prodid");
    ApplyXKeepsLower(b, cal.x, "description");
    ApplyXKeepsLower(b, cal.x, "calscale");
    ApplyXKeepsLower(b, cal.x, "url");
    ApplyXKeepsLower(b, cal.x, "source");
  }

  /** Each extension key of the calendar carries the value of its last entry. */
  lemma HeaderExtensions(cal: Calendar, n: string)
    requires LastValue(cal.x, n).Some?
    ensures FirstProperty(Header(cal).props, n) == Some(Property(n, LastValue(cal.x, n).value))
  {
    ApplyXLookup(BaseHeader(cal), cal.x, n);
  }

  // ---------------------------------------------------------------- alarm-state properties

  /** Equal up to the letter case of ASCII letters. */
  predicate SameIgnoringCase(a: string, b: string)
  {
    |a| == |b| && forall i :: 0 <= i < |a| ==> UpperChar(a[i]) == UpperChar(b[i])
  }

  /** Thunderbird's alarm-state properties, in any letter case. */
  predicate IsMozState(p: Property)
  {
    SameIgnoringCase(p.name, "X-MOZ-LASTACK") || SameIgnoringCase(p.name, "X-MOZ-GENERATION")
  }

  /** The removal as written: ical.js compares names exactly, against upper-case literals. */
  function StripAsWritten(v: Component): (r: Component)
    ensures r.name == v.name && r.subs == v.subs
    ensures forall i :: 0 <= i < |r.props| ==>
      r.props[i] in v.props && r.props[i].name != "X-MOZ-LASTACK" && r.props[i].name != "X-MOZ-GENERATION"
  {
    RemoveAllProperties(RemoveAllProperties(v, "X-MOZ-LASTACK"), "X-MOZ-GENERATION")
  }

  /** The removal as intended: the alarm-state properties go whatever their letter case. */
  function Strip(v: Component): (r: Component)
    ensures r.name == v.name && r.subs == v.subs
    ensures forall i :: 0 <= i < |r.props| ==> r.props[i] in v.props && !IsMozState(r.props[i])
    ensures forall i :: 0 <= i < |v.props| && !IsMozState(v.props[i]) ==> v.props[i] in r.props
  {
    v.(props := Filter(v.props, (p: Property) => !IsMozState(p)))
  }

  /** Property names as the parser produces them: no upper-case ASCII letter. */
  predicate ParsedNames(v: Component)
  {
    forall i, j :: 0 <= i < |v.props| && 0 <= j < |v.props[i].name| ==> !('A' <= v.props[i].name[j] <= 'Z')
  }

  /** On a parsed VEVENT the removal as written changes nothing. */
  lemma StripAsWrittenIsIdentity(v: Component)
    requires ParsedNames(v)
    ensures StripAsWritten(v) == v
  {
    forall i | 0 <= i < |v.props|
      ensures v.props[i].name != "X-MOZ-LASTACK" && v.props[i].name != "X-MOZ-GENERATION"
    {
      var name := v.props[i].name;
      if |name| > 0 {
        assert name[0] != "X-MOZ-LASTACK"[0];
        assert name[0] != "X-MOZ-GENERATION"[0];
      }
    }
    FilterAll(v.props, (p: Property) => p.name != "X-MOZ-LASTACK");
    FilterAll(v.props, (p: Property) => p.name != "X-MOZ-GENERATION");
  }

  /** A parsed VEVENT carrying `X-MOZ-LASTACK`. */
  function AcknowledgedEvent(): Component
  {
    Component("vevent", [Property("uid", [Text("a")]), Property("x-moz-lastack", [Time(Epoch)])], [])
  }

  lemma AcknowledgedEventParsed()
    ensures ParsedNames(AcknowledgedEvent())
  {
    var v := AcknowledgedEvent();
    forall i, j | 0 <= i < |v.props| && 0 <= j < |v.props[i].name| ensures !('A' <= v.props[i].name[j] <= 'Z') {
      assert i == 0 || i == 1;
    }
  }

  lemma LastackIsMozState()
    ensures IsMozState(Property("x-moz-lastack", [Time(Epoch)]))
  {
    assert SameIgnoringCase("x-moz-lastack", "X-MOZ-LASTACK");
  }

  // ---------------------------------------------------------------- assembly

  /** What `buildICS` is given: an array of events, a single event, or nothing. */
  datatype EventsArg = Many(items: seq<EventRecord>) | One(item: EventRecord) | Missing

  /** The alarm-state removal `buildICS` applies to each VEVENT in the given reading. */
  function Clean(variant: Variant): Component -> Component
  {
    match variant
    case AsWritten => StripAsWritten
    case Corrected => Strip
  }

  /** Every component is a VEVENT, and under the corrected reading none keeps an alarm-state property. */
  predicate Cleaned(vs: seq<Component>, variant: Variant)
  {
    && (forall i :: 0 <= i < |vs| ==> vs[i].name == "vevent")
    && (variant == Corrected ==>
          forall i, j :: 0 <= i < |vs| && 0 <= j < |vs[i].props| ==> !IsMozState(vs[i].props[j]))
  }

  lemma CleanedAppend(a: seq<Component>, b: seq<Component>, variant: Variant)
    requires Cleaned(a, variant) && Cleaned(b, variant)
    ensures Cleaned(a + b, variant)
  {
    assert forall i :: |a| <= i < |a + b| ==> (a + b)[i] == b[i - |a|];
  }

  /** The cleaned VEVENTs of one event's text, or `None` if the text does not parse. */
  function ItemVevents(e: EventRecord, variant: Variant): (r: Option<seq<Component>>)
    ensures r.Some? <==> Parse(e.ical).Some?
    ensures r.Some? ==> |r.value| == |AllSubcomponents(Parse(e.ical).value, "vevent")|
    ensures r.Some? ==> Cleaned(r.value, variant)
  {
    match Parse(e.ical)
    case None => None
    case Some(root) => Some(Map(AllSubcomponents(root, "vevent"), Clean(variant)))
  }

  /** The VEVENTs of each event's text, cleaned, in order; `None` if some text does not parse. */
  function CollectVevents(items: seq<EventRecord>, variant: Variant): (r: Option<seq<Component>>)
    ensures r.Some? <==> forall i :: 0 <= i < |items| ==> Parse(items[i].ical).Some?
    ensures r.Some? ==> Cleaned(r.value, variant)
  {
    if |items| == 0 then Some([])
    else
      var head := ItemVevents(items[0], variant);
      var rest := CollectVevents(items[1..], variant);
      assert forall i :: 1 <= i < |items| ==> items[i] == items[1..][i - 1];
      if head.None? || rest.None? then None
      else
        CleanedAppend(head.value, rest.value, variant);
        Some(head.value + rest.value)
  }

  /** A single event contributes exactly its own cleaned VEVENTs. */
  lemma CollectVeventsOne(e: EventRecord, variant: Variant)
    ensures CollectVevents([e], variant) == ItemVevents(e, variant)
  {
    assert [e][1..] == [];
    var head := ItemVevents(e, variant);
    if head.Some? {
      assert head.value + [] == head.value;
    }
  }

  /**
   * The events are collected in order: the VEVENTs of two runs of events are
   * those of the first run, then those of the second.
   */
  lemma {:induction false} CollectVeventsAppend(a: seq<EventRecord>, b: seq<EventRecord>, variant: Variant)
    ensures CollectVevents(a + b, variant).Some? <==> CollectVevents(a, variant).Some? && CollectVevents(b, variant).Some?
    ensures CollectVevents(a, variant).Some? && CollectVevents(b, variant).Some? ==>
      CollectVevents(a + b, variant) == Some(CollectVevents(a, variant).value + CollectVevents(b, variant).value)
    decreases |a|
  {
    CollectVeventsAppendParses(a, b, variant);
    if CollectVevents(a, variant).None? || CollectVevents(b, variant).None? {
    } else if |a| == 0 {
      assert a + b == b;
      assert [] + CollectVevents(b, variant).value == CollectVevents(b, variant).value;
    } else {
      CollectVeventsSplit(a, variant);
      CollectVeventsAppend(a[1..], b, variant);
      TailOfAppend(a, b);
      CollectVeventsJoin(a + b, variant);
      var head := ItemVevents(a[0], variant).value;
      var x, y := CollectVevents(a[1..], variant).value, CollectVevents(b, variant).value;
      AppendAssoc(head, x, y);
    }
  }

  /** A run of events collects exactly when both of its parts do. */
  lemma CollectVeventsAppendParses(a: seq<EventRecord>, b: seq<EventRecord>, variant: Variant)
    ensures CollectVevents(a + b, variant).Some? <==> CollectVevents(a, variant).Some? && CollectVevents(b, variant).Some?
  {
    var ab := a + b;
    assert forall i :: 0 <= i < |a| ==> ab[i] == a[i];
    assert forall i :: 0 <= i < |b| ==> ab[|a| + i] == b[i];
  }

  /** A non-empty run that collects splits into its first event's VEVENTs and the rest's. */
  lemma CollectVeventsSplit(items: seq<EventRecord>, variant: Variant)
    requires |items| > 0 && CollectVevents(items, variant).Some?
    ensures ItemVevents(items[0], variant).Some? && CollectVevents(items[1..], variant).Some?
    ensures CollectVevents(items, variant).value
            == ItemVevents(items[0], variant).value + CollectVevents(items[1..], variant).value
  {
  }

  /** The first event's VEVENTs and the rest's join into those of the whole run. */
  lemma CollectVeventsJoin(items: seq<EventRecord>, variant: Variant)
    requires |items| > 0 && ItemVevents(items[0], variant).Some? && CollectVevents(items[1..], variant).Some?
    ensures CollectVevents(items, variant)
            == Some(ItemVevents(items[0], variant).value + CollectVevents(items[1..], variant).value)
  {
  }

  /**
   * `buildICS`: an array (or nothing) becomes a new calendar document with the
   * calendar's header and every VEVENT of every event, cleaned as the reading
   * says; a single event is returned as it is stored. Iterating nothing throws.
   */
  function BuildICS(arg: EventsArg, cal: Calendar, variant: Variant): (r: Result<Document, Error>)
    ensures arg.One? ==> r == Success(arg.item.ical)
    ensures arg.Missing? ==> r == Failure(NotIterable)
    ensures arg.Many? ==> (r.Success? <==> forall i :: 0 <= i < |arg.items| ==> Parse(arg.items[i].ical).Some?)
    ensures arg.Many? && r.Failure? ==> r.error == MalformedDocument
    ensures arg.Many? && r.Success? ==>
      && Parse(r.value).Some?
      && Parse(r.value).value.name == "vcalendar"
      && Parse(r.value).value.props == Header(cal).props
      && Parse(r.value).value.subs == CollectVevents(arg.items, variant).value
      && Cleaned(Parse(r.value).value.subs, variant)
  {
    match arg
    case One(e) => Success(e.ical)
    case Missing => Failure(NotIterable)
    case Many(items) =>
      match CollectVevents(items, variant)
      case None => Failure(MalformedDocument)
      case Some(vevents) => Success(Serialize(Header(cal).(subs := vevents)))
  }

  // ---------------------------------------------------------------- the alarm-state defect

  /** A stored event whose text holds only `AcknowledgedEvent`. */
  function AcknowledgedRecord(): EventRecord
  {
    EventRecord(0, "a", Serialize(Component("vcalendar", [], [AcknowledgedEvent()])))
  }

  /** The acknowledged record's text holds exactly the one VEVENT, cleaned as the reading says. */
  lemma AcknowledgedCollected(variant: Variant)
    ensures CollectVevents([AcknowledgedRecord()], variant) == Some([Clean(variant)(AcknowledgedEvent())])
  {
    var v := AcknowledgedEvent();
    var root := Component("vcalendar", [], [v]);
    var found := AllSubcomponents(root, "vevent");
    assert found == [v] by { assert v in found; }
    assert Parse(AcknowledgedRecord().ical) == Some(root);
    assert Map(found, Clean(variant)) == [Clean(variant)(v)];
    assert [AcknowledgedRecord()][1..] == [];
  }

  /**
   * Built as written, a stored VEVENT keeps its `x-moz-lastack` line; built as
   * intended, the line is gone.
   */
  lemma MozStateSurvives(cal: Calendar)
    ensures ParsedNames(AcknowledgedEvent())
    ensures Property("x-moz-lastack", [Time(Epoch)]) in AcknowledgedEvent().props
    ensures BuildICS(Many([AcknowledgedRecord()]), cal, AsWritten)
         == Success(Serialize(Header(cal).(subs := [AcknowledgedEvent()])))
    ensures BuildICS(Many([AcknowledgedRecord()]), cal, Corrected)
         == Success(Serialize(Header(cal).(subs := [Strip(AcknowledgedEvent())])))
    ensures Property("x-moz-lastack", [Time(Epoch)]) !in Strip(AcknowledgedEvent()).props
  {
    AcknowledgedEventParsed();
    StripAsWrittenIsIdentity(AcknowledgedEvent());
    LastackIsMozState();
    AcknowledgedCollected(AsWritten);
    AcknowledgedCollected(Corrected);
  }
}

=== FILE: bulk_replace.dfy ===
/**
 * `updateCalendar`: replace a calendar's metadata and all of its events with
 * the contents of an uploaded calendar document, under the principal's lock.
 */
module BulkReplace {
  import opened Wrappers
  import opened Seqs
  import opened JsText
  import opened ICal
  import opened Store
  import opened SyncToken
  import opened Calendars
  import opened Grouping
  import opened Assembly

  // ---------------------------------------------------------------- pieces

  /**
   * The metadata update: each field from the first value of the matching
   * calendar property (null when absent), the extension properties, and the
   * bumped token. `findByIdAndUpdate` is taken to return the updated record.
   */
  function Updated(cal: Calendar, comp: Component): (r: Calendar)
    ensures r.id == cal.id && r.calendarId == cal.calendarId
    ensures r.timezone == cal.timezone && r.readonly == cal.readonly
    ensures Prefix(r.synctoken) == Prefix(cal.synctoken)
    ensures Counter(r.synctoken) == Increment(Counter(cal.synctoken))
    ensures r.x == ExtensionProps(comp.props)
  {
    cal.(name := FirstPropertyValue(comp, "name"),
         prodId := FirstPropertyValue(comp, "prodid"),
         description := FirstPropertyValue(comp, "description"),
         source := FirstPropertyValue(comp, "source"),
         url := FirstPropertyValue(comp, "url"),
         scale := FirstPropertyValue(comp, "calscale"),
         x := ExtensionProps(comp.props),
         synctoken := BumpSyncToken(cal.synctoken))
  }

  /**
   * The six metadata fields of the update: each is the first value of the
   * upload's first property with that name, and null when there is none.
   */
  lemma UpdatedMetadata(cal: Calendar, comp: Component)
    ensures var r := Updated(cal, comp);
      && r.name == FirstPropertyValue(comp, "name") && r.prodId == FirstPropertyValue(comp, "prodid")
      && r.description == FirstPropertyValue(comp, "description") && r.source == FirstPropertyValue(comp, "source")
      && r.url == FirstPropertyValue(comp, "url") && r.scale == FirstPropertyValue(comp, "calscale")
  {
  }

  /** What `eventIdToEvents[k]` hands to `buildICS`: the group, or `undefined` for a key without one. */
  function GroupArg(g: Groups, k: string): EventsArg
  {
    if k in g.members then Many(g.members[k]) else Missing
  }

  /** One stored record per key, in key order, each with the text `build` makes for it. */
  function BuildGroups(keys: seq<string>, build: string -> Result<Document, Error>, calendar: nat): (r: Result<seq<EventRecord>, Error>)
    ensures (forall i :: 0 <= i < |keys| ==> build(keys[i]).Success?) ==> r.Success?
    ensures r.Success? ==> |r.value| == |keys|
    ensures r.Success? ==> forall i :: 0 <= i < |keys| ==>
      && r.value[i].calendar == calendar && r.value[i].eventId == keys[i]
      && build(keys[i]) == Success(r.value[i].ical)
  {
    if |keys| == 0 then Success([])
    else
      var head := build(keys[0]);
      var rest := BuildGroups(keys[1..], build, calendar);
      assert forall i :: 1 <= i < |keys| ==> keys[i] == keys[1..][i - 1];
      if head.Failure? then Failure(head.error)
      else if rest.Failure? then Failure(rest.error)
      else
        var r := [EventRecord(calendar, keys[0], head.value)] + rest.value;
        assert r[1..] == rest.value;
        Success(r)
  }

  /** How far the lock got: never requested, `acquireLock` threw, or it returned a lock. */
  datatype LockState = NotAttempted | AcquireThrew | Granted(success: bool)

  /** The state and result at the end of the `try` block, and the lock it holds. */
  datatype Outcome = Outcome(world: World, lock: LockState, result: Result<Calendar, Error>)

  /** The uploaded calendar's VEVENTs. */
  function Vevents(comp: Component): seq<Component>
  {
    AllSubcomponents(comp, "vevent")
  }

  /** `buildICS(eventIdToEvents[k], calendar)` for each key `k`. */
  function Builder(g: Groups, cal: Calendar, variant: Variant): string -> Result<Document, Error>
  {
    (k: string) => BuildICS(GroupArg(g, k), cal, variant)
  }

  /** The events step: nothing when the upload has no VEVENTs, else one record per listed UID. */
  function NewRecords(comp: Component, cal: Calendar, variant: Variant): (r: Result<seq<EventRecord>, Error>)
  {
    var vs := Vevents(comp);
    if |vs| == 0 then Success([])
    else BuildGroups(KeysFor(vs, cal.id, variant), Builder(GroupByUid(vs, cal.id), cal, variant), cal.id)
  }

  // ---------------------------------------------------------------- what the events step stores

  /**
   * The record stored for UID `k`: the calendar's header around every uploaded
   * VEVENT carrying `k`, in document order, cleaned as the reading says.
   */
  function Regrouped(cal: Calendar, vs: seq<Component>, k: string, variant: Variant): EventRecord
  {
    EventRecord(cal.id, k, Serialize(Header(cal).(subs := Map(Filter(vs, HasUid(k)), Clean(variant)))))
  }

  function RegroupedFor(cal: Calendar, vs: seq<Component>, variant: Variant): string -> EventRecord
  {
    (k: string) => Regrouped(cal, vs, k, variant)
  }

  /** `Regrouped` for each key, in order. */
  function RegroupKeys(cal: Calendar, vs: seq<Component>, keys: seq<string>, variant: Variant): (r: seq<EventRecord>)
    ensures |r| == |keys|
    ensures forall i :: 0 <= i < |keys| ==> r[i] == Regrouped(cal, vs, keys[i], variant)
  {
    Map(keys, RegroupedFor(cal, vs, variant))
  }

  /** A record made by the grouping step gives back exactly its VEVENT, cleaned. */
  lemma {:induction false} CollectMembers(vs: seq<Component>, calendar: nat, variant: Variant)
    requires forall i :: 0 <= i < |vs| ==> vs[i].name == "vevent"
    ensures CollectVevents(Members(vs, calendar), variant) == Some(Map(vs, Clean(variant)))
  {
    if |vs| > 0 {
      var items := Members(vs, calendar);
      assert items[1..] == Members(vs[1..], calendar);
      CollectMembers(vs[1..], calendar, variant);
      MemberVevents(vs[0], calendar, variant);
      assert Map(vs, Clean(variant)) == [Clean(variant)(vs[0])] + Map(vs[1..], Clean(variant));
    }
  }

  lemma MemberVevents(v: Component, calendar: nat, variant: Variant)
    requires v.name == "vevent"
    ensures ItemVevents(Member(v, calendar), variant) == Some([Clean(variant)(v)])
  {
    var root := Parse(Member(v, calendar).ical).value;
    assert root.subs == [v] by { AddSubcomponentEmpty(v); }
    var found := AllSubcomponents(root, "vevent");
    assert found == [v] by { assert v in found; }
    assert Map(found, Clean(variant)) == [Clean(variant)(v)];
  }

  /** `buildICS` of the grouping step's records wraps their VEVENTs, cleaned, in the calendar's header. */
  lemma BuildMembers(sel: seq<Component>, cal: Calendar, variant: Variant)
    requires forall i :: 0 <= i < |sel| ==> sel[i].name == "vevent"
    ensures BuildICS(Many(Members(sel, cal.id)), cal, variant)
         == Success(Serialize(Header(cal).(subs := Map(sel, Clean(variant)))))
  {
    var items := Members(sel, cal.id);
    CollectMembers(sel, cal.id, variant);
    assert CollectVevents(items, variant) == Some(Map(sel, Clean(variant)));
  }

  /** As written, `buildICS` of parsed VEVENTs keeps every one of their properties. */
  lemma BuildMembersAsWritten(sel: seq<Component>, cal: Calendar)
    requires forall i :: 0 <= i < |sel| ==> sel[i].name == "vevent"
    requires forall i :: 0 <= i < |sel| ==> ParsedNames(sel[i])
    ensures BuildICS(Many(Members(sel, cal.id)), cal, AsWritten) == Success(Serialize(Header(cal).(subs := sel)))
  {
    CleanAsWrittenKeeps(sel);
    BuildMembers(sel, cal, AsWritten);
  }

  /** As written, cleaning parsed VEVENTs keeps them as they are. */
  lemma CleanAsWrittenKeeps(sel: seq<Component>)
    requires forall i :: 0 <= i < |sel| ==> ParsedNames(sel[i])
    ensures Map(sel, Clean(AsWritten)) == sel
  {
    forall i | 0 <= i < |sel| ensures Map(sel, Clean(AsWritten))[i] == sel[i] {
      StripAsWrittenIsIdentity(sel[i]);
    }
  }

  /** For a UID with a group, `buildICS` of its group succeeds with the `Regrouped` text. */
  lemma BuilderGives(vs: seq<Component>, cal: Calendar, k: string, variant: Variant)
    requires forall i :: 0 <= i < |vs| ==> vs[i].name == "vevent"
    requires k in GroupByUid(vs, cal.id).members
    ensures Builder(GroupByUid(vs, cal.id), cal, variant)(k) == Success(Regrouped(cal, vs, k, variant).ical)
  {
    var sel := Filter(vs, HasUid(k));
    forall j | 0 <= j < |sel| ensures sel[j].name == "vevent" {
      assert sel[j] in vs;
    }
    BuildMembers(sel, cal, variant);
    GroupMembers(vs, cal.id, k);
  }

  /** Every group `buildICS` makes is the `Regrouped` text of its UID. */
  lemma BuilderGivesAll(vs: seq<Component>, cal: Calendar, variant: Variant)
    requires forall i :: 0 <= i < |vs| ==> vs[i].name == "vevent"
    ensures forall k :: k in GroupByUid(vs, cal.id).members ==>
      Builder(GroupByUid(vs, cal.id), cal, variant)(k) == Success(RegroupedFor(cal, vs, variant)(k).ical)
  {
    forall k | k in GroupByUid(vs, cal.id).members
      ensures Builder(GroupByUid(vs, cal.id), cal, variant)(k) == Success(RegroupedFor(cal, vs, variant)(k).ical)
    {
      BuilderGives(vs, cal, k, variant);
    }
  }

  /**
   * When `build` gives each key the text of `f`'s record for it, and `f` files
   * it under that key in `calendar`, `BuildGroups` stores exactly `f`'s records.
   */
  lemma {:induction false} BuildGroupsMap(keys: seq<string>, build: string -> Result<Document, Error>, calendar: nat, f: string -> EventRecord)
    requires forall k :: k in keys ==>
      && f(k).calendar == calendar && f(k).eventId == k
      && build(k) == Success(f(k).ical)
    ensures BuildGroups(keys, build, calendar) == Success(Map(keys, f))
  {
    if |keys| > 0 {
      assert keys[0] in keys;
      BuildGroupsMap(keys[1..], build, calendar, f);
    }
  }

  /** Building the listed groups of some VEVENTs gives their `Regrouped` records, in `Object.keys` order. */
  lemma BuildListedGroups(vs: seq<Component>, cal: Calendar, variant: Variant)
    requires forall i :: 0 <= i < |vs| ==> vs[i].name == "vevent"
    ensures BuildGroups(KeysFor(vs, cal.id, variant), Builder(GroupByUid(vs, cal.id), cal, variant), cal.id)
         == Success(RegroupKeys(cal, vs, KeysFor(vs, cal.id, variant), variant))
  {
    var keys := KeysFor(vs, cal.id, variant);
    BuilderGivesAll(vs, cal, variant);
    BuildGroupsMap(keys, Builder(GroupByUid(vs, cal.id), cal, variant), cal.id, RegroupedFor(cal, vs, variant));
  }

  /**
   * The events step always succeeds, and stores one `Regrouped` record per
   * listed UID, in `Object.keys` order; as written a parsed VEVENT keeps every
   * property and a `__proto__` group is not listed.
   */
  lemma NewRecordsRegroup(comp: Component, cal: Calendar, variant: Variant)
    ensures NewRecords(comp, cal, variant)
         == Success(RegroupKeys(cal, Vevents(comp), KeysFor(Vevents(comp), cal.id, variant), variant))
  {
    var vs := Vevents(comp);
    if |vs| > 0 {
      forall j | 0 <= j < |vs| ensures vs[j].name == "vevent" {
        assert vs[j] in comp.subs;
      }
      BuildListedGroups(vs, cal, variant);
    } else {
      NoKeysForNothing(vs, cal.id, variant);
    }
  }

  // ---------------------------------------------------------------- the writes

  /** The two collections and the result after the writes made under the lock. */
  datatype Written = Written(calendars: seq<Calendar>, events: seq<EventRecord>, result: Result<Calendar, Error>)

  /**
   * The writes made under the lock: the metadata with the bumped token, the
   * deletion of the calendar's events, then one record per UID. They touch
   * only the two collections.
   */
  function Writes(cals: seq<Calendar>, evs: seq<EventRecord>, failing: set<Step>, cal: Calendar, comp: Component, variant: Variant): (r: Written)
  {
    if UpdateCalendarRecord in failing then Written(cals, evs, Failure(StepFailed(UpdateCalendarRecord)))
    else
      var cal' := Updated(cal, comp);
      var calendars := ReplaceCalendar(cals, cal');
      if DeleteCalendarEvents in failing then Written(calendars, evs, Failure(StepFailed(DeleteCalendarEvents)))
      else
        var events := DeleteEventsOf(evs, cal.id);
        if |Vevents(comp)| == 0 then Written(calendars, events, Success(cal'))
        else
          match NewRecords(comp, cal', variant)
          case Failure(e) => Written(calendars, events, Failure(e))
          case Success(records) =>
            if CreateEventRecords in failing then Written(calendars, events, Failure(StepFailed(CreateEventRecords)))
            else Written(calendars, events + records, Success(cal'))
  }

  // ---------------------------------------------------------------- the operation

  /**
   * The `try` block of `updateCalendar`: parse, collect VEVENTs and extension
   * properties, resolve the calendar, take the lock, then make the writes.
   */
  function ReplaceBody(w: World, ctx: Ctx, faults: Faults, calendarId: string, body: Document, variant: Variant): (o: Outcome)
    ensures Parse(body).None? ==> o == Outcome(w, NotAttempted, Failure(MalformedDocument))
    ensures o.lock.Granted? <==>
      Parse(body).Some? && GetCalendar(w, ctx, faults, calendarId).result.Success? && AcquireLock !in faults.failing
    ensures o.lock.Granted? ==> o.lock.success == faults.lockSuccess
    ensures o.world.locks == if o.lock == Granted(true) then w.locks + {ctx.user.aliasId} else w.locks
  {
    match Parse(body)
    case None => Outcome(w, NotAttempted, Failure(MalformedDocument))
    case Some(comp) =>
      var got := GetCalendar(w, ctx, faults, calendarId);
      match got.result
      case Failure(e) => Outcome(got.world, NotAttempted, Failure(e))
      case Success(cal) =>
        if AcquireLock in faults.failing then Outcome(got.world, AcquireThrew, Failure(StepFailed(AcquireLock)))
        else
          var w1 := if faults.lockSuccess then got.world.(locks := got.world.locks + {ctx.user.aliasId}) else got.world;
          var written := Writes(got.world.calendars, got.world.events, faults.failing, cal, comp, variant);
          Outcome(w1.(calendars := written.calendars, events := written.events), Granted(faults.lockSuccess), written.result)
  }

  /** The release after the `try` block: only a lock whose `success` flag is set; a throw is only logged. */
  function Release(o: Outcome, faults: Faults, aliasId: string): (w: World)
    ensures w.calendars == o.world.calendars && w.events == o.world.events
    ensures o.lock == Granted(true) && ReleaseLock !in faults.failing ==> w.locks == o.world.locks - {aliasId}
    ensures o.lock != Granted(true) || ReleaseLock in faults.failing ==> w == o.world
  {
    if o.lock == Granted(true) && ReleaseLock !in faults.failing then o.world.(locks := o.world.locks - {aliasId})
    else o.world
  }

  /**
   * `updateCalendar` corrected: every group is stored, the alarm-state
   * properties are removed whatever their letter case, and the lock is released
   * on every path. The result is the `try` block's, whatever the release does.
   */
  function UpdateCalendar(w: World, ctx: Ctx, faults: Faults, calendarId: string, body: Document): (r: Reply<Calendar>)
    ensures r.result == ReplaceBody(w, ctx, faults, calendarId, body, Corrected).result
    ensures ctx.user.aliasId !in w.locks && ReleaseLock !in faults.failing ==> r.world.locks == w.locks
    ensures r.world.events == ReplaceBody(w, ctx, faults, calendarId, body, Corrected).world.events
    ensures r.world.calendars == ReplaceBody(w, ctx, faults, calendarId, body, Corrected).world.calendars
  {
    var o := ReplaceBody(w, ctx, faults, calendarId, body, Corrected);
    Reply(Release(o, faults, ctx.user.aliasId), o.result)
  }

  /**
   * `updateCalendar` as written: the writes use the plain-object grouping and
   * the exact-name removal, and the `return` inside the `try` block skips the
   * release code after it, so the lock is released only on failure.
   */
  function UpdateCalendarAsWritten(w: World, ctx: Ctx, faults: Faults, calendarId: string, body: Document): (r: Reply<Calendar>)
    ensures r.result == ReplaceBody(w, ctx, faults, calendarId, body, AsWritten).result
    ensures r.world.events == ReplaceBody(w, ctx, faults, calendarId, body, AsWritten).world.events
    ensures r.world.calendars == ReplaceBody(w, ctx, faults, calendarId, body, AsWritten).world.calendars
    ensures r.result.Failure? ==> r.world.locks == Release(ReplaceBody(w, ctx, faults, calendarId, body, AsWritten), faults, ctx.user.aliasId).locks
    ensures r.result.Success? ==> r.world == ReplaceBody(w, ctx, faults, calendarId, body, AsWritten).world
  {
    var o := ReplaceBody(w, ctx, faults, calendarId, body, AsWritten);
    match o.result
    case Success(cal) => Reply(o.world, Success(cal))
    case Failure(e) => Reply(Release(o, faults, ctx.user.aliasId), Failure(e))
  }

  /** `updateCalendar` in the given reading. */
  function UpdateCalendarIn(variant: Variant, w: World, ctx: Ctx, faults: Faults, calendarId: string, body: Document): Reply<Calendar>
  {
    match variant
    case AsWritten => UpdateCalendarAsWritten(w, ctx, faults, calendarId, body)
    case Corrected => UpdateCalendar(w, ctx, faults, calendarId, body)
  }

  // ---------------------------------------------------------------- the successful replace

  /** With no write failing: the metadata is updated, the calendar's events are cleared, and the regrouped ones stored. */
  lemma WritesSucceed(cals: seq<Calendar>, evs: seq<EventRecord>, failing: set<Step>, cal: Calendar, comp: Component, variant: Variant)
    requires UpdateCalendarRecord !in failing && DeleteCalendarEvents !in failing && CreateEventRecords !in failing
    ensures var cal' := Updated(cal, comp);
      Writes(cals, evs, failing, cal, comp, variant) == Written(
        ReplaceCalendar(cals, cal'),
        DeleteEventsOf(evs, cal.id) + RegroupKeys(cal', Vevents(comp), KeysFor(Vevents(comp), cal.id, variant), variant),
        Success(cal'))
  {
    var cal' := Updated(cal, comp);
    var vs := Vevents(comp);
    var records := RegroupKeys(cal', vs, KeysFor(vs, cal.id, variant), variant);
    NewRecordsRegroup(comp, cal', variant);
    if |vs| == 0 {
      NoKeysForNothing(vs, cal.id, variant);
      assert records == [];
      assert DeleteEventsOf(evs, cal.id) + records == DeleteEventsOf(evs, cal.id);
    } else {
      assert NewRecords(comp, cal', variant) == Success(records);
    }
  }

  lemma NoKeysForNothing(vs: seq<Component>, calendar: nat, variant: Variant)
    requires |vs| == 0
    ensures KeysFor(vs, calendar, variant) == []
  {
    var keys := KeysFor(vs, calendar, variant);
    assert GroupByUid(vs, calendar).members == map[];
  }

  /** When storing the new records fails, the metadata update and the delete have already happened. */
  lemma WritesInsertFails(cals: seq<Calendar>, evs: seq<EventRecord>, failing: set<Step>, cal: Calendar, comp: Component, variant: Variant)
    requires UpdateCalendarRecord !in failing && DeleteCalendarEvents !in failing && CreateEventRecords in failing
    requires |Vevents(comp)| > 0
    ensures Writes(cals, evs, failing, cal, comp, variant) == Written(
      ReplaceCalendar(cals, Updated(cal, comp)), DeleteEventsOf(evs, cal.id), Failure(StepFailed(CreateEventRecords)))
  {
    NewRecordsRegroup(comp, Updated(cal, comp), variant);
  }

  /** The regrouped records carry distinct UIDs, all for the one calendar. */
  lemma RegroupKeysShape(cal: Calendar, vs: seq<Component>, variant: Variant)
    ensures var records := RegroupKeys(cal, vs, KeysFor(vs, cal.id, variant), variant);
      && (forall i :: 0 <= i < |records| ==> records[i].calendar == cal.id)
      && (forall i, j :: 0 <= i < j < |records| ==> records[i].eventId != records[j].eventId)
  {
    var keys := KeysFor(vs, cal.id, variant);
    var records := RegroupKeys(cal, vs, keys, variant);
    forall i, j | 0 <= i < j < |records| ensures records[i].eventId != records[j].eventId {
      assert records[i].eventId == keys[i] && records[j].eventId == keys[j];
    }
  }

  /** A listed key has a record. */
  lemma RegroupHasKey(cal: Calendar, vs: seq<Component>, keys: seq<string>, variant: Variant, k: string)
    requires k in keys
    ensures var records := RegroupKeys(cal, vs, keys, variant);
      exists j :: 0 <= j < |records| && records[j].eventId == k
  {
    var records := RegroupKeys(cal, vs, keys, variant);
    var j :| 0 <= j < |keys| && keys[j] == k;
    assert records[j] == Regrouped(cal, vs, keys[j], variant);
  }

  /** A key that is not listed has no record. */
  lemma RegroupLacksKey(cal: Calendar, vs: seq<Component>, keys: seq<string>, variant: Variant, k: string)
    requires k !in keys
    ensures var records := RegroupKeys(cal, vs, keys, variant);
      forall j :: 0 <= j < |records| ==> records[j].eventId != k
  {
    var records := RegroupKeys(cal, vs, keys, variant);
    forall j | 0 <= j < |records| ensures records[j].eventId != k {
      assert records[j].eventId == keys[j] && keys[j] in keys;
    }
  }

  /** Every uploaded UID has a record, except that as written a `__proto__` UID has none. */
  lemma RegroupCoversUpload(cal: Calendar, vs: seq<Component>, variant: Variant)
    ensures var records := RegroupKeys(cal, vs, KeysFor(vs, cal.id, variant), variant);
      forall i :: 0 <= i < |vs| ==>
        ((exists j :: 0 <= j < |records| && records[j].eventId == UidOf(vs[i])) <==>
         (variant == Corrected || UidOf(vs[i]) != "__proto__"))
  {
    var keys := KeysFor(vs, cal.id, variant);
    var records := RegroupKeys(cal, vs, keys, variant);
    forall i | 0 <= i < |vs|
      ensures (exists j :: 0 <= j < |records| && records[j].eventId == UidOf(vs[i])) <==>
              (variant == Corrected || UidOf(vs[i]) != "__proto__")
    {
      GroupsCover(vs, cal.id, i);
      if variant == Corrected || UidOf(vs[i]) != "__proto__" {
        RegroupHasKey(cal, vs, keys, variant, UidOf(vs[i]));
      } else {
        RegroupLacksKey(cal, vs, keys, variant, UidOf(vs[i]));
      }
    }
  }

  /** Every record's UID comes from the upload. */
  lemma RegroupFromUpload(cal: Calendar, vs: seq<Component>, variant: Variant)
    ensures var records := RegroupKeys(cal, vs, KeysFor(vs, cal.id, variant), variant);
      forall j :: 0 <= j < |records| ==> exists i :: 0 <= i < |vs| && UidOf(vs[i]) == records[j].eventId
  {
    var keys := KeysFor(vs, cal.id, variant);
    var records := RegroupKeys(cal, vs, keys, variant);
    forall j | 0 <= j < |records| ensures exists i :: 0 <= i < |vs| && UidOf(vs[i]) == records[j].eventId {
      assert records[j] == Regrouped(cal, vs, keys[j], variant);
      assert keys[j] in keys;
      GroupsNonEmpty(vs, cal.id, keys[j]);
    }
  }

  /**
   * The records the replace stores partition the upload by UID: an uploaded
   * UID has a record exactly when it is listed (as written, not `__proto__`),
   * every record's UID comes from the upload, and no UID has two records.
   */
  lemma RegroupPartition(cal: Calendar, vs: seq<Component>, variant: Variant)
    ensures Partitions(vs, variant, RegroupKeys(cal, vs, KeysFor(vs, cal.id, variant), variant))
  {
    RegroupKeysShape(cal, vs, variant);
    RegroupCoversUpload(cal, vs, variant);
    RegroupFromUpload(cal, vs, variant);
  }

  /** With no write failing, `updateCalendar` leaves exactly the collections `WritesSucceed` describes. */
  lemma UpdateCalendarWrites(w: World, ctx: Ctx, faults: Faults, calendarId: string, body: Document, variant: Variant)
    requires Parse(body).Some? && GetCalendar(w, ctx, faults, calendarId).result.Success?
    requires AcquireLock !in faults.failing && UpdateCalendarRecord !in faults.failing
    requires DeleteCalendarEvents !in faults.failing && CreateEventRecords !in faults.failing
    ensures var got := GetCalendar(w, ctx, faults, calendarId);
      var cal := got.result.value;
      var cal' := Updated(cal, Parse(body).value);
      var vs := Vevents(Parse(body).value);
      var r := UpdateCalendarIn(variant, w, ctx, faults, calendarId, body);
      && r.result == Success(cal')
      && r.world.calendars == ReplaceCalendar(got.world.calendars, cal')
      && r.world.events == DeleteEventsOf(got.world.events, cal.id) + RegroupKeys(cal', vs, KeysFor(vs, cal.id, variant), variant)
  {
    var got := GetCalendar(w, ctx, faults, calendarId);
    WritesSucceed(got.world.calendars, got.world.events, faults.failing, got.result.value, Parse(body).value, variant);
  }

  /**
   * The successful `updateCalendar`: the caller gets the updated metadata with
   * the bumped token, the calendar's events become exactly one regrouped record
   * per listed UID of the upload, every other calendar's events are unchanged,
   * and the store invariant holds.
   */
  lemma UpdateCalendarReplaces(w: World, ctx: Ctx, faults: Faults, calendarId: string, body: Document, other: nat, variant: Variant)
    requires Wf(w)
    requires Parse(body).Some? && GetCalendar(w, ctx, faults, calendarId).result.Success?
    requires AcquireLock !in faults.failing && UpdateCalendarRecord !in faults.failing
    requires DeleteCalendarEvents !in faults.failing && CreateEventRecords !in faults.failing
    ensures var cal := GetCalendar(w, ctx, faults, calendarId).result.value;
      var comp := Parse(body).value;
      var vs := Vevents(comp);
      var r := UpdateCalendarIn(variant, w, ctx, faults, calendarId, body);
      && r.result == Success(Updated(cal, comp))
      && TokenOf(r.world, cal.id) == Some(BumpSyncToken(cal.synctoken))
      && EventsOf(r.world.events, cal.id) == RegroupKeys(Updated(cal, comp), vs, KeysFor(vs, cal.id, variant), variant)
      && (other != cal.id ==> EventsOf(r.world.events, other) == EventsOf(w.events, other))
      && Wf(r.world)
  {
    var got := GetCalendar(w, ctx, faults, calendarId);
    var cal := got.result.value;
    var comp := Parse(body).value;
    var cal' := Updated(cal, comp);
    var vs := Vevents(comp);
    var records := RegroupKeys(cal', vs, KeysFor(vs, cal.id, variant), variant);
    UpdateCalendarWrites(w, ctx, faults, calendarId, body, variant);
    var r := UpdateCalendarIn(variant, w, ctx, faults, calendarId, body);
    ReplaceCalendarLookup(got.world.calendars, cal', cal.id);
    RegroupKeysShape(cal', vs, variant);
    ReplaceEventsOf(got.world.events, cal.id, records, other);
    ReplaceKeepsWf(got.world, cal', records);
    assert Wf(r.world) by {
      assert r.world == got.world.(calendars := r.world.calendars, events := r.world.events, locks := r.world.locks);
    }
  }

  /** The record's text is the calendar's header around exactly the VEVENTs carrying its UID, in document order, cleaned. */
  predicate HoldsGroup(cal: Calendar, vs: seq<Component>, e: EventRecord, variant: Variant)
  {
    Parse(e.ical) == Some(Header(cal).(subs := Map(Filter(vs, HasUid(e.eventId)), Clean(variant))))
  }

  lemma RegroupHolds(cal: Calendar, vs: seq<Component>, keys: seq<string>, variant: Variant)
    ensures var records := RegroupKeys(cal, vs, keys, variant);
      forall j :: 0 <= j < |records| ==> HoldsGroup(cal, vs, records[j], variant)
  {
  }

  /** The calendar's events after a successful replace, as `UpdateCalendarReplaces` gives them. */
  lemma StoredIsRegrouped(w: World, ctx: Ctx, faults: Faults, calendarId: string, body: Document, variant: Variant,
                           cal: Calendar, comp: Component)
    requires Wf(w)
    requires Parse(body) == Some(comp) && GetCalendar(w, ctx, faults, calendarId).result == Success(cal)
    requires AcquireLock !in faults.failing && UpdateCalendarRecord !in faults.failing
    requires DeleteCalendarEvents !in faults.failing && CreateEventRecords !in faults.failing
    ensures EventsOf(UpdateCalendarIn(variant, w, ctx, faults, calendarId, body).world.events, cal.id)
        == RegroupKeys(Updated(cal, comp), Vevents(comp), KeysFor(Vevents(comp), cal.id, variant), variant)
  {
    UpdateCalendarReplaces(w, ctx, faults, calendarId, body, cal.id, variant);
  }

  /**
   * What a calendar holds after a successful replace: each stored event's text
   * parses back to the updated header around exactly the uploaded VEVENTs with
   * its UID, every stored UID comes from the upload, no UID is stored twice,
   * and an uploaded UID is stored exactly when it is listed.
   */
  predicate StoresGroups(cal: Calendar, vs: seq<Component>, variant: Variant, stored: seq<EventRecord>)
  {
    && (forall j :: 0 <= j < |stored| ==> HoldsGroup(cal, vs, stored[j], variant))
    && Partitions(vs, variant, stored)
  }

  /**
   * Every stored UID comes from the upload, no UID is stored twice, and an
   * uploaded UID is stored exactly when it is listed.
   */
  predicate Partitions(vs: seq<Component>, variant: Variant, stored: seq<EventRecord>)
  {
    && (forall j :: 0 <= j < |stored| ==> exists i :: 0 <= i < |vs| && UidOf(vs[i]) == stored[j].eventId)
    && (forall i, j :: 0 <= i < j < |stored| ==> stored[i].eventId != stored[j].eventId)
    && (forall i :: 0 <= i < |vs| ==>
         ((exists j :: 0 <= j < |stored| && stored[j].eventId == UidOf(vs[i])) <==>
          (variant == Corrected || UidOf(vs[i]) != "__proto__")))
  }

  /** The successful replace leaves the calendar holding the groups of the upload. */
  lemma UpdateCalendarStoresGroups(w: World, ctx: Ctx, faults: Faults, calendarId: string, body: Document, variant: Variant,
                                    cal: Calendar, comp: Component)
    requires Wf(w)
    requires Parse(body) == Some(comp) && GetCalendar(w, ctx, faults, calendarId).result == Success(cal)
    requires AcquireLock !in faults.failing && UpdateCalendarRecord !in faults.failing
    requires DeleteCalendarEvents !in faults.failing && CreateEventRecords !in faults.failing
    ensures StoresGroups(Updated(cal, comp), Vevents(comp), variant,
                         EventsOf(UpdateCalendarIn(variant, w, ctx, faults, calendarId, body).world.events, cal.id))
  {
    StoredIsRegrouped(w, ctx, faults, calendarId, body, variant, cal, comp);
    StoredPartition(Updated(cal, comp), Vevents(comp), variant,
                    EventsOf(UpdateCalendarIn(variant, w, ctx, faults, calendarId, body).world.events, cal.id));
  }

  /** Records equal to the regrouping hold their groups and partition the upload. */
  lemma StoredPartition(cal: Calendar, vs: seq<Component>, variant: Variant, stored: seq<EventRecord>)
    requires stored == RegroupKeys(cal, vs, KeysFor(vs, cal.id, variant), variant)
    ensures StoresGroups(cal, vs, variant, stored)
  {
    RegroupPartition(cal, vs, variant);
    RegroupHolds(cal, vs, KeysFor(vs, cal.id, variant), variant);
  }

  /**
   * The writes are not one transaction: when storing the new records fails
   * after the delete, the calendar is left with the bumped token and no events,
   * and the caller sees the error.
   */
  lemma InsertFailureEmptiesCalendar(w: World, ctx: Ctx, faults: Faults, calendarId: string, body: Document, variant: Variant)
    requires Wf(w)
    requires Parse(body).Some? && GetCalendar(w, ctx, faults, calendarId).result.Success?
    requires |Vevents(Parse(body).value)| > 0
    requires AcquireLock !in faults.failing && UpdateCalendarRecord !in faults.failing
    requires DeleteCalendarEvents !in faults.failing && CreateEventRecords in faults.failing
    ensures var cal := GetCalendar(w, ctx, faults, calendarId).result.value;
      var r := UpdateCalendarIn(variant, w, ctx, faults, calendarId, body);
      && r.result == Failure(StepFailed(CreateEventRecords))
      && TokenOf(r.world, cal.id) == Some(BumpSyncToken(cal.synctoken))
      && EventsOf(r.world.events, cal.id) == []
  {
    var got := GetCalendar(w, ctx, faults, calendarId);
    var cal := got.result.value;
    var comp := Parse(body).value;
    var cal' := Updated(cal, comp);
    WritesInsertFails(got.world.calendars, got.world.events, faults.failing, cal, comp, variant);
    var r := UpdateCalendarIn(variant, w, ctx, faults, calendarId, body);
    assert r.world.calendars == ReplaceCalendar(got.world.calendars, cal');
    assert r.world.events == DeleteEventsOf(got.world.events, cal.id);
    ReplaceCalendarLookup(got.world.calendars, cal', cal.id);
    FilterNone(r.world.events, InCalendar(cal.id));
  }

  // ---------------------------------------------------------------- lock discipline

  /** A malformed upload fails before the lock is requested and changes nothing, in either reading. */
  lemma MalformedTouchesNothing(w: World, ctx: Ctx, faults: Faults, calendarId: string, body: Document, variant: Variant)
    requires Parse(body).None?
    ensures UpdateCalendarIn(variant, w, ctx, faults, calendarId, body) == Reply(w, Failure(MalformedDocument))
  {
  }

  /**
   * A failure after the lock was granted still releases it, in either reading,
   * and the caller sees the original error even when the release itself throws.
   */
  lemma FailureAfterLockReleases(w: World, ctx: Ctx, faults: Faults, calendarId: string, body: Document, variant: Variant)
    requires ctx.user.aliasId !in w.locks
    requires ReplaceBody(w, ctx, faults, calendarId, body, variant).lock == Granted(true)
    requires ReplaceBody(w, ctx, faults, calendarId, body, variant).result.Failure?
    ensures var r := UpdateCalendarIn(variant, w, ctx, faults, calendarId, body);
      && r.result == Failure(ReplaceBody(w, ctx, faults, calendarId, body, variant).result.error)
      && (ReleaseLock !in faults.failing ==> ctx.user.aliasId !in r.world.locks)
  {
  }

  /** As written, every successful replace under a granted lock leaves the lock held; corrected, it is released. */
  lemma LockLeaksAsWritten(w: World, ctx: Ctx, faults: Faults, calendarId: string, body: Document)
    requires faults.lockSuccess
    requires ReplaceBody(w, ctx, faults, calendarId, body, AsWritten).result.Success?
    ensures ctx.user.aliasId in UpdateCalendarAsWritten(w, ctx, faults, calendarId, body).world.locks
    ensures ReleaseLock !in faults.failing ==>
      ctx.user.aliasId !in UpdateCalendar(w, ctx, faults, calendarId, body).world.locks
  {
    var o := ReplaceBody(w, ctx, faults, calendarId, body, AsWritten);
    assert o.lock.Granted?;
  }

  /** A lock handed back with `success` unset does not stop the writes. */
  lemma LockFlagIgnored(w: World, ctx: Ctx, faults: Faults, calendarId: string, body: Document, variant: Variant)
    ensures ReplaceBody(w, ctx, faults.(lockSuccess := true), calendarId, body, variant).result
         == ReplaceBody(w, ctx, faults.(lockSuccess := false), calendarId, body, variant).result
    ensures ReplaceBody(w, ctx, faults.(lockSuccess := true), calendarId, body, variant).world.events
         == ReplaceBody(w, ctx, faults.(lockSuccess := false), calendarId, body, variant).world.events
    ensures ReplaceBody(w, ctx, faults.(lockSuccess := true), calendarId, body, variant).world.calendars
         == ReplaceBody(w, ctx, faults.(lockSuccess := false), calendarId, body, variant).world.calendars
  {
    var yes := faults.(lockSuccess := true);
    var no := faults.(lockSuccess := false);
    assert GetCalendar(w, ctx, yes, calendarId) == GetCalendar(w, ctx, no, calendarId) by {
      assert yes.failing == no.failing;
      GetCalendarFailing(w, ctx, yes, no, calendarId);
    }
  }
}

=== FILE: calendars.dfy ===
/**
 * Identity and calendar resolution: `createCalendar`, the get-or-create
 * `getCalendar` every other operation starts with, and `authenticate`.
 */
module Calendars {
  import opened Wrappers
  import opened JsText
  import opened ICal
  import opened Store
  import opened SyncToken

  /** The authenticated account as the auth collaborator returns it. */
  datatype User = User(username: string, timezone: Value, aliasId: string)

  /**
   * What an operation reads from its request context: the configured web URL,
   * the request locale, the translation of `CALENDAR`, the session user, and the
   * value `randomUUID()` would return.
   */
  datatype Ctx = Ctx(webUrl: string, locale: string, calendarLabel: string, user: User, uuid: string)

  /** An authenticated principal; its id and name are the username. */
  datatype Identity = Identity(user: User, principalId: string, principalName: string)

  /** The product identifier given to calendars created on the server. */
  function ProdIdFor(locale: string): Value
  {
    Text("//forwardemail.net//caldav//" + Upper(locale))
  }

  /** The record `Calendars.create` stores, with the next free internal id. */
  function NewCalendar(w: World, ctx: Ctx, calendarId: string, name: Value, description: Value, timezone: Value): (c: Calendar)
    ensures c.id == |w.calendars| && c.calendarId == calendarId
    ensures Counter(c.synctoken) == Some(1)
    ensures Prefix(c.synctoken) == ctx.webUrl + "/ns/sync-token"
    ensures c.x == [] && !c.readonly
  {
    Calendar(
      id := |w.calendars|,
      calendarId := calendarId,
      name := name,
      description := description,
      prodId := ProdIdFor(ctx.locale),
      timezone := timezone,
      url := Text(ctx.webUrl),
      source := Null,
      scale := Null,
      readonly := false,
      synctoken := InitialSyncToken(ctx.webUrl),
      x := [])
  }

  /**
   * `createCalendar`: name defaults to the path's calendar id, then to a fresh
   * UUID; the calendar id defaults to the name. No existing record is consulted.
   */
  function CreateCalendar(w: World, ctx: Ctx, faults: Faults, pathCalendarId: Option<string>,
                          name: Option<string>, description: Value, timezone: Value): (r: Reply<Calendar>)
    ensures r.result.Success? <==> CreateCalendarRecord !in faults.failing
    ensures r.result.Failure? ==> r.world == w
    ensures r.result.Success? ==>
      var c := r.result.value;
      && r.world == w.(calendars := w.calendars + [c])
      && c.id == |w.calendars|
      && Counter(c.synctoken) == Some(1)
      && c.name == Text(OrElse(name, OrElse(pathCalendarId, ctx.uuid)))
      && c.calendarId == OrElse(pathCalendarId, OrElse(name, OrElse(pathCalendarId, ctx.uuid)))
      && c.timezone == (if Truthy(timezone) then timezone else ctx.user.timezone)
    ensures Wf(w) ==> Wf(r.world)
  {
    var name' := OrElse(name, OrElse(pathCalendarId, ctx.uuid));
    var calendarId := OrElse(pathCalendarId, name');
    if CreateCalendarRecord in faults.failing then Reply(w, Failure(StepFailed(CreateCalendarRecord)))
    else
      var c := NewCalendar(w, ctx, calendarId, Text(name'), description,
                           if Truthy(timezone) then timezone else ctx.user.timezone);
      Reply(w.(calendars := w.calendars + [c]), Success(c))
  }

  // ---------------------------------------------------------------- object ids

  predicate IsHexDigit(c: char)
  {
    ('0' <= c <= '9') || ('a' <= c <= 'f') || ('A' <= c <= 'F')
  }

  /** `mongoose.isObjectIdOrHexString` on a string: exactly 24 hexadecimal digits. */
  predicate IsObjectIdHex(s: string)
  {
    |s| == 24 && forall i :: 0 <= i < |s| ==> IsHexDigit(s[i])
  }

  function HexDigitValue(c: char): nat
    requires IsHexDigit(c)
  {
    if '0' <= c <= '9' then c as int - '0' as int
    else if 'a' <= c <= 'f' then c as int - 'a' as int + 10
    else c as int - 'A' as int + 10
  }

  /** `new mongoose.Types.ObjectId(s)`: the id a hexadecimal string denotes. */
  function HexValue(s: string): nat
    requires forall i :: 0 <= i < |s| ==> IsHexDigit(s[i])
  {
    if |s| == 0 then 0 else HexValue(s[..|s| - 1]) * 16 + HexDigitValue(s[|s| - 1])
  }

  // ---------------------------------------------------------------- get-or-create

  /** The record the two lookups of `getCalendar` find: by object id first, then by calendar id. */
  function Existing(cals: seq<Calendar>, calendarId: string): (r: Option<Calendar>)
    ensures r.Some? ==> r.value in cals
    ensures r.None? ==> forall i :: 0 <= i < |cals| ==> cals[i].calendarId != calendarId
  {
    var byId := if IsObjectIdHex(calendarId) then LookupById(cals, HexValue(calendarId)) else None;
    if byId.Some? then byId else LookupByCalendarId(cals, calendarId)
  }

  /** Neither lookup `getCalendar` performs for `calendarId` throws. */
  predicate LookupsSucceed(faults: Faults, calendarId: string)
  {
    && (IsObjectIdHex(calendarId) ==> FindCalendarById !in faults.failing)
    && FindCalendarByCalendarId !in faults.failing
  }

  /**
   * `getCalendar`: look the calendar up by object id (when the identifier is
   * shaped like one), then by `calendarId`, and create it with default metadata
   * only when both lookups miss.
   */
  function GetCalendar(w: World, ctx: Ctx, faults: Faults, calendarId: string): (r: Reply<Calendar>)
    ensures r.world.events == w.events && r.world.locks == w.locks
    ensures r.result.Failure? ==> r.world == w
    ensures r.world == w || r.world.calendars == w.calendars + [NewCalendar(w, ctx, calendarId, Text(ctx.calendarLabel), Text(ctx.webUrl), ctx.user.timezone)]
    // a record that either lookup finds is returned as it is, and nothing is created
    ensures LookupsSucceed(faults, calendarId) && Existing(w.calendars, calendarId).Some?
            ==> r == Reply(w, Success(Existing(w.calendars, calendarId).value))
    // a record is created exactly when both lookups miss
    ensures r.world != w <==>
            && LookupsSucceed(faults, calendarId)
            && CreateCalendarRecord !in faults.failing
            && Existing(w.calendars, calendarId).None?
    ensures r.world != w ==> r.result.Success? && r.result.value.calendarId == calendarId
                             && Counter(r.result.value.synctoken) == Some(1)
    ensures r.result.Success? && r.world == w ==> Existing(w.calendars, calendarId) == Some(r.result.value)
    // a lookup that throws fails the call with its error, and so does a failing create
    ensures IsObjectIdHex(calendarId) && FindCalendarById in faults.failing
            ==> r == Reply(w, Failure(StepFailed(FindCalendarById)))
    ensures && FindCalendarByCalendarId in faults.failing
            && (IsObjectIdHex(calendarId) ==> FindCalendarById !in faults.failing && LookupById(w.calendars, HexValue(calendarId)).None?)
            ==> r == Reply(w, Failure(StepFailed(FindCalendarByCalendarId)))
    ensures LookupsSucceed(faults, calendarId) && Existing(w.calendars, calendarId).None? && CreateCalendarRecord in faults.failing
            ==> r == Reply(w, Failure(StepFailed(CreateCalendarRecord)))
    ensures r.result.Success? && Wf(w) ==> LookupById(r.world.calendars, r.result.value.id) == Some(r.result.value)
    ensures Wf(w) ==> Wf(r.world)
  {
    if IsObjectIdHex(calendarId) && FindCalendarById in faults.failing then
      Reply(w, Failure(StepFailed(FindCalendarById)))
    else
      var byId := if IsObjectIdHex(calendarId) then LookupById(w.calendars, HexValue(calendarId)) else None;
      if byId.Some? then
        ById(w, byId.value);
        Reply(w, Success(byId.value))
      else if FindCalendarByCalendarId in faults.failing then
        Reply(w, Failure(StepFailed(FindCalendarByCalendarId)))
      else
        var byCalendarId := LookupByCalendarId(w.calendars, calendarId);
        if byCalendarId.Some? then
          ById(w, byCalendarId.value);
          Reply(w, Success(byCalendarId.value))
        else if CreateCalendarRecord in faults.failing then
          Reply(w, Failure(StepFailed(CreateCalendarRecord)))
        else
          var c := NewCalendar(w, ctx, calendarId, Text(ctx.calendarLabel), Text(ctx.webUrl), ctx.user.timezone);
          var w' := w.(calendars := w.calendars + [c]);
          assert w' != w by { assert |w'.calendars| != |w.calendars|; }
          Appended(w, c);
          Reply(w', Success(c))
  }

  /** Only the failing steps matter to `getCalendar`, not the lock flag. */
  lemma GetCalendarFailing(w: World, ctx: Ctx, f1: Faults, f2: Faults, calendarId: string)
    requires f1.failing == f2.failing
    ensures GetCalendar(w, ctx, f1, calendarId) == GetCalendar(w, ctx, f2, calendarId)
  {
  }

  /** Under the invariant a stored record is what a lookup by its own id returns. */
  lemma ById(w: World, c: Calendar)
    requires c in w.calendars
    ensures Wf(w) ==> LookupById(w.calendars, c.id) == Some(c)
  {
    if Wf(w) {
      var i :| 0 <= i < |w.calendars| && w.calendars[i] == c;
      FindByIdAt(w.calendars, i);
    }
  }

  lemma {:induction false} FindByIdAt(cals: seq<Calendar>, i: nat)
    requires i < |cals|
    requires forall j :: 0 <= j < |cals| ==> cals[j].id == j + cals[0].id - 0
    requires forall j :: 0 <= j < i ==> cals[j].id != cals[i].id
    ensures LookupById(cals, cals[i].id) == Some(cals[i])
  {
    if i > 0 {
      var tail := cals[1..];
      assert forall j :: 0 <= j < |tail| ==> tail[j].id == j + tail[0].id;
      FindByIdAt(tail, i - 1);
    }
  }

  /** Appending the next record keeps the invariant and makes it findable by its id. */
  lemma Appended(w: World, c: Calendar)
    requires c.id == |w.calendars|
    ensures Wf(w) ==> Wf(w.(calendars := w.calendars + [c]))
    ensures Wf(w) ==> LookupById(w.calendars + [c], c.id) == Some(c)
  {
    if Wf(w) {
      var cals := w.calendars + [c];
      assert forall i :: 0 <= i < |cals| ==> cals[i].id == i;
      FindByIdAt(cals, |w.calendars|);
    }
  }

  /** A lookup by id in a store with one more record at the end. */
  lemma {:induction false} LookupByIdAppend(cals: seq<Calendar>, c: Calendar, id: nat)
    ensures LookupById(cals + [c], id) == if LookupById(cals, id).Some? then LookupById(cals, id)
                                          else if c.id == id then Some(c) else None
  {
    if |cals| > 0 {
      assert (cals + [c])[1..] == cals[1..] + [c];
      LookupByIdAppend(cals[1..], c, id);
    }
  }

  /** A lookup by calendar id in a store with one more record at the end. */
  lemma {:induction false} LookupByCalendarIdAppend(cals: seq<Calendar>, c: Calendar, calendarId: string)
    ensures LookupByCalendarId(cals + [c], calendarId) ==
            if LookupByCalendarId(cals, calendarId).Some? then LookupByCalendarId(cals, calendarId)
            else if c.calendarId == calendarId then Some(c) else None
  {
    if |cals| > 0 {
      assert (cals + [c])[1..] == cals[1..] + [c];
      LookupByCalendarIdAppend(cals[1..], c, calendarId);
    }
  }

  /**
   * Get-or-create is idempotent: once `getCalendar` has returned a calendar, a
   * second call with the same identifier returns the same record and creates
   * nothing, so the two calls leave a single record.
   */
  lemma GetCalendarIdempotent(w: World, ctx: Ctx, faults: Faults, later: Faults, calendarId: string)
    requires Wf(w)
    requires GetCalendar(w, ctx, faults, calendarId).result.Success?
    requires LookupsSucceed(later, calendarId)
    ensures var first := GetCalendar(w, ctx, faults, calendarId);
            GetCalendar(first.world, ctx, later, calendarId) == first
  {
    var first := GetCalendar(w, ctx, faults, calendarId);
    if first.world != w {
      var c := first.result.value;
      assert first.world.calendars == w.calendars + [c];
      var none := Existing(w.calendars, calendarId);
      assert none.None?;
      if IsObjectIdHex(calendarId) {
        LookupByIdAppend(w.calendars, c, HexValue(calendarId));
      }
      LookupByCalendarIdAppend(w.calendars, c, calendarId);
      assert Existing(first.world.calendars, calendarId) == Some(c);
    }
  }

  /**
   * Bumping a calendar's token does not change which record `getCalendar`
   * resolves an identifier to: it now resolves to the bumped record.
   */
  lemma ExistingAfterBump(w: World, c: Calendar, calendarId: string)
    requires Wf(w) && Existing(w.calendars, calendarId) == Some(c)
    ensures Existing(BumpCalendar(w, c).calendars, calendarId) == Some(c.(synctoken := BumpSyncToken(c.synctoken)))
  {
    var c' := c.(synctoken := BumpSyncToken(c.synctoken));
    var w' := BumpCalendar(w, c);
    assert w'.calendars == ReplaceCalendar(w.calendars, c');
    assert c == w.calendars[c.id];
    LookupByCalendarIdReplace(w.calendars, c', calendarId);
    if IsObjectIdHex(calendarId) {
      var h := HexValue(calendarId);
      ReplaceCalendarLookup(w.calendars, c', h);
      if h == c.id {
        ById(w, c);
      }
    }
  }

  // ---------------------------------------------------------------- authenticate

  /**
   * `authenticate`: verify the credentials, set up the request's locale, refresh the session, then make sure
   * the principal's default calendar (named after the username) exists. Any
   * error on the way is reported as `Unauthorized`.
   */
  function Authenticate(w: World, ctx: Ctx, faults: Faults, verified: Result<User, Error>): (r: Reply<Identity>)
    ensures r.result.Failure? ==> r.result.error == Unauthorized
    ensures r.result.Failure? ==> r.world == w
    ensures r.result.Success? <==>
            && verified.Success? && I18nMiddleware !in faults.failing && RefreshSession !in faults.failing
            && GetCalendar(w, ctx.(user := verified.value), faults, verified.value.username).result.Success?
    ensures r.result.Success? ==>
            && r.result.value.user == verified.value
            && r.result.value.principalId == verified.value.username
            && r.result.value.principalName == verified.value.username
    ensures Wf(w) ==> Wf(r.world)
  {
    match verified
    case Failure(_) => Reply(w, Failure(Unauthorized))
    case Success(user) =>
      if I18nMiddleware in faults.failing then Reply(w, Failure(Unauthorized))
      else if RefreshSession in faults.failing then Reply(w, Failure(Unauthorized))
      else
        var got := GetCalendar(w, ctx.(user := user), faults, user.username);
        match got.result
        case Failure(_) => Reply(got.world, Failure(Unauthorized))
        case Success(_) => Reply(got.world, Success(Identity(user, user.username, user.username)))
  }

  /** After a successful login the default calendar resolves without being created again. */
  lemma AuthenticateEnsuresDefaultCalendar(w: World, ctx: Ctx, faults: Faults, verified: Result<User, Error>, later: Faults)
    requires Wf(w)
    requires Authenticate(w, ctx, faults, verified).result.Success?
    requires LookupsSucceed(later, verified.value.username)
    ensures var after := Authenticate(w, ctx, faults, verified).world;
            var user := verified.value;
            GetCalendar(after, ctx.(user := user), later, user.username).world == after
            && GetCalendar(after, ctx.(user := user), later, user.username).result.Success?
  {
    GetCalendarIdempotent(w, ctx.(user := verified.value), faults, later, verified.value.username);
  }
}

=== FILE: date_range.dfy ===
/**
 * `getEventsByDate`: the calendar's stored events whose VEVENTs fall in a
 * queried time range. A VEVENT without recurrence properties matches when its
 * own interval meets the query; a recurring one is handed to the recurrence
 * library, which is a parameter here.
 */
module DateRange {
  import opened Wrappers
  import opened Seqs
  import opened ICal
  import opened ICalTime
  import opened Store
  import opened Calendars

  /** The queried range; each bound is an instant, or absent. */
  datatype Query = Query(start: Option<int>, end: Option<int>)

  /**
   * The recurrence library (`rrulestr` and the rule set it builds), as seen
   * through the recurrence lines of one VEVENT: whether it accepts them, and
   * whether the rule set has an occurrence in `[start, end]`, at or after
   * `start`, or at or before `end` (all inclusive).
   */
  datatype Recurrence = Recurrence(
    accepts: seq<Property> -> bool,
    between: (seq<Property>, int, int) -> bool,
    after: (seq<Property>, int) -> bool,
    before: (seq<Property>, int) -> bool)

  // ---------------------------------------------------------------- one VEVENT

  /** The properties that make a VEVENT recurring. */
  predicate IsRecurrenceName(n: string)
  {
    n == "rrule" || n == "exrule" || n == "exdate" || n == "rdate"
  }

  /** The recurrence lines handed to `rrulestr`: every RRULE, then EXRULE, EXDATE and RDATE. */
  function RecurrenceLines(v: Component): (r: seq<Property>)
    ensures forall i :: 0 <= i < |r| ==> r[i] in v.props && IsRecurrenceName(r[i].name)
    ensures forall i :: 0 <= i < |v.props| && IsRecurrenceName(v.props[i].name) ==> v.props[i] in r
  {
    AllProperties(v, "rrule") + AllProperties(v, "exrule") + AllProperties(v, "exdate") + AllProperties(v, "rdate")
  }

  /** The instant DTSTART gives, when its first value is a date-time. */
  function DtStart(v: Component): Option<int>
  {
    match FirstPropertyValue(v, "dtstart")
    case Time(t) => Some(Seconds(t))
    case _ => None
  }

  /** The instant DTEND gives, when its first value is a date-time. */
  function DtEnd(v: Component): Option<int>
  {
    match FirstPropertyValue(v, "dtend")
    case Time(t) => Some(Seconds(t))
    case _ => None
  }

  /**
   * The test for a VEVENT without recurrence lines: a start bound needs a DTEND
   * at or after it, an end bound needs the DTSTART at or before it.
   */
  predicate Overlaps(q: Query, dtstart: int, dtend: Option<int>)
  {
    && (q.start.None? || (dtend.Some? && q.start.value <= dtend.value))
    && (q.end.None? || q.end.value >= dtstart)
  }

  /** `t` lies in the closed interval `[lo, hi]`. */
  predicate Within(t: int, lo: int, hi: int)
  {
    lo <= t <= hi
  }

  /**
   * One pass of the inner loop of `getEventsByDate`: `false` skips the VEVENT,
   * `true` is a match, and a failure is the recurrence library throwing.
   */
  function VeventMatch(v: Component, q: Query, rec: Recurrence): (r: Result<bool, Error>)
    // a VEVENT whose DTSTART is missing or not an ICAL.Time is skipped
    ensures DtStart(v).None? ==> r == Success(false)
    // only the recurrence library can throw, and only on lines it rejects
    ensures r.Failure? <==> DtStart(v).Some? && |RecurrenceLines(v)| > 0 && !rec.accepts(RecurrenceLines(v))
    ensures r.Failure? ==> r.error == MalformedRecurrence
    // without recurrence lines: the interval test
    ensures DtStart(v).Some? && |RecurrenceLines(v)| == 0 ==>
      (r == Success(true) <==> Overlaps(q, DtStart(v).value, DtEnd(v)))
    // with accepted recurrence lines: the library's inclusive query for the bounds given
    ensures DtStart(v).Some? && |RecurrenceLines(v)| > 0 && rec.accepts(RecurrenceLines(v)) ==>
      var lines := RecurrenceLines(v);
      (r == Success(true) <==>
        || (q.start.Some? && q.end.Some? && rec.between(lines, q.start.value, q.end.value))
        || (q.start.Some? && q.end.None? && rec.after(lines, q.start.value))
        || (q.start.None? && q.end.Some? && rec.before(lines, q.end.value)))
    // a query with neither bound matches no recurring VEVENT
    ensures r == Success(true) && q.start.None? && q.end.None? ==> |RecurrenceLines(v)| == 0
  {
    match DtStart(v)
    case None => Success(false)
    case Some(dtstart) =>
      var lines := RecurrenceLines(v);
      if |lines| == 0 then Success(Overlaps(q, dtstart, DtEnd(v)))
      else if !rec.accepts(lines) then Failure(MalformedRecurrence)
      else if q.start.Some? && q.end.Some? then Success(rec.between(lines, q.start.value, q.end.value))
      else if q.start.Some? then Success(rec.after(lines, q.start.value))
      else if q.end.Some? then Success(rec.before(lines, q.end.value))
      else Success(false)
  }

  /** A VEVENT that matches before every VEVENT ahead of it was skipped. */
  predicate FirstMatchAt(vs: seq<Component>, q: Query, rec: Recurrence, i: int)
  {
    && 0 <= i < |vs|
    && VeventMatch(vs[i], q, rec) == Success(true)
    && (forall j :: 0 <= j < i ==> VeventMatch(vs[j], q, rec) == Success(false))
  }

  /** A VEVENT on which the library throws, every VEVENT ahead of it skipped. */
  predicate FirstFailureAt(vs: seq<Component>, q: Query, rec: Recurrence, i: int)
  {
    && 0 <= i < |vs|
    && VeventMatch(vs[i], q, rec).Failure?
    && (forall j :: 0 <= j < i ==> VeventMatch(vs[j], q, rec) == Success(false))
  }

  /**
   * The inner loop over an event's VEVENTs: it stops at the first match (the
   * `break`), and a throw ends the whole request.
   */
  function AnyMatch(vs: seq<Component>, q: Query, rec: Recurrence): (r: Result<bool, Error>)
    ensures r.Failure? ==> r.error == MalformedRecurrence
  {
    if |vs| == 0 then Success(false)
    else
      match VeventMatch(vs[0], q, rec)
      case Failure(e) => Failure(e)
      case Success(true) => Success(true)
      case Success(false) => AnyMatch(vs[1..], q, rec)
  }

  /**
   * The loop finds a match exactly when some VEVENT matches with every VEVENT
   * ahead of it skipped.
   */
  lemma {:induction false} AnyMatchFirst(vs: seq<Component>, q: Query, rec: Recurrence)
    ensures AnyMatch(vs, q, rec) == Success(true) <==> exists i :: FirstMatchAt(vs, q, rec, i)
  {
    if |vs| > 0 {
      var rest := vs[1..];
      if VeventMatch(vs[0], q, rec) == Success(false) {
        AnyMatchStep(vs, q, rec);
        AnyMatchFirst(rest, q, rec);
        if exists i :: FirstMatchAt(vs, q, rec, i) {
          var i :| FirstMatchAt(vs, q, rec, i);
          assert FirstMatchAt(rest, q, rec, i - 1);
        }
        if exists i :: FirstMatchAt(rest, q, rec, i) {
          var i :| FirstMatchAt(rest, q, rec, i);
          assert FirstMatchAt(vs, q, rec, i + 1);
        }
      } else if VeventMatch(vs[0], q, rec).Success? {
        assert VeventMatch(vs[0], q, rec).value;
        assert FirstMatchAt(vs, q, rec, 0);
      } else {
        assert forall i :: FirstMatchAt(vs, q, rec, i) ==> i == 0;
      }
    }
  }

  /**
   * The loop throws exactly when the library rejects a VEVENT with every VEVENT
   * ahead of it skipped.
   */
  lemma {:induction false} AnyMatchFirstFailure(vs: seq<Component>, q: Query, rec: Recurrence)
    ensures AnyMatch(vs, q, rec).Failure? <==> exists i :: FirstFailureAt(vs, q, rec, i)
  {
    if |vs| > 0 {
      var rest := vs[1..];
      if VeventMatch(vs[0], q, rec) == Success(false) {
        FailureStep(vs, q, rec);
        AnyMatchFirstFailure(rest, q, rec);
        if exists i :: FirstFailureAt(vs, q, rec, i) {
          var i :| FirstFailureAt(vs, q, rec, i);
          assert FirstFailureAt(rest, q, rec, i - 1);
        }
        if exists i :: FirstFailureAt(rest, q, rec, i) {
          var i :| FirstFailureAt(rest, q, rec, i);
          assert FirstFailureAt(vs, q, rec, i + 1);
        }
      } else if VeventMatch(vs[0], q, rec).Success? {
        assert forall i :: FirstFailureAt(vs, q, rec, i) ==> i == 0;
      } else {
        assert FirstFailureAt(vs, q, rec, 0);
      }
    }
  }

  /** When the head VEVENT is skipped, the first match of `vs` is that of its tail, one place on. */
  lemma AnyMatchStep(vs: seq<Component>, q: Query, rec: Recurrence)
    requires |vs| > 0 && VeventMatch(vs[0], q, rec) == Success(false)
    ensures forall i :: FirstMatchAt(vs[1..], q, rec, i) <==> FirstMatchAt(vs, q, rec, i + 1)
  {
    var rest := vs[1..];
    forall i ensures FirstMatchAt(rest, q, rec, i) <==> FirstMatchAt(vs, q, rec, i + 1) {
      if FirstMatchAt(vs, q, rec, i + 1) {
        assert forall j :: 0 <= j < i ==> rest[j] == vs[j + 1];
      }
    }
  }

  /** When the head VEVENT is skipped, the first throw of `vs` is that of its tail, one place on. */
  lemma FailureStep(vs: seq<Component>, q: Query, rec: Recurrence)
    requires |vs| > 0 && VeventMatch(vs[0], q, rec) == Success(false)
    ensures forall i :: FirstFailureAt(vs[1..], q, rec, i) <==> FirstFailureAt(vs, q, rec, i + 1)
  {
    var rest := vs[1..];
    forall i ensures FirstFailureAt(rest, q, rec, i) <==> FirstFailureAt(vs, q, rec, i + 1) {
      if 0 <= i < |rest| {
        assert rest[i] == vs[i + 1];
        assert forall j :: 0 <= j < i ==> rest[j] == vs[j + 1];
      }
    }
  }

  /** Whether an event is listed: `false` for an event with no VEVENT; a throw for unparseable text. */
  function EventMatch(e: EventRecord, q: Query, rec: Recurrence): (r: Result<bool, Error>)
    ensures Parse(e.ical).None? <==> r == Failure(MalformedDocument)
    ensures Parse(e.ical).Some? && |AllSubcomponents(Parse(e.ical).value, "vevent")| == 0 ==> r == Success(false)
  {
    match Parse(e.ical)
    case None => Failure(MalformedDocument)
    case Some(root) =>
      var vs := AllSubcomponents(root, "vevent");
      if |vs| == 0 then Success(false)
      else
        AnyMatch(vs, q, rec)
  }

  /** The events `getEventsByDate` keeps. */
  function Matches(q: Query, rec: Recurrence): EventRecord -> bool
  {
    (e: EventRecord) => EventMatch(e, q, rec) == Success(true)
  }

  // ---------------------------------------------------------------- the operation

  /**
   * The outer loop of `getEventsByDate`, for any per-item `test`: keep, in
   * order, the items whose test gives `true`; the first failing test ends the
   * loop with its error.
   */
  method ListUntilThrow<T>(s: seq<T>, test: T -> Result<bool, Error>, keep: T -> bool) returns (r: Result<seq<T>, Error>)
    requires forall x :: keep(x) <==> test(x) == Success(true)
    ensures r.Success? <==> forall i :: 0 <= i < |s| ==> test(s[i]).Success?
    ensures r.Success? ==> r.value == Filter(s, keep)
    ensures r.Failure? ==>
      exists i :: (0 <= i < |s| && test(s[i]) == Failure(r.error) && forall j :: 0 <= j < i ==> test(s[j]).Success?)
  {
    var kept := [];
    var i := 0;
    while i < |s|
      invariant 0 <= i <= |s|
      invariant forall j :: 0 <= j < i ==> test(s[j]).Success?
      invariant kept == Filter(s[..i], keep)
    {
      var m := test(s[i]);
      if m.Failure? {
        return Failure(m.error);
      }
      FilterPrefixStep(s, i, keep);
      if m.value {
        kept := kept + [s[i]];
      }
      i := i + 1;
    }
    assert s[..i] == s;
    return Success(kept);
  }

  /** The event at `i` throws and every event ahead of it was read without a throw. */
  predicate FirstThrowAt(events: seq<EventRecord>, q: Query, rec: Recurrence, i: int)
  {
    && 0 <= i < |events|
    && EventMatch(events[i], q, rec).Failure?
    && (forall j :: 0 <= j < i ==> EventMatch(events[j], q, rec).Success?)
  }

  /**
   * `getEventsByDate`: resolve (or create) the calendar, read its events, and
   * keep, in store order, those with a matching VEVENT. The first event that
   * cannot be parsed or whose recurrence lines the library rejects ends the
   * request with that error.
   */
  method GetEventsByDate(w: World, ctx: Ctx, faults: Faults, calendarId: string, q: Query, rec: Recurrence)
    returns (r: Reply<seq<EventRecord>>)
    ensures r.world == GetCalendar(w, ctx, faults, calendarId).world
    ensures var got := GetCalendar(w, ctx, faults, calendarId);
      got.result.Failure? ==> r.result == Failure(got.result.error)
    ensures var got := GetCalendar(w, ctx, faults, calendarId);
      got.result.Success? && FindEvents in faults.failing ==> r.result == Failure(StepFailed(FindEvents))
    ensures var got := GetCalendar(w, ctx, faults, calendarId);
      got.result.Success? && FindEvents !in faults.failing ==>
      var events := EventsOf(got.world.events, got.result.value.id);
      && (r.result.Success? <==> forall i :: 0 <= i < |events| ==> EventMatch(events[i], q, rec).Success?)
      && (r.result.Success? ==> r.result.value == Filter(events, Matches(q, rec)))
      && (r.result.Failure? ==> exists i :: FirstThrowAt(events, q, rec, i) && EventMatch(events[i], q, rec) == Failure(r.result.error))
  {
    var got := GetCalendar(w, ctx, faults, calendarId);
    if got.result.Failure? {
      return Reply(got.world, Failure(got.result.error));
    }
    if FindEvents in faults.failing {
      return Reply(got.world, Failure(StepFailed(FindEvents)));
    }
    var events := EventsOf(got.world.events, got.result.value.id);
    var result := ListUntilThrow(events, e => EventMatch(e, q, rec), Matches(q, rec));
    if result.Failure? {
      var i :| 0 <= i < |events| && EventMatch(events[i], q, rec) == Failure(result.error)
        && (forall j :: 0 <= j < i ==> EventMatch(events[j], q, rec).Success?);
      assert FirstThrowAt(events, q, rec, i);
    }
    return Reply(got.world, result);
  }

  // ---------------------------------------------------------------- properties

  /**
   * With both bounds, an ordered query and an ordered event interval, the test
   * for a VEVENT without recurrence lines is exactly "the two closed intervals
   * share an instant".
   */
  lemma OverlapsIsIntersection(start: int, end: int, dtstart: int, dtend: int)
    requires start <= end && dtstart <= dtend
    ensures Overlaps(Query(Some(start), Some(end)), dtstart, Some(dtend))
        <==> exists t :: Within(t, start, end) && Within(t, dtstart, dtend)
  {
    if Overlaps(Query(Some(start), Some(end)), dtstart, Some(dtend)) {
      var t := if start < dtstart then dtstart else start;
      assert Within(t, start, end) && Within(t, dtstart, dtend);
    }
  }

  /** A non-recurring VEVENT with no date-time DTEND never matches a query with a start bound. */
  lemma NoEndMissesStartedQuery(v: Component, q: Query, rec: Recurrence)
    requires |RecurrenceLines(v)| == 0 && DtEnd(v).None? && q.start.Some?
    ensures VeventMatch(v, q, rec) == Success(false)
  {
  }

  /** A query with neither bound lists every non-recurring VEVENT with a date-time DTSTART. */
  lemma UnboundedQueryMatchesPlain(v: Component, rec: Recurrence)
    requires DtStart(v).Some? && |RecurrenceLines(v)| == 0
    ensures VeventMatch(v, Query(None, None), rec) == Success(true)
  {
  }

  /** Once a VEVENT matches, the VEVENTs after it are never consulted, even ones the library would reject. */
  lemma MatchIgnoresLater(vs: seq<Component>, later: seq<Component>, q: Query, rec: Recurrence)
    requires AnyMatch(vs, q, rec) == Success(true)
    ensures AnyMatch(vs + later, q, rec) == Success(true)
  {
    AnyMatchFirst(vs, q, rec);
    AnyMatchFirst(vs + later, q, rec);
    var i :| FirstMatchAt(vs, q, rec, i);
    var all := vs + later;
    assert forall j :: 0 <= j <= i ==> all[j] == vs[j];
    assert FirstMatchAt(all, q, rec, i);
  }

  /** An event whose text parses but holds no VEVENT is never listed and never fails the request. */
  lemma NoVeventNeverListed(e: EventRecord, q: Query, rec: Recurrence)
    requires Parse(e.ical).Some? && |AllSubcomponents(Parse(e.ical).value, "vevent")| == 0
    ensures !Matches(q, rec)(e) && EventMatch(e, q, rec).Success?
  {
  }
}

=== FILE: events.dfy ===
/**
 * Single-event operations: `getEvent`, `getEventsForCalendar`,
 * `getCalendarsForPrincipal`, and the three mutations `createEvent`,
 * `updateEvent` and `deleteEvent`, each of which bumps the calendar's
 * synchronisation token exactly once when it goes ahead.
 */
module Events {
  import opened Wrappers
  import opened ICal
  import opened Store
  import opened SyncToken
  import opened Calendars

  /** `getCalendarsForPrincipal`: every calendar in the principal's store. */
  function GetCalendarsForPrincipal(w: World, faults: Faults): (r: Reply<seq<Calendar>>)
    ensures r.world == w
    ensures r.result.Success? <==> FindCalendars !in faults.failing
    ensures r.result.Success? ==> r.result.value == w.calendars
  {
    if FindCalendars in faults.failing then Reply(w, Failure(StepFailed(FindCalendars)))
    else Reply(w, Success(w.calendars))
  }

  /** `getEvent`: the record stored under (calendar, eventId), or none. */
  function GetEvent(w: World, ctx: Ctx, faults: Faults, calendarId: string, eventId: string): (r: Reply<Option<EventRecord>>)
    ensures r.world == GetCalendar(w, ctx, faults, calendarId).world
    ensures var got := GetCalendar(w, ctx, faults, calendarId);
      r.result.Success? <==> got.result.Success? && FindEvent !in faults.failing
    ensures var got := GetCalendar(w, ctx, faults, calendarId);
      got.result.Success? && r.result.Success? ==>
      var cal := got.result.value;
      && (r.result.value.Some? <==> (cal.id, eventId) in View(r.world.events))
      && (r.result.value.Some? ==> r.result.value.value.ical == View(r.world.events)[(cal.id, eventId)])
  {
    var got := GetCalendar(w, ctx, faults, calendarId);
    match got.result
    case Failure(e) => Reply(got.world, Failure(e))
    case Success(cal) =>
      if FindEvent in faults.failing then Reply(got.world, Failure(StepFailed(FindEvent)))
      else Reply(got.world, Success(LookupEvent(got.world.events, cal.id, eventId)))
  }

  /** `getEventsForCalendar`: the calendar's records, in store order as `find` lists them. */
  function GetEventsForCalendar(w: World, ctx: Ctx, faults: Faults, calendarId: string): (r: Reply<seq<EventRecord>>)
    ensures r.world == GetCalendar(w, ctx, faults, calendarId).world
    ensures var got := GetCalendar(w, ctx, faults, calendarId);
      r.result.Success? <==> got.result.Success? && FindEvents !in faults.failing
    ensures var got := GetCalendar(w, ctx, faults, calendarId);
      got.result.Success? && r.result.Success? ==>
      var cal := got.result.value;
      && (forall i :: 0 <= i < |r.result.value| ==> r.result.value[i].calendar == cal.id && r.result.value[i] in r.world.events)
      && (forall i :: 0 <= i < |r.world.events| && r.world.events[i].calendar == cal.id ==> r.world.events[i] in r.result.value)
      && r.result.value == EventsOf(r.world.events, cal.id)
  {
    var got := GetCalendar(w, ctx, faults, calendarId);
    match got.result
    case Failure(e) => Reply(got.world, Failure(e))
    case Success(cal) =>
      if FindEvents in faults.failing then Reply(got.world, Failure(StepFailed(FindEvents)))
      else Reply(got.world, Success(EventsOf(got.world.events, cal.id)))
  }

  /** `createEvent` gets past its checks to the token bump: the lookup works, the UID is new, the bump does not throw. */
  predicate CreateGoesAhead(w: World, cal: Calendar, faults: Faults, eventId: string)
  {
    FindEvent !in faults.failing && (cal.id, eventId) !in View(w.events) && UpdateCalendarRecord !in faults.failing
  }

  /** `updateEvent` and `deleteEvent` get past their checks to the token bump: the UID is stored and the bump does not throw. */
  predicate ChangeGoesAhead(w: World, cal: Calendar, faults: Faults, eventId: string)
  {
    FindEvent !in faults.failing && (cal.id, eventId) in View(w.events) && UpdateCalendarRecord !in faults.failing
  }

  /** A record that is not in the view can be appended without breaking the invariant. */
  lemma AppendFresh(w: World, e: EventRecord)
    requires Wf(w) && e.calendar < |w.calendars| && KeyOf(e) !in View(w.events)
    ensures Wf(w.(events := w.events + [e]))
  {
    ViewKeys(w.events);
  }

  /**
   * The part of `createEvent` after the calendar is resolved: reject a UID
   * already stored in it, otherwise bump its token, then store the body.
   */
  function CreateInCalendar(w: World, cal: Calendar, faults: Faults, eventId: string, body: Document): (r: Reply<EventRecord>)
    // a duplicate is rejected with no bump and no insert
    ensures FindEvent !in faults.failing && (cal.id, eventId) in View(w.events) ==> r == Reply(w, Failure(EventAlreadyExists))
    ensures r.result.Success? <==>
      && FindEvent !in faults.failing && (cal.id, eventId) !in View(w.events)
      && UpdateCalendarRecord !in faults.failing && CreateEventRecord !in faults.failing
    // a failure never inserts
    ensures r.result.Failure? ==> r.world.events == w.events
    // success: exactly the new record is added and the token is bumped once
    ensures r.result.Success? ==>
      && r.result.value == EventRecord(cal.id, eventId, body)
      && View(r.world.events) == View(w.events)[(cal.id, eventId) := body]
      && (LookupById(w.calendars, cal.id).Some? ==> TokenOf(r.world, cal.id) == Some(BumpSyncToken(cal.synctoken)))
    // the bump happens before the write and stays when the write throws; nothing else changes
    ensures !CreateGoesAhead(w, cal, faults, eventId) ==> r.world == w
    ensures CreateGoesAhead(w, cal, faults, eventId) && LookupById(w.calendars, cal.id).Some? ==>
      TokenOf(r.world, cal.id) == Some(BumpSyncToken(cal.synctoken))
    ensures CreateGoesAhead(w, cal, faults, eventId) && CreateEventRecord in faults.failing ==>
      r.result == Failure(StepFailed(CreateEventRecord)) && r.world.events == w.events
    ensures r.world.locks == w.locks
    ensures forall id :: id != cal.id ==> LookupById(r.world.calendars, id) == LookupById(w.calendars, id)
    ensures Wf(w) && LookupById(w.calendars, cal.id).Some? ==> Wf(r.world)
  {
    if FindEvent in faults.failing then Reply(w, Failure(StepFailed(FindEvent)))
    else if LookupEvent(w.events, cal.id, eventId).Some? then Reply(w, Failure(EventAlreadyExists))
    else if UpdateCalendarRecord in faults.failing then Reply(w, Failure(StepFailed(UpdateCalendarRecord)))
    else
      var w2 := BumpCalendar(w, cal);
      if CreateEventRecord in faults.failing then Reply(w2, Failure(StepFailed(CreateEventRecord)))
      else
        var e := EventRecord(cal.id, eventId, body);
        ViewAppend(w2.events, e);
        if Wf(w) && LookupById(w.calendars, cal.id).Some? then
          LookupByIdInRange(w, cal.id);
          AppendFresh(w2, e);
          Reply(w2.(events := w2.events + [e]), Success(e))
        else Reply(w2.(events := w2.events + [e]), Success(e))
  }

  /**
   * `createEvent`: resolve (or create) the calendar, then reject a UID already
   * stored in it, otherwise bump its token and store the request body under the UID.
   */
  function CreateEvent(w: World, ctx: Ctx, faults: Faults, calendarId: string, eventId: string, body: Document): (r: Reply<EventRecord>)
    ensures var got := GetCalendar(w, ctx, faults, calendarId);
      got.result.Failure? ==> r == Reply(w, Failure(got.result.error))
    // a duplicate is rejected with no bump and no insert
    ensures var got := GetCalendar(w, ctx, faults, calendarId);
      got.result.Success? && FindEvent !in faults.failing
      && (got.result.value.id, eventId) in View(got.world.events)
      ==> r == Reply(got.world, Failure(EventAlreadyExists))
    ensures var got := GetCalendar(w, ctx, faults, calendarId);
      r.result.Success? <==>
        && got.result.Success? && FindEvent !in faults.failing
        && (got.result.value.id, eventId) !in View(got.world.events)
        && UpdateCalendarRecord !in faults.failing && CreateEventRecord !in faults.failing
    // a failure never inserts
    ensures r.result.Failure? ==> r.world.events == GetCalendar(w, ctx, faults, calendarId).world.events
    // success: exactly the new record is added and the token is bumped once
    ensures var got := GetCalendar(w, ctx, faults, calendarId);
      r.result.Success? ==>
        var cal := got.result.value;
        && r.result.value == EventRecord(cal.id, eventId, body)
        && View(r.world.events) == View(got.world.events)[(cal.id, eventId) := body]
        && (Wf(w) ==> TokenOf(r.world, cal.id) == Some(BumpSyncToken(cal.synctoken)))
    // the bump happens before the write and stays when the write throws; nothing else changes
    ensures r.world.locks == w.locks
    ensures var got := GetCalendar(w, ctx, faults, calendarId);
      got.result.Success? ==>
        var cal := got.result.value;
        && (forall id :: id != cal.id ==> LookupById(r.world.calendars, id) == LookupById(got.world.calendars, id))
        && (!CreateGoesAhead(got.world, cal, faults, eventId) ==> r.world == got.world)
        && (CreateGoesAhead(got.world, cal, faults, eventId) && Wf(w) ==> TokenOf(r.world, cal.id) == Some(BumpSyncToken(cal.synctoken)))
        && (CreateGoesAhead(got.world, cal, faults, eventId) && CreateEventRecord in faults.failing ==>
              r.result == Failure(StepFailed(CreateEventRecord)))
    ensures Wf(w) ==> Wf(r.world)
  {
    var got := GetCalendar(w, ctx, faults, calendarId);
    match got.result
    case Failure(e) => Reply(w, Failure(e))
    case Success(cal) => CreateInCalendar(got.world, cal, faults, eventId, body)
  }

  /** Appending a record whose key is new adds exactly that key to the view. */
  lemma {:induction false} ViewAppend(events: seq<EventRecord>, e: EventRecord)
    ensures KeyOf(e) !in View(events) ==> View(events + [e]) == View(events)[KeyOf(e) := e.ical]
    ensures KeyOf(e) in View(events) ==> View(events + [e]) == View(events)
  {
    if |events| > 0 {
      assert (events + [e])[1..] == events[1..] + [e];
      ViewAppend(events[1..], e);
    }
  }

  /**
   * The part of `updateEvent` after the calendar is resolved: reject a UID
   * that is not stored, otherwise bump the token, then replace the stored text.
   */
  function UpdateInCalendar(w: World, cal: Calendar, faults: Faults, eventId: string, body: Document): (r: Reply<EventRecord>)
    // a missing event is rejected with no bump
    ensures FindEvent !in faults.failing && (cal.id, eventId) !in View(w.events) ==> r == Reply(w, Failure(EventDoesNotExist))
    ensures r.result.Success? <==>
      && FindEvent !in faults.failing && (cal.id, eventId) in View(w.events)
      && UpdateCalendarRecord !in faults.failing && SaveEventRecord !in faults.failing
    ensures r.result.Failure? ==> r.world.events == w.events
    ensures r.result.Success? ==>
      && r.result.value.ical == body && KeyOf(r.result.value) == (cal.id, eventId)
      && View(r.world.events) == View(w.events)[(cal.id, eventId) := body]
      && (LookupById(w.calendars, cal.id).Some? ==> TokenOf(r.world, cal.id) == Some(BumpSyncToken(cal.synctoken)))
    // the bump happens before the write and stays when the write throws; nothing else changes
    ensures !ChangeGoesAhead(w, cal, faults, eventId) ==> r.world == w
    ensures ChangeGoesAhead(w, cal, faults, eventId) && LookupById(w.calendars, cal.id).Some? ==>
      TokenOf(r.world, cal.id) == Some(BumpSyncToken(cal.synctoken))
    ensures ChangeGoesAhead(w, cal, faults, eventId) && SaveEventRecord in faults.failing ==>
      r.result == Failure(StepFailed(SaveEventRecord)) && r.world.events == w.events
    ensures r.world.locks == w.locks
    ensures forall id :: id != cal.id ==> LookupById(r.world.calendars, id) == LookupById(w.calendars, id)
    ensures Wf(w) ==> Wf(r.world)
  {
    if FindEvent in faults.failing then Reply(w, Failure(StepFailed(FindEvent)))
    else
      match LookupEvent(w.events, cal.id, eventId)
      case None => Reply(w, Failure(EventDoesNotExist))
      case Some(found) =>
        if UpdateCalendarRecord in faults.failing then Reply(w, Failure(StepFailed(UpdateCalendarRecord)))
        else
          var w2 := BumpCalendar(w, cal);
          if SaveEventRecord in faults.failing then Reply(w2, Failure(StepFailed(SaveEventRecord)))
          else
            var w3 := w2.(events := SetIcal(w2.events, (cal.id, eventId), body));
            if Wf(w) then
              SetIcalKeepsWf(w2, (cal.id, eventId), body);
              Reply(w3, Success(found.(ical := body)))
            else Reply(w3, Success(found.(ical := body)))
  }

  /**
   * `updateEvent`: resolve (or create) the calendar, then reject a UID that is
   * not stored, otherwise bump its token and replace the stored text with the body.
   */
  function UpdateEvent(w: World, ctx: Ctx, faults: Faults, calendarId: string, eventId: string, body: Document): (r: Reply<EventRecord>)
    ensures var got := GetCalendar(w, ctx, faults, calendarId);
      got.result.Failure? ==> r == Reply(w, Failure(got.result.error))
    // a missing event is rejected with no bump
    ensures var got := GetCalendar(w, ctx, faults, calendarId);
      got.result.Success? && FindEvent !in faults.failing
      && (got.result.value.id, eventId) !in View(got.world.events)
      ==> r == Reply(got.world, Failure(EventDoesNotExist))
    ensures var got := GetCalendar(w, ctx, faults, calendarId);
      r.result.Success? <==>
        && got.result.Success? && FindEvent !in faults.failing
        && (got.result.value.id, eventId) in View(got.world.events)
        && UpdateCalendarRecord !in faults.failing && SaveEventRecord !in faults.failing
    ensures r.result.Failure? ==> r.world.events == GetCalendar(w, ctx, faults, calendarId).world.events
    ensures var got := GetCalendar(w, ctx, faults, calendarId);
      r.result.Success? ==>
        var cal := got.result.value;
        && r.result.value.ical == body && KeyOf(r.result.value) == (cal.id, eventId)
        && View(r.world.events) == View(got.world.events)[(cal.id, eventId) := body]
        && (Wf(w) ==> TokenOf(r.world, cal.id) == Some(BumpSyncToken(cal.synctoken)))
    // the bump happens before the write and stays when the write throws; nothing else changes
    ensures r.world.locks == w.locks
    ensures var got := GetCalendar(w, ctx, faults, calendarId);
      got.result.Success? ==>
        var cal := got.result.value;
        && (forall id :: id != cal.id ==> LookupById(r.world.calendars, id) == LookupById(got.world.calendars, id))
        && (!ChangeGoesAhead(got.world, cal, faults, eventId) ==> r.world == got.world)
        && (ChangeGoesAhead(got.world, cal, faults, eventId) && Wf(w) ==> TokenOf(r.world, cal.id) == Some(BumpSyncToken(cal.synctoken)))
        && (ChangeGoesAhead(got.world, cal, faults, eventId) && SaveEventRecord in faults.failing ==>
              r.result == Failure(StepFailed(SaveEventRecord)))
    ensures Wf(w) ==> Wf(r.world)
  {
    var got := GetCalendar(w, ctx, faults, calendarId);
    match got.result
    case Failure(e) => Reply(w, Failure(e))
    case Success(cal) => UpdateInCalendar(got.world, cal, faults, eventId, body)
  }

  /** Replacing stored text keeps every record's owner and key. */
  lemma {:induction false} SetIcalKeepsKeys(events: seq<EventRecord>, key: Key, ical: Document)
    ensures forall i :: 0 <= i < |events| ==> KeyOf(SetIcal(events, key, ical)[i]) == KeyOf(events[i])
  {
    if |events| > 0 {
      SetIcalKeepsKeys(events[1..], key, ical);
      var r := SetIcal(events, key, ical);
      if KeyOf(events[0]) != key {
        assert r[1..] == SetIcal(events[1..], key, ical);
      }
      forall i | 1 <= i < |events| ensures KeyOf(r[i]) == KeyOf(events[i]) {
        assert r[i] == r[1..][i - 1];
        assert events[i] == events[1..][i - 1];
      }
    }
  }

  /** Replacing stored text keeps the store invariant. */
  lemma SetIcalKeepsWf(w: World, key: Key, ical: Document)
    requires Wf(w)
    ensures Wf(w.(events := SetIcal(w.events, key, ical)))
  {
    SetIcalKeepsKeys(w.events, key, ical);
  }

  /**
   * The part of `deleteEvent` after the calendar is resolved: when the UID is
   * stored, bump the token and delete the record; otherwise change nothing.
   */
  function DeleteInCalendar(w: World, cal: Calendar, faults: Faults, eventId: string): (r: Reply<Option<EventRecord>>)
    // deleting an absent event is a no-op
    ensures FindEvent !in faults.failing && (cal.id, eventId) !in View(w.events) ==> r == Reply(w, Success(None))
    ensures r.result.Success? && r.result.value.Some? <==>
      && FindEvent !in faults.failing && (cal.id, eventId) in View(w.events)
      && UpdateCalendarRecord !in faults.failing && DeleteEventRecord !in faults.failing
    ensures r.result.Success? && r.result.value.Some? ==>
      && KeyOf(r.result.value.value) == (cal.id, eventId)
      && (Wf(w) ==> View(r.world.events) == View(w.events) - {(cal.id, eventId)})
      && (LookupById(w.calendars, cal.id).Some? ==> TokenOf(r.world, cal.id) == Some(BumpSyncToken(cal.synctoken)))
    // the bump happens before the write and stays when the write throws; nothing else changes
    ensures !ChangeGoesAhead(w, cal, faults, eventId) ==> r.world == w
    ensures ChangeGoesAhead(w, cal, faults, eventId) && LookupById(w.calendars, cal.id).Some? ==>
      TokenOf(r.world, cal.id) == Some(BumpSyncToken(cal.synctoken))
    ensures ChangeGoesAhead(w, cal, faults, eventId) && DeleteEventRecord in faults.failing ==>
      r.result == Failure(StepFailed(DeleteEventRecord)) && r.world.events == w.events
    ensures r.world.locks == w.locks
    ensures forall id :: id != cal.id ==> LookupById(r.world.calendars, id) == LookupById(w.calendars, id)
    ensures Wf(w) ==> Wf(r.world)
  {
    if FindEvent in faults.failing then Reply(w, Failure(StepFailed(FindEvent)))
    else
      match LookupEvent(w.events, cal.id, eventId)
      case None => Reply(w, Success(None))
      case Some(found) =>
        if UpdateCalendarRecord in faults.failing then Reply(w, Failure(StepFailed(UpdateCalendarRecord)))
        else
          var w2 := BumpCalendar(w, cal);
          if DeleteEventRecord in faults.failing then Reply(w2, Failure(StepFailed(DeleteEventRecord)))
          else
            var events := DeleteFirst(w2.events, (cal.id, eventId));
            if Wf(w) then
              DeleteFirstView(w2.events, (cal.id, eventId));
              DeleteFirstKeepsOwners(w2.events, (cal.id, eventId), |w2.calendars|);
              Reply(w2.(events := events), Success(Some(found)))
            else Reply(w2.(events := events), Success(Some(found)))
  }

  /**
   * `deleteEvent`: resolve (or create) the calendar, then, when the UID is
   * stored, bump its token and delete the record; when it is not, change
   * nothing. Returns the record found, if any.
   */
  function DeleteEvent(w: World, ctx: Ctx, faults: Faults, calendarId: string, eventId: string): (r: Reply<Option<EventRecord>>)
    ensures var got := GetCalendar(w, ctx, faults, calendarId);
      got.result.Failure? ==> r == Reply(w, Failure(got.result.error))
    // deleting an absent event is a no-op
    ensures var got := GetCalendar(w, ctx, faults, calendarId);
      got.result.Success? && FindEvent !in faults.failing
      && (got.result.value.id, eventId) !in View(got.world.events)
      ==> r == Reply(got.world, Success(None))
    ensures var got := GetCalendar(w, ctx, faults, calendarId);
      r.result.Success? && r.result.value.Some? <==>
        && got.result.Success? && FindEvent !in faults.failing
        && (got.result.value.id, eventId) in View(got.world.events)
        && UpdateCalendarRecord !in faults.failing && DeleteEventRecord !in faults.failing
    ensures var got := GetCalendar(w, ctx, faults, calendarId);
      r.result.Success? && r.result.value.Some? ==>
        var cal := got.result.value;
        && KeyOf(r.result.value.value) == (cal.id, eventId)
        && (Wf(w) ==> View(r.world.events) == View(got.world.events) - {(cal.id, eventId)})
        && (Wf(w) ==> TokenOf(r.world, cal.id) == Some(BumpSyncToken(cal.synctoken)))
    // the bump happens before the write and stays when the write throws; nothing else changes
    ensures r.world.locks == w.locks
    ensures var got := GetCalendar(w, ctx, faults, calendarId);
      got.result.Success? ==>
        var cal := got.result.value;
        && (forall id :: id != cal.id ==> LookupById(r.world.calendars, id) == LookupById(got.world.calendars, id))
        && (!ChangeGoesAhead(got.world, cal, faults, eventId) ==> r.world == got.world)
        && (ChangeGoesAhead(got.world, cal, faults, eventId) && Wf(w) ==> TokenOf(r.world, cal.id) == Some(BumpSyncToken(cal.synctoken)))
        && (ChangeGoesAhead(got.world, cal, faults, eventId) && DeleteEventRecord in faults.failing ==>
              r.result == Failure(StepFailed(DeleteEventRecord)))
    ensures Wf(w) ==> Wf(r.world)
  {
    var got := GetCalendar(w, ctx, faults, calendarId);
    match got.result
    case Failure(e) => Reply(w, Failure(e))
    case Success(cal) => DeleteInCalendar(got.world, cal, faults, eventId)
  }

  /** Deleting a record keeps every remaining record's owner within bounds. */
  lemma {:induction false} DeleteFirstKeepsOwners(events: seq<EventRecord>, key: Key, n: nat)
    requires forall i :: 0 <= i < |events| ==> events[i].calendar < n
    ensures forall i :: 0 <= i < |DeleteFirst(events, key)| ==> DeleteFirst(events, key)[i].calendar < n
  {
    if |events| > 0 {
      DeleteFirstKeepsOwners(events[1..], key, n);
    }
  }

  // ---------------------------------------------------------------- sequences of requests

  /** After a successful `createEvent`, the same identifier resolves to the bumped calendar. */
  lemma ResolvesAfterCreate(w: World, ctx: Ctx, faults: Faults, later: Faults, calendarId: string, eventId: string, body: Document)
    requires Wf(w)
    requires CreateEvent(w, ctx, faults, calendarId, eventId, body).result.Success?
    requires LookupsSucceed(later, calendarId)
    ensures var got := GetCalendar(w, ctx, faults, calendarId);
            var cal := got.result.value;
            var created := CreateEvent(w, ctx, faults, calendarId, eventId, body);
            GetCalendar(created.world, ctx, later, calendarId)
              == Reply(created.world, Success(cal.(synctoken := BumpSyncToken(cal.synctoken))))
  {
    var got := GetCalendar(w, ctx, faults, calendarId);
    var cal := got.result.value;
    GetCalendarIdempotent(w, ctx, faults, later, calendarId);
    assert Existing(got.world.calendars, calendarId) == Some(cal);
    ExistingAfterBump(got.world, cal, calendarId);
  }

  /** An event that `createEvent` stored is what a later `getEvent` returns. */
  lemma CreateThenGet(w: World, ctx: Ctx, faults: Faults, later: Faults, calendarId: string, eventId: string, body: Document)
    requires Wf(w)
    requires CreateEvent(w, ctx, faults, calendarId, eventId, body).result.Success?
    requires LookupsSucceed(later, calendarId) && FindEvent !in later.failing
    ensures var created := CreateEvent(w, ctx, faults, calendarId, eventId, body);
            GetEvent(created.world, ctx, later, calendarId, eventId)
              == Reply(created.world, Success(Some(created.result.value)))
  {
    ResolvesAfterCreate(w, ctx, faults, later, calendarId, eventId, body);
  }

  /** `deleteEvent` on a calendar that resolves without being created, holding the event. */
  lemma DeleteResolved(w: World, ctx: Ctx, faults: Faults, calendarId: string, eventId: string, cal: Calendar)
    requires Wf(w)
    requires GetCalendar(w, ctx, faults, calendarId) == Reply(w, Success(cal))
    requires (cal.id, eventId) in View(w.events)
    requires FindEvent !in faults.failing && UpdateCalendarRecord !in faults.failing && DeleteEventRecord !in faults.failing
    ensures var deleted := DeleteEvent(w, ctx, faults, calendarId, eventId);
            && deleted.result == Success(LookupEvent(w.events, cal.id, eventId))
            && View(deleted.world.events) == View(w.events) - {(cal.id, eventId)}
            && TokenOf(deleted.world, cal.id) == Some(BumpSyncToken(cal.synctoken))
  {
  }

  /**
   * Creating an event and then deleting it restores the calendar's events and
   * leaves its token bumped twice.
   */
  lemma CreateThenDelete(w: World, ctx: Ctx, faults: Faults, later: Faults, calendarId: string, eventId: string, body: Document)
    requires Wf(w)
    requires CreateEvent(w, ctx, faults, calendarId, eventId, body).result.Success?
    requires LookupsSucceed(later, calendarId)
    requires FindEvent !in later.failing && UpdateCalendarRecord !in later.failing && DeleteEventRecord !in later.failing
    ensures var got := GetCalendar(w, ctx, faults, calendarId);
            var cal := got.result.value;
            var created := CreateEvent(w, ctx, faults, calendarId, eventId, body);
            var deleted := DeleteEvent(created.world, ctx, later, calendarId, eventId);
            && deleted.result == Success(Some(created.result.value))
            && View(deleted.world.events) == View(got.world.events)
            && TokenOf(deleted.world, cal.id) == Some(BumpSyncToken(BumpSyncToken(cal.synctoken)))
  {
    var got := GetCalendar(w, ctx, faults, calendarId);
    var cal := got.result.value;
    var created := CreateEvent(w, ctx, faults, calendarId, eventId, body);
    var key := (cal.id, eventId);
    var cal' := cal.(synctoken := BumpSyncToken(cal.synctoken));
    ResolvesAfterCreate(w, ctx, faults, later, calendarId, eventId, body);
    CreateThenGet(w, ctx, faults, later, calendarId, eventId, body);
    assert View(created.world.events) == View(got.world.events)[key := body] && key !in View(got.world.events);
    assert Wf(created.world);
    assert LookupEvent(created.world.events, cal.id, eventId) == Some(created.result.value);
    DeleteResolved(created.world, ctx, later, calendarId, eventId, cal');
    var deleted := DeleteEvent(created.world, ctx, later, calendarId, eventId);
    AddThenRemove(View(got.world.events), key, body);
    assert View(deleted.world.events) == View(got.world.events)[key := body] - {key};
  }

  /** Adding a fresh key to a map and removing it again gives the map back. */
  lemma AddThenRemove<K, V>(m: map<K, V>, k: K, v: V)
    requires k !in m
    ensures m[k := v] - {k} == m
  {
    assert (m[k := v] - {k}).Keys == m.Keys;
  }
}

=== FILE: grouping.dfy ===
/**
 * The two extractions `updateCalendar` performs on an uploaded calendar: the
 * vendor extension properties of the calendar component, and the grouping of
 * its VEVENTs by UID into one stored record per UID.
 */
module Grouping {
  import opened Wrappers
  import opened Seqs
  import opened JsText
  import opened ICal
  import opened Store
  import opened ICalTime

  // ---------------------------------------------------------------- extension properties

  /** Whether a parsed property is a vendor extension (its lower-case name starts with `x-`). */
  predicate IsExtension(p: Property)
  {
    StartsWith(p.name, "x-")
  }

  /** How an extension property is kept on the calendar record: key upper-cased, all values. */
  function ToXProp(p: Property): XProp
  {
    XProp(Upper(p.name), p.values)
  }

  /**
   * The calendar's extension properties as `updateCalendar` collects them: one
   * entry per extension property, in document order, each under an upper-case
   * key starting with `X-`.
   */
  function ExtensionProps(props: seq<Property>): (r: seq<XProp>)
    ensures |r| <= |props|
    ensures forall i :: 0 <= i < |r| ==> StartsWith(r[i].key, "X-") && Upper(r[i].key) == r[i].key
  {
    var f := Filter(props, IsExtension);
    ExtensionKeysShape(f);
    Map(f, ToXProp)
  }

  lemma ExtensionKeysShape(f: seq<Property>)
    requires forall i :: 0 <= i < |f| ==> IsExtension(f[i])
    ensures forall i :: 0 <= i < |f| ==> StartsWith(ToXProp(f[i]).key, "X-") && Upper(ToXProp(f[i]).key) == ToXProp(f[i]).key
  {
    forall i | 0 <= i < |f| ensures StartsWith(ToXProp(f[i]).key, "X-") && Upper(ToXProp(f[i]).key) == ToXProp(f[i]).key {
      ExtensionKeyShape(f[i]);
    }
  }

  /** Collecting extension properties distributes over concatenation. */
  lemma ExtensionPropsAppend(a: seq<Property>, b: seq<Property>)
    ensures ExtensionProps(a + b) == ExtensionProps(a) + ExtensionProps(b)
  {
    FilterAppend(a, b, IsExtension);
    MapAppend(Filter(a, IsExtension), Filter(b, IsExtension), ToXProp);
  }

  /** Every extension property of the calendar is collected. */
  lemma ExtensionPropsComplete(props: seq<Property>, j: nat)
    requires j < |props| && IsExtension(props[j])
    ensures ToXProp(props[j]) in ExtensionProps(props)
  {
    var f := Filter(props, IsExtension);
    assert props[j] in f;
    var i :| 0 <= i < |f| && f[i] == props[j];
    assert ExtensionProps(props)[i] == ToXProp(props[j]);
  }

  /** Every collected entry comes from an extension property of the calendar. */
  lemma ExtensionPropsSound(props: seq<Property>, i: nat)
    requires i < |ExtensionProps(props)|
    ensures exists p :: p in props && IsExtension(p) && ExtensionProps(props)[i] == ToXProp(p)
  {
    var f := Filter(props, IsExtension);
    assert f[i] in props && IsExtension(f[i]) && ExtensionProps(props)[i] == ToXProp(f[i]);
  }

  /** Every kept key is upper-case and starts with `X-`. */
  lemma ExtensionKeyShape(p: Property)
    requires IsExtension(p)
    ensures StartsWith(ToXProp(p).key, "X-")
    ensures Upper(ToXProp(p).key) == ToXProp(p).key
  {
    var u := Upper(p.name);
    assert p.name[0] == 'x' && p.name[1] == '-';
    assert u[0] == 'X' && u[1] == '-';
    UpperIdempotent(p.name);
  }

  lemma UpperIdempotent(s: string)
    ensures Upper(Upper(s)) == Upper(s)
  {
    var u := Upper(s);
    assert forall i :: 0 <= i < |s| ==> UpperChar(u[i]) == u[i];
  }

  // ---------------------------------------------------------------- grouping by UID

  /**
   * The property key a VEVENT's UID becomes in the grouping object, `String(uid)`:
   * the text itself, `"null"` when the UID is missing, and the ISO text
   * `ICAL.Time` writes for a date-time (which ends in `Z`, so it is never an
   * array index and keeps its insertion place among the keys).
   */
  function UidOf(v: Component): string
  {
    match FirstPropertyValue(v, "uid")
    case Text(s) => s
    case Null => "null"
    case Time(t) => TimeText(t)
  }

  /**
   * The key of a VEVENT's group is its UID text, `"null"` without a UID, and
   * for a date-time UID its ISO text, which is never an array index.
   */
  lemma UidKey(v: Component)
    ensures FirstPropertyValue(v, "uid").Text? ==> UidOf(v) == FirstPropertyValue(v, "uid").text
    ensures FirstPropertyValue(v, "uid").Null? ==> UidOf(v) == "null"
    ensures FirstPropertyValue(v, "uid").Time? ==>
      UidOf(v) == TimeText(FirstPropertyValue(v, "uid").at) && IsNamedKey(UidOf(v))
  {
    if FirstPropertyValue(v, "uid").Time? {
      TimeTextNotDigits(FirstPropertyValue(v, "uid").at);
    }
  }

  /** A one-event calendar wrapping `v`, as the grouping step serialises it. */
  function Wrap(v: Component): (d: Document)
    ensures Parse(d).Some? && AllSubcomponents(Parse(d).value, "vevent") == Filter([v], (s: Component) => s.name == "vevent")
  {
    AddSubcomponentEmpty(v);
    Serialize(AddSubcomponent(EmptyComponent("vcalendar"), v))
  }

  lemma AddSubcomponentEmpty(v: Component)
    ensures AddSubcomponent(EmptyComponent("vcalendar"), v).subs == [v]
  {
  }

  /** The entry the grouping step pushes for `v`. */
  function Member(v: Component, calendar: nat): EventRecord
  {
    EventRecord(calendar, UidOf(v), Wrap(v))
  }

  function Members(vs: seq<Component>, calendar: nat): (r: seq<EventRecord>)
    ensures |r| == |vs|
    ensures forall i :: 0 <= i < |vs| ==> r[i] == Member(vs[i], calendar)
  {
    if |vs| == 0 then [] else [Member(vs[0], calendar)] + Members(vs[1..], calendar)
  }

  lemma {:induction false} MembersAppend(a: seq<Component>, b: seq<Component>, calendar: nat)
    ensures Members(a + b, calendar) == Members(a, calendar) + Members(b, calendar)
  {
    MembersAsMap(a + b, calendar);
    MembersAsMap(a, calendar);
    MembersAsMap(b, calendar);
    MapAppend(a, b, MemberIn(calendar));
  }

  function MemberIn(calendar: nat): Component -> EventRecord
  {
    (v: Component) => Member(v, calendar)
  }

  lemma MembersAsMap(vs: seq<Component>, calendar: nat)
    ensures Members(vs, calendar) == Map(vs, MemberIn(calendar))
  {
  }

  function HasUid(k: string): Component -> bool
  {
    (v: Component) => UidOf(v) == k
  }

  /** Groups in order of first appearance of their UID, with each group's entries. */
  datatype Groups = Groups(order: seq<string>, members: map<string, seq<EventRecord>>)

  /** The grouping loop of `updateCalendar`, over the VEVENTs in document order. */
  function GroupByUid(vs: seq<Component>, calendar: nat): (g: Groups)
    ensures Distinct(g.order)
    ensures forall k :: k in g.members <==> k in g.order
    ensures forall i :: 0 <= i < |vs| ==> UidOf(vs[i]) in g.members
    decreases |vs|
  {
    if |vs| == 0 then Groups([], map[])
    else
      var init := vs[..|vs| - 1];
      var v := vs[|vs| - 1];
      var g := GroupByUid(init, calendar);
      var k := UidOf(v);
      assert forall i :: 0 <= i < |init| ==> init[i] == vs[i];
      if k in g.members then Groups(g.order, g.members[k := g.members[k] + [Member(v, calendar)]])
      else
        DistinctAppend(g.order, [k]);
        Groups(g.order + [k], g.members[k := [Member(v, calendar)]])
  }

  /** Each group holds exactly the entries for the VEVENTs carrying its UID, in document order. */
  lemma {:induction false} GroupMembers(vs: seq<Component>, calendar: nat, k: string)
    requires k in GroupByUid(vs, calendar).members
    ensures GroupByUid(vs, calendar).members[k] == Members(Filter(vs, HasUid(k)), calendar)
    decreases |vs|
  {
    var init := vs[..|vs| - 1];
    var v := vs[|vs| - 1];
    var gi := GroupByUid(init, calendar);
    var before := Filter(init, HasUid(k));
    var after := Filter([v], HasUid(k));
    var prev := if k in gi.members then gi.members[k] else [];
    assert prev == Members(before, calendar) by {
      if k in gi.members {
        GroupMembers(init, calendar, k);
      } else {
        NoEarlierMember(init, calendar, k);
      }
    }
    assert GroupByUid(vs, calendar).members[k] == prev + Members(after, calendar) by {
      GroupStep(vs, calendar, k);
      FilterSingle(v, k);
    }
    FilterSnoc(vs, HasUid(k));
    MembersAppend(before, after, calendar);
  }

  /** One step of the grouping loop: the last VEVENT is appended to its group, or starts one. */
  lemma GroupStep(vs: seq<Component>, calendar: nat, k: string)
    requires |vs| > 0 && k in GroupByUid(vs, calendar).members
    ensures var g := GroupByUid(vs[..|vs| - 1], calendar);
      var v := vs[|vs| - 1];
      GroupByUid(vs, calendar).members[k]
        == (if k in g.members then g.members[k] else [])
           + (if UidOf(v) == k then [Member(v, calendar)] else [])
  {
  }

  lemma FilterSingle(v: Component, k: string)
    ensures Filter([v], HasUid(k)) == if UidOf(v) == k then [v] else []
  {
    assert [v][1..] == [];
  }

  /** A UID without a group carries no VEVENT. */
  lemma NoEarlierMember(vs: seq<Component>, calendar: nat, k: string)
    requires k !in GroupByUid(vs, calendar).members
    ensures Filter(vs, HasUid(k)) == []
  {
    FilterNone(vs, HasUid(k));
  }

  /** A group is never empty, so every listed UID is the UID of some VEVENT. */
  lemma GroupsNonEmpty(vs: seq<Component>, calendar: nat, k: string)
    requires k in GroupByUid(vs, calendar).members
    ensures exists i :: 0 <= i < |vs| && UidOf(vs[i]) == k
  {
    GroupMembers(vs, calendar, k);
    GroupsStoreNonEmpty(vs, calendar, k);
    var f := Filter(vs, HasUid(k));
    assert f[0] in vs && HasUid(k)(f[0]);
  }

  lemma {:induction false} GroupsStoreNonEmpty(vs: seq<Component>, calendar: nat, k: string)
    requires k in GroupByUid(vs, calendar).members
    ensures |GroupByUid(vs, calendar).members[k]| > 0
    decreases |vs|
  {
    var init := vs[..|vs| - 1];
    var g := GroupByUid(init, calendar);
    if k in g.members {
      GroupsStoreNonEmpty(init, calendar, k);
    }
  }

  /** Every VEVENT lands in the group of its own UID. */
  lemma GroupsCover(vs: seq<Component>, calendar: nat, i: nat)
    requires i < |vs|
    ensures UidOf(vs[i]) in GroupByUid(vs, calendar).members
    ensures Member(vs[i], calendar) in GroupByUid(vs, calendar).members[UidOf(vs[i])]
  {
    var k := UidOf(vs[i]);
    GroupMembers(vs, calendar, k);
    var f := Filter(vs, HasUid(k));
    assert vs[i] in f;
    var j :| 0 <= j < |f| && f[j] == vs[i];
    assert Members(f, calendar)[j] == Member(vs[i], calendar);
  }

  // ---------------------------------------------------------------- `Object.keys` order

  /**
   * A property key that JavaScript treats as an array index: the canonical
   * decimal rendering of an integer below 2^32 - 1.
   */
  predicate IsArrayIndex(k: string)
  {
    |k| > 0 && AllDigits(k) && DigitsValue(k) < 0xFFFF_FFFF && NatToString(DigitsValue(k)) == k
  }

  predicate IsNamedKey(k: string)
  {
    !IsArrayIndex(k)
  }

  /** The integer an array-index key stands for. */
  function IndexOf(k: string): nat
    requires IsArrayIndex(k)
  {
    DigitsValue(k)
  }

  /** Array-index keys in strictly ascending numeric order. */
  predicate Ascending(s: seq<string>)
  {
    && (forall i :: 0 <= i < |s| ==> IsArrayIndex(s[i]))
    && (forall i, j :: 0 <= i < j < |s| ==> IndexOf(s[i]) < IndexOf(s[j]))
  }

  lemma AscendingDistinct(s: seq<string>)
    requires Ascending(s)
    ensures Distinct(s)
  {
  }

  /** Distinct array-index keys stand for distinct integers. */
  lemma IndexInjective(a: string, b: string)
    requires IsArrayIndex(a) && IsArrayIndex(b) && a != b
    ensures IndexOf(a) != IndexOf(b)
  {
  }

  /** Inserting a new array-index key into an ascending sequence. */
  function InsertIndex(k: string, s: seq<string>): (r: seq<string>)
    requires IsArrayIndex(k) && Ascending(s) && k !in s
    ensures Ascending(r)
    ensures forall x :: x in r <==> x == k || x in s
  {
    if |s| == 0 then [k]
    else
      IndexInjective(k, s[0]);
      if IndexOf(k) < IndexOf(s[0]) then
        InsertFront(k, s);
        [k] + s
      else
        var rest := InsertIndex(k, s[1..]);
        InsertBehind(k, s, rest);
        [s[0]] + rest
  }

  lemma InsertFront(k: string, s: seq<string>)
    requires IsArrayIndex(k) && Ascending(s) && |s| > 0 && IndexOf(k) < IndexOf(s[0])
    ensures Ascending([k] + s)
  {
    var r := [k] + s;
    forall i, j | 0 <= i < j < |r| ensures IndexOf(r[i]) < IndexOf(r[j]) {
      assert r[j] == s[j - 1];
      if i > 0 {
        assert r[i] == s[i - 1];
      }
    }
  }

  lemma InsertBehind(k: string, s: seq<string>, rest: seq<string>)
    requires IsArrayIndex(k) && Ascending(s) && |s| > 0 && IndexOf(s[0]) < IndexOf(k)
    requires Ascending(rest)
    requires forall x :: x in rest <==> x == k || x in s[1..]
    ensures Ascending([s[0]] + rest)
  {
    var r := [s[0]] + rest;
    forall i, j | 0 <= i < j < |r| ensures IndexOf(r[i]) < IndexOf(r[j]) {
      assert r[j] == rest[j - 1];
      if i > 0 {
        assert r[i] == rest[i - 1];
      } else {
        assert rest[j - 1] in rest;
        if rest[j - 1] != k {
          var m :| 0 <= m < |s[1..]| && s[1..][m] == rest[j - 1];
          assert s[1..][m] == s[m + 1];
        }
      }
    }
  }

  /** Distinct array-index keys in ascending numeric order. */
  function SortIndex(s: seq<string>): (r: seq<string>)
    requires forall i :: 0 <= i < |s| ==> IsArrayIndex(s[i])
    requires Distinct(s)
    ensures Ascending(r)
    ensures forall x :: x in r <==> x in s
  {
    if |s| == 0 then []
    else
      assert forall i :: 0 <= i < |s[1..]| ==> s[1..][i] == s[i + 1];
      InsertIndex(s[0], SortIndex(s[1..]))
  }

  /**
   * `Object.keys` of an object whose own keys were created in `order`: the
   * array-index keys first, in ascending numeric order, then the other keys in
   * creation order.
   */
  function ObjectKeys(order: seq<string>): (r: seq<string>)
    requires Distinct(order)
    ensures Distinct(r)
    ensures forall x :: x in r <==> x in order
  {
    FilterDistinct(order, IsArrayIndex);
    FilterDistinct(order, IsNamedKey);
    assert forall i :: 0 <= i < |Filter(order, IsArrayIndex)| ==> IsArrayIndex(Filter(order, IsArrayIndex)[i]);
    var idx := SortIndex(Filter(order, IsArrayIndex));
    var named := Filter(order, IsNamedKey);
    AscendingDistinct(idx);
    DistinctAppend(idx, named);
    idx + named
  }

  /**
   * The two ordering rules of `Object.keys`: whatever precedes an array-index
   * key is a smaller array index, and the other keys keep their creation order.
   */
  lemma ObjectKeysOrder(order: seq<string>)
    requires Distinct(order)
    ensures var r := ObjectKeys(order);
      forall i, j :: 0 <= i < j < |r| && IsArrayIndex(r[j]) ==> IsArrayIndex(r[i]) && IndexOf(r[i]) < IndexOf(r[j])
    ensures Filter(ObjectKeys(order), IsNamedKey) == Filter(order, IsNamedKey)
  {
    FilterDistinct(order, IsArrayIndex);
    assert forall i :: 0 <= i < |Filter(order, IsArrayIndex)| ==> IsArrayIndex(Filter(order, IsArrayIndex)[i]);
    var idx := SortIndex(Filter(order, IsArrayIndex));
    var named := Filter(order, IsNamedKey);
    var r := ObjectKeys(order);
    assert r == idx + named;
    forall i, j | 0 <= i < j < |r|
      ensures IsArrayIndex(r[j]) ==> IsArrayIndex(r[i]) && IndexOf(r[i]) < IndexOf(r[j])
    {
      if j < |idx| {
        assert r[i] == idx[i] && r[j] == idx[j];
      } else {
        assert r[j] == named[j - |idx|];
      }
    }
    FilterAppend(idx, named, IsNamedKey);
    FilterNone(idx, IsNamedKey);
    FilterAll(named, IsNamedKey);
  }

  // ---------------------------------------------------------------- the `__proto__` key

  predicate IsOwnKey(k: string)
  {
    k != "__proto__"
  }

  /**
   * The UIDs whose groups `Object.keys` reports when the grouping object is a
   * plain object: assigning the key `__proto__` replaces the object's prototype
   * instead of creating an own property, so that group is never listed.
   */
  function ListedKeysAsWritten(g: Groups): (r: seq<string>)
    requires Distinct(g.order)
    ensures Distinct(r)
    ensures forall k :: k in r <==> k in g.order && k != "__proto__"
  {
    FilterDistinct(g.order, IsOwnKey);
    ObjectKeys(Filter(g.order, IsOwnKey))
  }

  /** With a map from UID to group, every group is listed, once, in `Object.keys` order. */
  function ListedKeys(vs: seq<Component>, calendar: nat): (r: seq<string>)
    ensures Distinct(r)
    ensures forall k :: k in r <==> k in GroupByUid(vs, calendar).members
  {
    ObjectKeys(GroupByUid(vs, calendar).order)
  }

  /**
   * The UIDs whose groups `updateCalendar` stores, in `Object.keys` order: as
   * written every UID but `__proto__`, corrected every UID.
   */
  function KeysFor(vs: seq<Component>, calendar: nat, variant: Variant): (r: seq<string>)
    ensures Distinct(r)
    ensures forall k :: k in r <==> k in GroupByUid(vs, calendar).members && (variant == Corrected || k != "__proto__")
  {
    match variant
    case AsWritten => ListedKeysAsWritten(GroupByUid(vs, calendar))
    case Corrected => ListedKeys(vs, calendar)
  }

  /** A VEVENT whose UID is `__proto__`. */
  function ProtoEvent(): Component
  {
    Component("vevent", [Property("uid", [Text("__proto__")])], [])
  }

  /** A calendar whose only event has UID `__proto__` loses that event as written, and keeps it corrected. */
  lemma ProtoGroupDropped(calendar: nat)
    ensures var g := GroupByUid([ProtoEvent()], calendar);
      && ListedKeysAsWritten(g) == []
      && ListedKeys([ProtoEvent()], calendar) == ["__proto__"]
  {
    var g := GroupByUid([ProtoEvent()], calendar);
    assert UidOf(ProtoEvent()) == "__proto__";
    assert [ProtoEvent()][..0] == [];
  }
}

=== FILE: ical.dfy ===
/**
 * The component tree of an iCalendar document as the ical.js library exposes it,
 * reduced to what the CalDAV data layer touches. Text parsing and serialisation
 * are abstracted: a stored document either is the serialisation of a tree or is
 * text the parser rejects. The round trip keeps names exactly as they are
 * written; the lower-casing ical.js applies to names when it parses text is not
 * modelled, and lemmas that depend on it take lower-case names as a premise.
 */
module ICal {
  import opened Wrappers
  import opened Seqs
  import opened ICalTime

  /** A property value: text, a UTC date-time (an `ICAL.Time`), or null. */
  datatype Value = Text(text: string) | Time(at: Stamp) | Null

  /** JavaScript truthiness of a property value. */
  predicate Truthy(v: Value)
  {
    match v
    case Text(s) => s != ""
    case Time(_) => true
    case Null => false
  }

  datatype Property = Property(name: string, values: seq<Value>)

  datatype Component = Component(name: string, props: seq<Property>, subs: seq<Component>)

  /** Stored or uploaded calendar text. */
  datatype Document = Serialized(root: Component) | Unparseable(raw: string)

  /** `new ICAL.Component(ICAL.parse(text))`; `None` when the parser throws. */
  function Parse(d: Document): (r: Option<Component>)
    ensures d.Serialized? <==> r.Some?
    ensures d.Serialized? ==> r.value == d.root
  {
    match d
    case Serialized(c) => Some(c)
    case Unparseable(_) => None
  }

  /** `component.toString()`. */
  function Serialize(c: Component): (d: Document)
    ensures Parse(d) == Some(c)
  {
    Serialized(c)
  }

  /** `new ICAL.Component([name, [], []])`. */
  function EmptyComponent(name: string): Component
  {
    Component(name, [], [])
  }

  /** `property.getFirstValue()`; null when the property has no value. */
  function FirstValue(p: Property): Value
  {
    if |p.values| == 0 then Null else p.values[0]
  }

  /** `getAllProperties(name)`: the properties called `name`, in order. */
  function AllProperties(c: Component, name: string): (r: seq<Property>)
    ensures forall i :: 0 <= i < |r| ==> r[i].name == name && r[i] in c.props
    ensures forall i :: 0 <= i < |c.props| && c.props[i].name == name ==> c.props[i] in r
  {
    Filter(c.props, (p: Property) => p.name == name)
  }

  /** `getFirstProperty(name)`: the first property called exactly `name`. */
  function FirstProperty(props: seq<Property>, name: string): (r: Option<Property>)
    ensures r.None? <==> forall i :: 0 <= i < |props| ==> props[i].name != name
    ensures r.Some? ==> r.value.name == name && r.value in props
  {
    if |props| == 0 then None
    else if props[0].name == name then Some(props[0])
    else
      var r := FirstProperty(props[1..], name);
      assert forall i :: 1 <= i < |props| ==> props[i] == props[1..][i - 1];
      r
  }

  /** The property found is the earliest one with the name: none before it is called so. */
  lemma {:induction false} FirstPropertyIsFirst(props: seq<Property>, name: string)
    requires FirstProperty(props, name).Some?
    ensures exists i :: (0 <= i < |props| && props[i] == FirstProperty(props, name).value &&
              forall j :: 0 <= j < i ==> props[j].name != name)
  {
    if props[0].name != name {
      FirstPropertyIsFirst(props[1..], name);
      var i :| 0 <= i < |props[1..]| && props[1..][i] == FirstProperty(props[1..], name).value &&
               forall j :: 0 <= j < i ==> props[1..][j].name != name;
      assert props[i + 1] == FirstProperty(props, name).value;
      assert forall j :: 0 <= j < i + 1 ==> props[j].name != name by {
        forall j | 0 <= j < i + 1 ensures props[j].name != name {
          if j > 0 { assert props[j] == props[1..][j - 1]; }
        }
      }
    } else {
      assert props[0] == FirstProperty(props, name).value;
    }
  }

  /** A lookup in a list of three properties tries them in order. */
  lemma FirstOfThree(a: Property, b: Property, c: Property, n: string)
    ensures FirstProperty([a, b, c], n) ==
      if a.name == n then Some(a) else if b.name == n then Some(b) else if c.name == n then Some(c) else None
  {
    assert [a, b, c][1..] == [b, c] && [b, c][1..] == [c] && [c][1..] == [];
    if a.name != n {
      assert FirstProperty([a, b, c], n) == FirstProperty([b, c], n);
      if b.name != n {
        assert FirstProperty([b, c], n) == FirstProperty([c], n);
      }
    }
  }

  /** `getFirstPropertyValue(name)`: the first value of the first property called `name`, or null. */
  function FirstPropertyValue(c: Component, name: string): (v: Value)
    ensures v != Null ==> exists i :: 0 <= i < |c.props| && c.props[i].name == name && v in c.props[i].values
    ensures FirstProperty(c.props, name).None? ==> v == Null
    ensures FirstProperty(c.props, name).Some? && |FirstProperty(c.props, name).value.values| > 0 ==>
      v == FirstProperty(c.props, name).value.values[0]
  {
    match FirstProperty(c.props, name)
    case None => Null
    case Some(p) => FirstValue(p)
  }

  /** `getAllSubcomponents(name)`: the direct children called `name`, in order. */
  function AllSubcomponents(c: Component, name: string): (r: seq<Component>)
    ensures |r| <= |c.subs|
    ensures forall i :: 0 <= i < |r| ==> r[i].name == name && r[i] in c.subs
    ensures forall i :: 0 <= i < |c.subs| && c.subs[i].name == name ==> c.subs[i] in r
  {
    Filter(c.subs, (s: Component) => s.name == name)
  }

  /** `removeAllProperties(name)`: names are compared exactly, as ical.js does. */
  function RemoveAllProperties(c: Component, name: string): (r: Component)
    ensures r.name == c.name && r.subs == c.subs
    ensures forall i :: 0 <= i < |r.props| ==> r.props[i].name != name && r.props[i] in c.props
    ensures forall i :: 0 <= i < |c.props| && c.props[i].name != name ==> c.props[i] in r.props
  {
    c.(props := Filter(c.props, (p: Property) => p.name != name))
  }

  /** `addSubcomponent(sub)`: appended after the existing children. */
  function AddSubcomponent(c: Component, sub: Component): Component
  {
    c.(subs := c.subs + [sub])
  }

  /**
   * `updatePropertyWithValue(name, value)`: set the values of the first property
   * called exactly `name`, or append a new property when there is none.
   */
  function UpdatePropertyWithValue(c: Component, name: string, values: seq<Value>): (r: Component)
    ensures r.name == c.name && r.subs == c.subs
    ensures FirstProperty(r.props, name) == Some(Property(name, values))
    ensures FirstProperty(c.props, name).Some? ==> |r.props| == |c.props|
    ensures FirstProperty(c.props, name).None? ==> r.props == c.props + [Property(name, values)]
  {
    c.(props := SetFirst(c.props, name, values))
  }

  function SetFirst(props: seq<Property>, name: string, values: seq<Value>): (r: seq<Property>)
    ensures FirstProperty(r, name) == Some(Property(name, values))
    ensures FirstProperty(props, name).Some? ==> |r| == |props|
    ensures FirstProperty(props, name).None? ==> r == props + [Property(name, values)]
  {
    if |props| == 0 then [Property(name, values)]
    else if props[0].name == name then [Property(name, values)] + props[1..]
    else
      var rest := SetFirst(props[1..], name, values);
      var r := [props[0]] + rest;
      assert r[1..] == rest;
      r
  }

  /** Setting three differently named properties on a component without properties lists them in order. */
  lemma UpdateThree(c: Component, p1: Property, p2: Property, p3: Property)
    requires c.props == []
    requires p1.name != p2.name && p1.name != p3.name && p2.name != p3.name
    ensures var c1 := UpdatePropertyWithValue(c, p1.name, p1.values);
      var c2 := UpdatePropertyWithValue(c1, p2.name, p2.values);
      UpdatePropertyWithValue(c2, p3.name, p3.values).props == [p1, p2, p3]
  {
    var c1 := UpdatePropertyWithValue(c, p1.name, p1.values);
    assert c1.props == [p1];
    assert FirstProperty([p1], p2.name).None?;
    var c2 := UpdatePropertyWithValue(c1, p2.name, p2.values);
    assert c2.props == [p1, p2];
    assert FirstProperty([p1, p2], p3.name).None?;
  }

  /** Updating one property leaves what every other name finds unchanged. */
  lemma {:induction false} UpdateKeepsOthers(c: Component, name: string, values: seq<Value>, n: string)
    requires n != name
    ensures FirstProperty(UpdatePropertyWithValue(c, name, values).props, n) == FirstProperty(c.props, n)
  {
    SetFirstKeepsOthers(c.props, name, values, n);
  }

  lemma {:induction false} SetFirstKeepsOthers(props: seq<Property>, name: string, values: seq<Value>, n: string)
    requires n != name
    ensures FirstProperty(SetFirst(props, name, values), n) == FirstProperty(props, n)
  {
    if |props| > 0 && props[0].name != name {
      var r := SetFirst(props, name, values);
      assert r[1..] == SetFirst(props[1..], name, values);
      SetFirstKeepsOthers(props[1..], name, values, n);
    } else if |props| > 0 {
      var r := SetFirst(props, name, values);
      assert r[1..] == props[1..];
    }
  }
}

=== FILE: ical_time.dfy ===
/**
 * `ICAL.Time` date-times in UTC: the fields they keep, the text
 * `ICAL.Time.prototype.toString()` writes for them (`YYYY-MM-DDTHH:MM:SSZ`, the
 * year unpadded), and the instant they name, in seconds from 1970-01-01T00:00:00Z.
 * Calendar dates use the proleptic Gregorian calendar, counted in 400-year eras
 * of 146097 days, each year starting on 1 March so that the leap day comes last.
 */
module ICalTime {
  import opened Wrappers
  import opened JsText

  datatype Date = Date(year: int, month: int, day: int)

  /** Days in the first `yoe` years of an era: a leap day every fourth year, none every hundredth. */
  function DaysBefore(yoe: int): int
  {
    365 * yoe + yoe / 4 - yoe / 100
  }

  datatype EraDay = EraDay(yoe: int, doy: int)

  /** Day `doe` of an era as a year of the era and a day within that (March-based) year. */
  function SplitEra(doe: int): (r: EraDay)
    requires 0 <= doe < 146097
    ensures 0 <= r.yoe < 400 && 0 <= r.doy <= 365
    ensures DaysBefore(r.yoe) + r.doy == doe
  {
    // three centuries of 36524 days, then one of 36525
    var c := if doe / 36524 < 3 then doe / 36524 else 3;
    var doc := doe - c * 36524;
    // four-year blocks of 1461 days
    var q := doc / 1461;
    var doq := doc - q * 1461;
    // three years of 365 days, then one that may hold the leap day
    var y := if doq / 365 < 3 then doq / 365 else 3;
    var doy := doq - y * 365;
    assert (100 * c + 4 * q + y) / 4 == 25 * c + q;
    assert (100 * c + 4 * q + y) / 100 == c;
    EraDay(100 * c + 4 * q + y, doy)
  }

  /** Months counted from March: 0 is March, 11 is February. */
  function MonthIndex(doy: int): int
  {
    (5 * doy + 2) / 153
  }

  function DayOf(doy: int): int
  {
    doy - (153 * MonthIndex(doy) + 2) / 5 + 1
  }

  function MonthOf(mp: int): int
  {
    if mp < 10 then mp + 3 else mp - 9
  }

  function MarchMonth(m: int): int
  {
    if m > 2 then m - 3 else m + 9
  }

  /** The day within the March-based year that month `m`, day `d` is. */
  function YearDay(m: int, d: int): int
  {
    (153 * MarchMonth(m) + 2) / 5 + d - 1
  }

  lemma MonthDay(doy: int)
    requires 0 <= doy <= 365
    ensures 1 <= MonthOf(MonthIndex(doy)) <= 12 && 1 <= DayOf(doy) <= 31
    ensures YearDay(MonthOf(MonthIndex(doy)), DayOf(doy)) == doy
  {
  }

  /** The calendar date of day `z0` counted from 1970-01-01. */
  function CivilFromDays(z0: int): Date
  {
    var z := z0 + 719468;
    var s := SplitEra(z % 146097);
    var m := MonthOf(MonthIndex(s.doy));
    Date(s.yoe + (z / 146097) * 400 + (if m <= 2 then 1 else 0), m, DayOf(s.doy))
  }

  /** The day, counted from 1970-01-01, that a calendar date names. */
  function DaysFromCivil(dt: Date): int
  {
    var y := dt.year - (if dt.month <= 2 then 1 else 0);
    (y / 400) * 146097 + DaysBefore(y % 400) + YearDay(dt.month, dt.day) - 719468
  }

  lemma EraSplit(y: int, era: int, yoe: int)
    requires 0 <= yoe < 400 && y == yoe + era * 400
    ensures y / 400 == era && y % 400 == yoe
  {
  }

  lemma CivilYear(z0: int)
    ensures var dt := CivilFromDays(z0);
      var y := dt.year - (if dt.month <= 2 then 1 else 0);
      y / 400 == (z0 + 719468) / 146097 && y % 400 == SplitEra((z0 + 719468) % 146097).yoe
  {
    var z := z0 + 719468;
    var dt := CivilFromDays(z0);
    EraSplit(dt.year - (if dt.month <= 2 then 1 else 0), z / 146097, SplitEra(z % 146097).yoe);
  }

  lemma CivilDay(z0: int)
    ensures 1 <= CivilFromDays(z0).month <= 12 && 1 <= CivilFromDays(z0).day <= 31
    ensures YearDay(CivilFromDays(z0).month, CivilFromDays(z0).day) == SplitEra((z0 + 719468) % 146097).doy
  {
    MonthDay(SplitEra((z0 + 719468) % 146097).doy);
  }

  /** A date's day count from its era, year of era and day within the year. */
  lemma DaysOfParts(dt: Date, era: int, yoe: int, doy: int)
    requires (dt.year - (if dt.month <= 2 then 1 else 0)) / 400 == era
    requires (dt.year - (if dt.month <= 2 then 1 else 0)) % 400 == yoe
    requires YearDay(dt.month, dt.day) == doy
    ensures DaysFromCivil(dt) == era * 146097 + DaysBefore(yoe) + doy - 719468
  {
  }

  /** The date of a day names that day back: month and day are in range, and no two days share a date. */
  lemma CivilRoundTrip(z0: int)
    ensures 1 <= CivilFromDays(z0).month <= 12 && 1 <= CivilFromDays(z0).day <= 31
    ensures DaysFromCivil(CivilFromDays(z0)) == z0
  {
    var z := z0 + 719468;
    var s := SplitEra(z % 146097);
    CivilYear(z0);
    CivilDay(z0);
    DaysOfParts(CivilFromDays(z0), z / 146097, s.yoe, s.doy);
    EraSum(z, DaysBefore(s.yoe), s.doy);
  }

  lemma EraSum(z: int, a: int, b: int)
    requires a + b == z % 146097
    ensures (z / 146097) * 146097 + a + b == z
  {
  }

  /** An `ICAL.Time` date-time in UTC: the fields it keeps, a calendar date and a time of day. */
  datatype Stamp = Stamp(date: Date, hour: int, minute: int, second: int)

  /** 1970-01-01T00:00:00Z. */
  const Epoch := Stamp(Date(1970, 1, 1), 0, 0, 0)

  /** The instant a stamp names, in seconds since the epoch (`toJSDate`, in seconds). */
  function Seconds(t: Stamp): int
  {
    DaysFromCivil(t.date) * 86400 + t.hour * 3600 + t.minute * 60 + t.second
  }

  lemma ClockSum(secs: int)
    requires 0 <= secs < 86400
    ensures 0 <= secs / 3600 < 24 && 0 <= secs % 3600 / 60 < 60 && 0 <= secs % 60 < 60
    ensures (secs / 3600) * 3600 + (secs % 3600 / 60) * 60 + secs % 60 == secs
  {
  }

  lemma DaySum(instant: int, a: int)
    requires a == instant % 86400
    ensures (instant / 86400) * 86400 + a == instant
  {
  }

  /** The UTC date and time of day of an instant: a stamp in range that names the instant back. */
  function StampOf(instant: int): (t: Stamp)
    ensures 1 <= t.date.month <= 12 && 1 <= t.date.day <= 31
    ensures 0 <= t.hour < 24 && 0 <= t.minute < 60 && 0 <= t.second < 60
    ensures Seconds(t) == instant
  {
    var secs := instant % 86400;
    ClockSum(secs);
    CivilRoundTrip(instant / 86400);
    DaySum(instant, (secs / 3600) * 3600 + (secs % 3600 / 60) * 60 + secs % 60);
    Stamp(CivilFromDays(instant / 86400), secs / 3600, secs % 3600 / 60, secs % 60)
  }

  /** `pad2`: a number below ten gets a leading zero, any other is written as it is. */
  function Pad2(n: int): string
  {
    if 0 <= n < 10 then "0" + NatToString(n) else NumberToString(Some(n))
  }

  /** A field below 100 is written as exactly two digits. */
  lemma Pad2Digits(n: int)
    requires 0 <= n < 100
    ensures |Pad2(n)| == 2 && AllDigits(Pad2(n))
  {
    if n >= 10 {
      assert |NatToString(n / 10)| == 1;
      assert Pad2(n) == NatToString(n);
    }
  }

  /** Each field after its separator, through `pad2`, then the `Z` of a UTC time. */
  function Padded(fields: seq<(char, int)>): (s: string)
  {
    if |fields| == 0 then "Z" else [fields[0].0] + Pad2(fields[0].1) + Padded(fields[1..])
  }

  /** `ICAL.Time.prototype.toString()` of a UTC date-time: the year unpadded, every other field through `pad2`. */
  function TimeText(t: Stamp): string
  {
    NumberToString(Some(t.date.year))
      + Padded([('-', t.date.month), ('-', t.date.day), ('T', t.hour), (':', t.minute), (':', t.second)])
  }

  lemma {:induction false} PaddedEndsInZ(fields: seq<(char, int)>)
    ensures |Padded(fields)| > 0 && Padded(fields)[|Padded(fields)| - 1] == 'Z'
    decreases |fields|
  {
    if |fields| > 0 {
      PaddedEndsInZ(fields[1..]);
    }
  }

  /** The text of a UTC date-time ends in `Z`, so it never consists of digits alone. */
  lemma TimeTextNotDigits(t: Stamp)
    ensures |TimeText(t)| > 0 && TimeText(t)[|TimeText(t)| - 1] == 'Z' && !AllDigits(TimeText(t))
  {
    var fields := [('-', t.date.month), ('-', t.date.day), ('T', t.hour), (':', t.minute), (':', t.second)];
    PaddedEndsInZ(fields);
    var s := TimeText(t);
    assert s[|s| - 1] == Padded(fields)[|Padded(fields)| - 1];
  }

  lemma EpochDate()
    ensures CivilFromDays(0) == Date(1970, 1, 1)
  {
    assert 719468 / 146097 == 4 && 719468 % 146097 == 135080;
    assert SplitEra(135080) == EraDay(369, 306);
    assert MonthIndex(306) == 10 && DayOf(306) == 1;
  }

  lemma YearText1970()
    ensures NumberToString(Some(1970)) == "1970"
  {
    assert NatToString(1) == "1";
    assert NatToString(19) == "19";
    assert NatToString(197) == "197";
  }

  lemma StampOfFive()
    ensures StampOf(5) == Stamp(Date(1970, 1, 1), 0, 0, 5)
  {
    assert 5 / 86400 == 0 && 5 % 86400 == 5;
    assert 5 / 3600 == 0 && 5 % 3600 / 60 == 0 && 5 % 60 == 5;
    EpochDate();
  }

  lemma PadsOfFive()
    ensures Pad2(0) == "00" && Pad2(1) == "01" && Pad2(5) == "05"
  {
    assert NatToString(0) == "0";
    assert NatToString(1) == "1";
    assert NatToString(5) == "5";
  }

  /** Five seconds after the epoch is written `1970-01-01T00:00:05Z`. */
  lemma FiveSecondsText()
    ensures TimeText(StampOf(5)) == "1970-01-01T00:00:05Z"
  {
    FiveParts();
    FiveText();
  }

  lemma FiveParts()
    ensures TimeText(StampOf(5)) == "1970" + (("-" + "01") + (("-" + "01") + (("T" + "00") + ((":" + "00") + ((":" + "05") + "Z")))))
  {
    StampOfFive();
    YearText1970();
    PadsOfFive();
    PaddedFive();
  }

  lemma PaddedFive()
    ensures Padded([('-', 1), ('-', 1), ('T', 0), (':', 0), (':', 5)])
      == ("-" + Pad2(1)) + (("-" + Pad2(1)) + (("T" + Pad2(0)) + ((":" + Pad2(0)) + ((":" + Pad2(5)) + "Z"))))
  {
    var f := [('-', 1), ('-', 1), ('T', 0), (':', 0), (':', 5)];
    assert Padded(f[4..]) == (":" + Pad2(5)) + Padded(f[5..]);
    assert Padded(f[3..]) == (":" + Pad2(0)) + Padded(f[4..]);
    assert Padded(f[2..]) == ("T" + Pad2(0)) + Padded(f[3..]);
    assert Padded(f[1..]) == ("-" + Pad2(1)) + Padded(f[2..]);
  }

  lemma FiveText()
    ensures "1970" + (("-" + "01") + (("-" + "01") + (("T" + "00") + ((":" + "00") + ((":" + "05") + "Z")))))
      == "1970-01-01T00:00:05Z"
  {
  }
}

=== FILE: js_text.dfy ===
/**
 * The JavaScript string and number primitives the CalDAV data layer relies on:
 * `String.prototype.split`/`Array.prototype.join` with a one-character separator,
 * `Number.parseInt(s, 10)` and the decimal rendering of an integral Number.
 * `Number` values are modelled as `Option<int>`, where `None` is NaN.
 */
module JsText {
  import opened Wrappers

  // ---------------------------------------------------------------- split / join

  /** `s.split(sep)`: the maximal separator-free pieces between occurrences of `sep`. */
  function Split(s: string, sep: char): (parts: seq<string>)
    ensures |parts| >= 1
    ensures forall i :: 0 <= i < |parts| ==> sep !in parts[i]
  {
    if |s| == 0 then [""]
    else
      var rest := Split(s[1..], sep);
      if s[0] == sep then [""] + rest
      else [[s[0]] + rest[0]] + rest[1..]
  }

  /** `parts.join(sep)`; the empty array joins to the empty string. */
  function Join(parts: seq<string>, sep: char): string
  {
    if |parts| == 0 then ""
    else if |parts| == 1 then parts[0]
    else parts[0] + [sep] + Join(parts[1..], sep)
  }

  /** Joining the pieces of a split gives the original string back. */
  lemma {:induction false} JoinSplit(s: string, sep: char)
    ensures Join(Split(s, sep), sep) == s
  {
    if |s| > 0 {
      var rest := Split(s[1..], sep);
      JoinSplit(s[1..], sep);
      if s[0] == sep {
        assert Split(s, sep) == [""] + rest;
        assert ([""] + rest)[1..] == rest;
      } else if |rest| == 1 {
        assert Split(s, sep) == [[s[0]] + rest[0]];
      } else {
        var parts := Split(s, sep);
        assert parts[1..] == rest[1..];
        assert Join(rest, sep) == rest[0] + [sep] + Join(rest[1..], sep);
      }
    }
  }

  /** A string without the separator splits into itself alone. */
  lemma {:induction false} SplitNoSeparator(s: string, sep: char)
    requires sep !in s
    ensures Split(s, sep) == [s]
  {
    if |s| > 0 {
      assert sep !in s[1..] by {
        forall k | 0 <= k < |s[1..]| ensures s[1..][k] != sep {
          assert s[1..][k] == s[k + 1];
        }
      }
      SplitNoSeparator(s[1..], sep);
      assert [s[0]] + s[1..] == s;
    }
  }

  /** Appending a separator and a separator-free segment appends exactly one piece. */
  lemma {:induction false} SplitAppendSegment(a: string, sep: char, d: string)
    requires sep !in d
    ensures Split(a + [sep] + d, sep) == Split(a, sep) + [d]
  {
    if |a| == 0 {
      assert a + [sep] + d == [sep] + d;
      assert ([sep] + d)[1..] == d;
      SplitNoSeparator(d, sep);
    } else {
      var s := a + [sep] + d;
      assert s[0] == a[0];
      assert s[1..] == a[1..] + [sep] + d;
      SplitAppendSegment(a[1..], sep, d);
    }
  }

  // ---------------------------------------------------------------- digits

  predicate IsDigit(c: char) {
    '0' <= c <= '9'
  }

  predicate AllDigits(s: string) {
    forall i :: 0 <= i < |s| ==> IsDigit(s[i])
  }

  function DigitValue(c: char): nat
    requires IsDigit(c)
  {
    c as int - '0' as int
  }

  function DigitChar(d: nat): (c: char)
    requires d < 10
    ensures IsDigit(c) && DigitValue(c) == d
  {
    ('0' as int + d) as char
  }

  /** The value of a string of decimal digits, most significant first. */
  function DigitsValue(ds: string): nat
    requires AllDigits(ds)
  {
    if |ds| == 0 then 0
    else DigitsValue(ds[..|ds| - 1]) * 10 + DigitValue(ds[|ds| - 1])
  }

  /** The shortest decimal rendering of a natural number. */
  function NatToString(n: nat): (s: string)
    ensures |s| >= 1 && AllDigits(s)
  {
    if n < 10 then [DigitChar(n)]
    else NatToString(n / 10) + [DigitChar(n % 10)]
  }

  /** Reading back a rendered natural number gives the number. */
  lemma {:induction false} DigitsValueOfNatToString(n: nat)
    ensures DigitsValue(NatToString(n)) == n
  {
    if n >= 10 {
      var s := NatToString(n);
      assert s[..|s| - 1] == NatToString(n / 10);
      DigitsValueOfNatToString(n / 10);
    }
  }

  // ---------------------------------------------------------------- Number.parseInt

  /** The white-space and line-terminator characters `parseInt` skips at the front. */
  predicate IsJsSpace(c: char) {
    c == ' ' || c == '\t' || c == '\n' || c == '\r' || c == '\U{B}' || c == '\U{C}'
    || c == '\U{A0}' || c == '\U{FEFF}' || c == '\U{2028}' || c == '\U{2029}'
  }

  function TrimStart(s: string): (r: string)
    ensures |r| <= |s|
    ensures |r| > 0 ==> !IsJsSpace(r[0])
  {
    if |s| > 0 && IsJsSpace(s[0]) then TrimStart(s[1..]) else s
  }

  /** The longest prefix of `s` made of decimal digits. */
  function LeadingDigits(s: string): (ds: string)
    ensures AllDigits(ds) && ds <= s
    ensures |ds| < |s| ==> !IsDigit(s[|ds|])
  {
    if |s| > 0 && IsDigit(s[0]) then [s[0]] + LeadingDigits(s[1..]) else ""
  }

  /**
   * `Number.parseInt(s, 10)`: skip leading white space, read an optional sign,
   * then the longest run of decimal digits; no digits at all gives NaN.
   */
  function ParseInt(s: string): Option<int>
  {
    var t := TrimStart(s);
    var negative := |t| > 0 && t[0] == '-';
    var unsigned := if |t| > 0 && (t[0] == '-' || t[0] == '+') then t[1..] else t;
    var ds := LeadingDigits(unsigned);
    if |ds| == 0 then None
    else if negative then Some(-(DigitsValue(ds) as int))
    else Some(DigitsValue(ds))
  }

  /** `String(n)` for an integral Number: `NaN`, or an optional minus sign and the digits. */
  function NumberToString(n: Option<int>): (s: string)
    ensures |s| > 0 && '/' !in s
  {
    match n
    case None => "NaN"
    case Some(v) =>
      var s := if v < 0 then "-" + NatToString(-v) else NatToString(v);
      assert forall i :: 0 <= i < |s| ==> s[i] == '-' || IsDigit(s[i]);
      s
  }

  /** `n + 1` on Numbers: NaN stays NaN. */
  function Increment(n: Option<int>): Option<int>
  {
    match n
    case None => None
    case Some(v) => Some(v + 1)
  }

  lemma LeadingDigitsOfDigits(s: string)
    requires AllDigits(s)
    ensures LeadingDigits(s) == s
  {
    if |s| > 0 {
      assert AllDigits(s[1..]) by {
        forall k | 0 <= k < |s[1..]| ensures IsDigit(s[1..][k]) {
          assert s[1..][k] == s[k + 1];
        }
      }
      LeadingDigitsOfDigits(s[1..]);
      assert [s[0]] + s[1..] == s;
    }
  }

  /** Parsing the rendering of a non-negative integer. */
  lemma ParseIntOfNatToString(v: nat)
    ensures ParseInt(NatToString(v)) == Some(v)
  {
    var digits := NatToString(v);
    assert IsDigit(digits[0]);
    assert TrimStart(digits) == digits;
    LeadingDigitsOfDigits(digits);
    DigitsValueOfNatToString(v);
  }

  /** Parsing the rendering of a negative integer. */
  lemma ParseIntOfNegative(v: int)
    requires v < 0
    ensures ParseInt("-" + NatToString(-v)) == Some(v)
  {
    var digits := NatToString(-v);
    var s := "-" + digits;
    assert s[0] == '-' && !IsJsSpace(s[0]);
    assert TrimStart(s) == s;
    assert s[1..] == digits;
    LeadingDigitsOfDigits(digits);
    assert LeadingDigits(s[1..]) == digits;
    DigitsValueOfNatToString(-v);
    assert DigitsValue(digits) == -v;
  }

  /** `parseInt(String(n), 10)` is `n` for every integral Number and for NaN. */
  lemma ParseIntOfNumberToString(n: Option<int>)
    ensures ParseInt(NumberToString(n)) == n
  {
    match n
    case None =>
      ParseIntOfNaN();
    case Some(v) =>
      if v < 0 {
        assert NumberToString(n) == "-" + NatToString(-v);
        ParseIntOfNegative(v);
      } else {
        assert NumberToString(n) == NatToString(v);
        ParseIntOfNatToString(v);
      }
  }

  /** `parseInt('NaN', 10)` is NaN: the text starts with no digit. */
  lemma ParseIntOfNaN()
    ensures ParseInt("NaN") == None
  {
    var s := "NaN";
    assert !IsJsSpace(s[0]) && !IsDigit(s[0]) && s[0] != '-' && s[0] != '+';
    assert TrimStart(s) == s;
    assert LeadingDigits(s) == "";
  }

  // ---------------------------------------------------------------- case

  /** `toUpperCase` restricted to ASCII letters; other characters are unchanged. */
  function UpperChar(c: char): char {
    if 'a' <= c <= 'z' then (c as int - 32) as char else c
  }

  function Upper(s: string): (u: string)
    ensures |u| == |s|
    ensures forall i :: 0 <= i < |s| ==> u[i] == UpperChar(s[i])
  {
    if |s| == 0 then "" else [UpperChar(s[0])] + Upper(s[1..])
  }

  /** `toLowerCase` restricted to ASCII letters. */
  function LowerChar(c: char): char {
    if 'A' <= c <= 'Z' then (c as int + 32) as char else c
  }

  function Lower(s: string): (l: string)
    ensures |l| == |s|
    ensures forall i :: 0 <= i < |s| ==> l[i] == LowerChar(s[i])
  {
    if |s| == 0 then "" else [LowerChar(s[0])] + Lower(s[1..])
  }

  predicate StartsWith(s: string, prefix: string) {
    prefix <= s
  }

  /** JavaScript `a || b` on an optional string: an absent or empty string is falsy. */
  function OrElse(a: Option<string>, b: string): (r: string)
    ensures (a.Some? && a.value != "") ==> r == a.value
    ensures (a.None? || a.value == "") ==> r == b
  {
    if a.Some? && a.value != "" then a.value else b
  }
}

=== FILE: seqs.dfy ===
/** Order-preserving filtering of sequences, the shape of every `find`/`getAll…` in the model. */
module Seqs {

  /** The elements of `s` satisfying `keep`, in their original order. */
  function Filter<T>(s: seq<T>, keep: T -> bool): (r: seq<T>)
    ensures |r| <= |s|
    ensures forall i :: 0 <= i < |r| ==> keep(r[i]) && r[i] in s
    ensures forall i :: 0 <= i < |s| && keep(s[i]) ==> s[i] in r
  {
    if |s| == 0 then []
    else if keep(s[0]) then [s[0]] + Filter(s[1..], keep)
    else Filter(s[1..], keep)
  }

  /** `f` applied to every element of `s`, in order. */
  function Map<T, U>(s: seq<T>, f: T -> U): (r: seq<U>)
    ensures |r| == |s|
    ensures forall i :: 0 <= i < |s| ==> r[i] == f(s[i])
  {
    if |s| == 0 then [] else [f(s[0])] + Map(s[1..], f)
  }

  lemma MapAppend<T, U>(a: seq<T>, b: seq<T>, f: T -> U)
    ensures Map(a + b, f) == Map(a, f) + Map(b, f)
  {
    assert forall i :: 0 <= i < |b| ==> (a + b)[|a| + i] == b[i];
  }

  lemma TailOfAppend<T>(a: seq<T>, b: seq<T>)
    requires |a| > 0
    ensures (a + b)[0] == a[0] && (a + b)[1..] == a[1..] + b
  {
  }

  lemma AppendAssoc<T>(a: seq<T>, b: seq<T>, c: seq<T>)
    ensures a + (b + c) == (a + b) + c
  {
  }

  /** Filtering distributes over concatenation, so relative order is kept. */
  lemma {:induction false} FilterAppend<T>(a: seq<T>, b: seq<T>, keep: T -> bool)
    ensures Filter(a + b, keep) == Filter(a, keep) + Filter(b, keep)
  {
    if |a| == 0 {
      assert a + b == b;
    } else {
      assert (a + b)[1..] == a[1..] + b;
      FilterAppend(a[1..], b, keep);
    }
  }

  /** Filtering a non-empty sequence: its prefix, then its last element. */
  lemma {:induction false} FilterSnoc<T>(s: seq<T>, keep: T -> bool)
    requires |s| > 0
    ensures Filter(s, keep) == Filter(s[..|s| - 1], keep) + Filter([s[|s| - 1]], keep)
  {
    var init, last := s[..|s| - 1], [s[|s| - 1]];
    assert s == init + last;
    FilterAppend(init, last, keep);
  }

  /** Filtering a prefix one element longer. */
  lemma FilterPrefixStep<T>(s: seq<T>, i: int, keep: T -> bool)
    requires 0 <= i < |s|
    ensures Filter(s[..i + 1], keep) == Filter(s[..i], keep) + (if keep(s[i]) then [s[i]] else [])
  {
    FilterSnoc(s[..i + 1], keep);
    assert s[..i + 1][..i] == s[..i];
    assert Filter([s[i]], keep) == if keep(s[i]) then [s[i]] else [];
  }

  /** A filter that keeps every element changes nothing. */
  lemma {:induction false} FilterAll<T>(s: seq<T>, keep: T -> bool)
    requires forall i :: 0 <= i < |s| ==> keep(s[i])
    ensures Filter(s, keep) == s
  {
    if |s| > 0 {
      assert forall i :: 0 <= i < |s[1..]| ==> s[1..][i] == s[i + 1];
      FilterAll(s[1..], keep);
    }
  }

  /** Filtering by a weaker condition first changes nothing. */
  lemma {:induction false} FilterOfFilter<T>(s: seq<T>, weaker: T -> bool, stronger: T -> bool)
    requires forall i :: 0 <= i < |s| && stronger(s[i]) ==> weaker(s[i])
    ensures Filter(Filter(s, weaker), stronger) == Filter(s, stronger)
  {
    if |s| > 0 {
      assert forall i :: 0 <= i < |s[1..]| ==> s[1..][i] == s[i + 1];
      FilterOfFilter(s[1..], weaker, stronger);
      if weaker(s[0]) {
        var f := Filter(s, weaker);
        assert f[0] == s[0] && f[1..] == Filter(s[1..], weaker);
      }
    }
  }

  /** Nothing survives a filter that rejects every element. */
  lemma {:induction false} FilterNone<T>(s: seq<T>, keep: T -> bool)
    requires forall i :: 0 <= i < |s| ==> !keep(s[i])
    ensures Filter(s, keep) == []
  {
    if |s| > 0 {
      assert forall i :: 0 <= i < |s[1..]| ==> s[1..][i] == s[i + 1];
      FilterNone(s[1..], keep);
    }
  }

  /** Filtering never repeats an element that the input does not repeat. */
  lemma {:induction false} FilterDistinct<T>(s: seq<T>, keep: T -> bool)
    requires Distinct(s)
    ensures Distinct(Filter(s, keep))
  {
    if |s| > 0 {
      assert Distinct(s[1..]) by {
        forall i, j | 0 <= i < j < |s[1..]| ensures s[1..][i] != s[1..][j] {
          assert s[1..][i] == s[i + 1] && s[1..][j] == s[j + 1];
        }
      }
      FilterDistinct(s[1..], keep);
      assert s[0] !in s[1..] by {
        forall k | 0 <= k < |s[1..]| ensures s[1..][k] != s[0] {
          assert s[1..][k] == s[k + 1];
        }
      }
    }
  }

  predicate Distinct<T(==)>(s: seq<T>) {
    forall i, j :: 0 <= i < j < |s| ==> s[i] != s[j]
  }

  /** Two duplicate-free sequences with no common element concatenate to a duplicate-free one. */
  lemma DistinctAppend<T>(a: seq<T>, b: seq<T>)
    requires Distinct(a) && Distinct(b)
    requires forall x :: x in a ==> x !in b
    ensures Distinct(a + b)
  {
    var r := a + b;
    forall i, j | 0 <= i < j < |r| ensures r[i] != r[j] {
      if j < |a| {
        assert r[i] == a[i] && r[j] == a[j];
      } else if i < |a| {
        assert r[i] == a[i] && r[j] == b[j - |a|] && r[j] in b;
      } else {
        assert r[i] == b[i - |a|] && r[j] == b[j - |a|];
      }
    }
  }
}

=== FILE: store.dfy ===
/**
 * The persistent state the CalDAV data layer works on, seen through the document
 * store's `find`/`findOne`/`create`/`findByIdAndUpdate`/`deleteOne`/`deleteMany`
 * calls, plus the set of principal-scoped locks currently held. Sequences keep
 * the store's natural order: `findOne` returns the first match, `find` the
 * matches in order.
 */
module Store {
  import opened Wrappers
  import opened Seqs
  import opened ICal
  import opened JsText
  import opened SyncToken

  /** A vendor extension property of a calendar (`X-…`), key upper-cased. */
  datatype XProp = XProp(key: string, value: seq<Value>)

  /** A calendar record; `id` is its internal object id. */
  datatype Calendar = Calendar(
    id: nat,
    calendarId: string,
    name: Value,
    description: Value,
    prodId: Value,
    timezone: Value,
    url: Value,
    source: Value,
    scale: Value,
    readonly: bool,
    synctoken: string,
    x: seq<XProp>)

  /** A stored event: the owning calendar's id, the UID and the raw calendar text. */
  datatype EventRecord = EventRecord(calendar: nat, eventId: string, ical: Document)

  datatype World = World(calendars: seq<Calendar>, events: seq<EventRecord>, locks: set<string>)

  /** Every call into a collaborator that can throw. */
  datatype Step =
    | FindCalendarById | FindCalendarByCalendarId | CreateCalendarRecord | UpdateCalendarRecord
    | FindCalendars | FindEvent | FindEvents | CreateEventRecord | SaveEventRecord | DeleteEventRecord
    | DeleteCalendarEvents | CreateEventRecords | AcquireLock | ReleaseLock | I18nMiddleware | RefreshSession

  /**
   * The behaviour of the collaborators during one operation: the steps that throw,
   * and the `success` flag of a lock that `acquireLock` hands back without throwing.
   */
  datatype Faults = Faults(failing: set<Step>, lockSuccess: bool)

  datatype Error =
    | Unauthorized
    | MalformedDocument
    | EventAlreadyExists
    | EventDoesNotExist
    | NotIterable
    | MalformedRecurrence
    | StepFailed(step: Step)

  /**
   * Which reading of the code an operation follows: the code as it is written,
   * or the code with its three evident defects corrected (the `__proto__`
   * grouping key, the letter case of the alarm-state removal, and the lock
   * release skipped by the early `return`).
   */
  datatype Variant = AsWritten | Corrected

  /** The state after an operation and what it returned or threw. */
  datatype Reply<T> = Reply(world: World, result: Result<T, Error>)

  // ---------------------------------------------------------------- calendars

  /** `Calendars.findOne({ _id })`. */
  function LookupById(cals: seq<Calendar>, id: nat): (r: Option<Calendar>)
    ensures r.Some? ==> r.value in cals && r.value.id == id
    ensures r.None? <==> forall i :: 0 <= i < |cals| ==> cals[i].id != id
  {
    if |cals| == 0 then None
    else if cals[0].id == id then Some(cals[0])
    else
      var r := LookupById(cals[1..], id);
      assert forall i :: 1 <= i < |cals| ==> cals[i] == cals[1..][i - 1];
      r
  }

  /** `Calendars.findOne({ calendarId })`: identifiers need not be unique, so the first in store order wins. */
  function LookupByCalendarId(cals: seq<Calendar>, calendarId: string): (r: Option<Calendar>)
    ensures r.Some? ==> r.value in cals && r.value.calendarId == calendarId
    ensures r.None? <==> forall i :: 0 <= i < |cals| ==> cals[i].calendarId != calendarId
    ensures r.Some? ==> exists i :: (0 <= i < |cals| && cals[i] == r.value &&
              forall j :: 0 <= j < i ==> cals[j].calendarId != calendarId)
  {
    if |cals| == 0 then None
    else if cals[0].calendarId == calendarId then Some(cals[0])
    else
      var r := LookupByCalendarId(cals[1..], calendarId);
      assert forall i :: 1 <= i < |cals| ==> cals[i] == cals[1..][i - 1];
      r
  }

  /** `Calendars.findByIdAndUpdate(c.id, …)`: the record with that id becomes `c`. */
  function ReplaceCalendar(cals: seq<Calendar>, c: Calendar): (r: seq<Calendar>)
    ensures |r| == |cals|
    ensures forall i :: 0 <= i < |cals| ==> r[i] == (if cals[i].id == c.id then c else cals[i])
  {
    if |cals| == 0 then []
    else [if cals[0].id == c.id then c else cals[0]] + ReplaceCalendar(cals[1..], c)
  }

  /** The synchronisation token of the calendar with internal id `id`, if any. */
  function TokenOf(w: World, id: nat): Option<string>
  {
    match LookupById(w.calendars, id)
    case None => None
    case Some(c) => Some(c.synctoken)
  }

  /** Replacing the record with id `c.id` makes `c` what that id finds, and leaves other ids alone. */
  lemma {:induction false} ReplaceCalendarLookup(cals: seq<Calendar>, c: Calendar, id: nat)
    ensures id == c.id && LookupById(cals, id).Some? ==> LookupById(ReplaceCalendar(cals, c), id) == Some(c)
    ensures id != c.id ==> LookupById(ReplaceCalendar(cals, c), id) == LookupById(cals, id)
  {
    if |cals| > 0 {
      var r := ReplaceCalendar(cals, c);
      assert r[1..] == ReplaceCalendar(cals[1..], c);
      ReplaceCalendarLookup(cals[1..], c, id);
    }
  }

  /** Replacing a record keeps what a lookup by calendar id finds, up to the replacement itself. */
  lemma {:induction false} LookupByCalendarIdReplace(cals: seq<Calendar>, c: Calendar, calendarId: string)
    requires forall i :: 0 <= i < |cals| && cals[i].id == c.id ==> cals[i].calendarId == c.calendarId
    ensures LookupByCalendarId(ReplaceCalendar(cals, c), calendarId) ==
            match LookupByCalendarId(cals, calendarId)
            case None => None
            case Some(f) => Some(if f.id == c.id then c else f)
  {
    if |cals| > 0 {
      var r := ReplaceCalendar(cals, c);
      assert r[1..] == ReplaceCalendar(cals[1..], c);
      assert forall i :: 1 <= i < |cals| ==> cals[i] == cals[1..][i - 1];
      LookupByCalendarIdReplace(cals[1..], c, calendarId);
    }
  }

  /** Under the invariant an id that finds a record is a position in the store. */
  lemma LookupByIdInRange(w: World, id: nat)
    requires Wf(w) && LookupById(w.calendars, id).Some?
    ensures id < |w.calendars|
  {
    var c := LookupById(w.calendars, id).value;
    var i :| 0 <= i < |w.calendars| && w.calendars[i] == c;
  }

  /**
   * `Calendars.findByIdAndUpdate(c._id, { $set: { synctoken: token } })`: the
   * calendar's token becomes `token` and nothing else in the store changes.
   */
  function SetToken(w: World, c: Calendar, token: string): (w': World)
    ensures w'.events == w.events && w'.locks == w.locks && |w'.calendars| == |w.calendars|
    ensures LookupById(w.calendars, c.id).Some? ==> TokenOf(w', c.id) == Some(token)
    ensures forall id :: id != c.id ==> LookupById(w'.calendars, id) == LookupById(w.calendars, id)
    ensures forall i :: 0 <= i < |w.calendars| ==>
      w'.calendars[i] == if w.calendars[i].id == c.id then c.(synctoken := token) else w.calendars[i]
    ensures Wf(w) ==> Wf(w')
  {
    var c' := c.(synctoken := token);
    var w' := w.(calendars := ReplaceCalendar(w.calendars, c'));
    ReplaceCalendarLookup(w.calendars, c', c.id);
    forall id | id != c.id ensures LookupById(w'.calendars, id) == LookupById(w.calendars, id) {
      ReplaceCalendarLookup(w.calendars, c', id);
    }
    w'
  }

  /** The update every mutation makes first: the calendar's token is bumped once. */
  function BumpCalendar(w: World, c: Calendar): (w': World)
    ensures w'.events == w.events && w'.locks == w.locks && |w'.calendars| == |w.calendars|
    ensures LookupById(w.calendars, c.id).Some? ==> TokenOf(w', c.id) == Some(BumpSyncToken(c.synctoken))
    ensures forall id :: id != c.id ==> LookupById(w'.calendars, id) == LookupById(w.calendars, id)
    ensures forall i :: 0 <= i < |w.calendars| ==>
      w'.calendars[i] == if w.calendars[i].id == c.id then c.(synctoken := w'.calendars[i].synctoken) else w.calendars[i]
    ensures Wf(w) ==> Wf(w')
  {
    SetToken(w, c, BumpSyncToken(c.synctoken))
  }

  // ---------------------------------------------------------------- events

  /** An event's identity: owning calendar id and UID. */
  type Key = (nat, string)

  function KeyOf(e: EventRecord): Key
  {
    (e.calendar, e.eventId)
  }

  /** The store as a map from (calendar, eventId) to stored text; the first record of a key wins. */
  function View(events: seq<EventRecord>): map<Key, Document>
  {
    if |events| == 0 then map[]
    else View(events[1..])[KeyOf(events[0]) := events[0].ical]
  }

  /** The keys of the view are exactly the keys of the records. */
  lemma {:induction false} ViewKeys(events: seq<EventRecord>)
    ensures forall i :: 0 <= i < |events| ==> KeyOf(events[i]) in View(events)
    ensures forall k :: k in View(events) ==> exists i :: 0 <= i < |events| && KeyOf(events[i]) == k
  {
    if |events| > 0 {
      ViewKeys(events[1..]);
      assert forall i :: 1 <= i < |events| ==> events[i] == events[1..][i - 1];
    }
  }

  /** No two records share a (calendar, eventId). */
  predicate UniqueKeys(events: seq<EventRecord>)
  {
    forall i, j :: 0 <= i < j < |events| ==> KeyOf(events[i]) != KeyOf(events[j])
  }

  /** `CalendarEvents.findOne({ eventId, calendar })`. */
  function LookupEvent(events: seq<EventRecord>, calendar: nat, eventId: string): (r: Option<EventRecord>)
    ensures r.Some? <==> (calendar, eventId) in View(events)
    ensures r.Some? ==> r.value in events && KeyOf(r.value) == (calendar, eventId)
                        && r.value.ical == View(events)[(calendar, eventId)]
  {
    if |events| == 0 then None
    else if KeyOf(events[0]) == (calendar, eventId) then Some(events[0])
    else LookupEvent(events[1..], calendar, eventId)
  }

  /** The filter `{ calendar }` as a test on one record. */
  function InCalendar(calendar: nat): EventRecord -> bool
  {
    (e: EventRecord) => e.calendar == calendar
  }

  function OutsideCalendar(calendar: nat): EventRecord -> bool
  {
    (e: EventRecord) => e.calendar != calendar
  }

  /** `CalendarEvents.find({ calendar })`. */
  function EventsOf(events: seq<EventRecord>, calendar: nat): (r: seq<EventRecord>)
    ensures forall i :: 0 <= i < |r| ==> r[i].calendar == calendar && r[i] in events
    ensures forall i :: 0 <= i < |events| && events[i].calendar == calendar ==> events[i] in r
  {
    Filter(events, InCalendar(calendar))
  }

  /** `find` keeps store order: the events of a calendar in two stretches of the store are those of the first, then those of the second. */
  lemma EventsOfKeepsOrder(a: seq<EventRecord>, b: seq<EventRecord>, calendar: nat)
    ensures EventsOf(a + b, calendar) == EventsOf(a, calendar) + EventsOf(b, calendar)
  {
    FilterAppend(a, b, InCalendar(calendar));
  }

  /** `CalendarEvents.deleteMany({ calendar })`. */
  function DeleteEventsOf(events: seq<EventRecord>, calendar: nat): (r: seq<EventRecord>)
    ensures forall i :: 0 <= i < |r| ==> r[i].calendar != calendar && r[i] in events
    ensures forall i :: 0 <= i < |events| && events[i].calendar != calendar ==> events[i] in r
  {
    Filter(events, OutsideCalendar(calendar))
  }

  /**
   * Clearing a calendar's events and appending records of that calendar: that
   * calendar's events become exactly the new records, every other calendar's
   * are unchanged.
   */
  lemma ReplaceEventsOf(events: seq<EventRecord>, calendar: nat, records: seq<EventRecord>, other: nat)
    requires forall i :: 0 <= i < |records| ==> records[i].calendar == calendar
    ensures EventsOf(DeleteEventsOf(events, calendar) + records, calendar) == records
    ensures other != calendar ==> EventsOf(DeleteEventsOf(events, calendar) + records, other) == EventsOf(events, other)
  {
    var kept := DeleteEventsOf(events, calendar);
    FilterAppend(kept, records, InCalendar(calendar));
    FilterNone(kept, InCalendar(calendar));
    FilterAll(records, InCalendar(calendar));
    if other != calendar {
      FilterAppend(kept, records, InCalendar(other));
      FilterNone(records, InCalendar(other));
      FilterOfFilter(events, OutsideCalendar(calendar), InCalendar(other));
    }
  }

  /** Filtering keeps keys unique. */
  lemma {:induction false} FilterKeepsUniqueKeys(events: seq<EventRecord>, keep: EventRecord -> bool)
    requires UniqueKeys(events)
    ensures UniqueKeys(Filter(events, keep))
  {
    if |events| > 0 {
      var tail := events[1..];
      UniqueKeysTail(events);
      FilterKeepsUniqueKeys(tail, keep);
      var rest := Filter(tail, keep);
      if keep(events[0]) {
        var r := [events[0]] + rest;
        forall i, j | 0 <= i < j < |r| ensures KeyOf(r[i]) != KeyOf(r[j]) {
          if i == 0 {
            assert r[j] == rest[j - 1] && rest[j - 1] in tail;
            var m :| 0 <= m < |tail| && tail[m] == rest[j - 1];
            assert tail[m] == events[m + 1];
          } else {
            assert r[i] == rest[i - 1] && r[j] == rest[j - 1];
          }
        }
      }
    }
  }

  /**
   * Clearing a calendar's events and appending records of that calendar with
   * distinct UIDs keeps keys unique.
   */
  lemma ReplaceKeepsUniqueKeys(events: seq<EventRecord>, calendar: nat, records: seq<EventRecord>)
    requires UniqueKeys(events)
    requires forall i :: 0 <= i < |records| ==> records[i].calendar == calendar
    requires forall i, j :: 0 <= i < j < |records| ==> records[i].eventId != records[j].eventId
    ensures UniqueKeys(DeleteEventsOf(events, calendar) + records)
  {
    var kept := DeleteEventsOf(events, calendar);
    FilterKeepsUniqueKeys(events, OutsideCalendar(calendar));
    var r := kept + records;
    forall i, j | 0 <= i < j < |r| ensures KeyOf(r[i]) != KeyOf(r[j]) {
      if j < |kept| {
        assert r[i] == kept[i] && r[j] == kept[j];
      } else if i < |kept| {
        assert r[i] == kept[i] && r[j] == records[j - |kept|];
      } else {
        assert r[i] == records[i - |kept|] && r[j] == records[j - |kept|];
      }
    }
  }

  /**
   * Replacing a calendar record and all of its events keeps the store
   * invariant when the calendar exists and the new records belong to it with
   * distinct UIDs.
   */
  lemma ReplaceKeepsWf(w: World, c: Calendar, records: seq<EventRecord>)
    requires Wf(w) && LookupById(w.calendars, c.id).Some?
    requires forall i :: 0 <= i < |records| ==> records[i].calendar == c.id
    requires forall i, j :: 0 <= i < j < |records| ==> records[i].eventId != records[j].eventId
    ensures Wf(w.(calendars := ReplaceCalendar(w.calendars, c), events := DeleteEventsOf(w.events, c.id) + records))
  {
    var cals := ReplaceCalendar(w.calendars, c);
    assert forall i :: 0 <= i < |cals| ==> cals[i].id == i;
    LookupByIdInRange(w, c.id);
    ReplaceKeepsUniqueKeys(w.events, c.id, records);
    ReplaceKeepsOwners(w.events, c.id, records, |cals|);
  }

  /** Clearing a calendar's events and appending records of that calendar keeps every owner below `n`. */
  lemma ReplaceKeepsOwners(events: seq<EventRecord>, calendar: nat, records: seq<EventRecord>, n: nat)
    requires calendar < n
    requires forall i :: 0 <= i < |events| ==> events[i].calendar < n
    requires forall i :: 0 <= i < |records| ==> records[i].calendar == calendar
    ensures forall i :: 0 <= i < |DeleteEventsOf(events, calendar) + records| ==>
      (DeleteEventsOf(events, calendar) + records)[i].calendar < n
  {
    var kept := DeleteEventsOf(events, calendar);
    forall i | 0 <= i < |kept + records| ensures (kept + records)[i].calendar < n {
      if i < |kept| {
        assert (kept + records)[i] == kept[i] && kept[i] in events;
      } else {
        assert (kept + records)[i] == records[i - |kept|];
      }
    }
  }

  /** `e.ical = body; e.save()` on the record `findOne` returned for `key`. */
  function SetIcal(events: seq<EventRecord>, key: Key, ical: Document): (r: seq<EventRecord>)
    ensures |r| == |events|
    ensures key in View(events) ==> View(r) == View(events)[key := ical]
    ensures key !in View(events) ==> r == events
  {
    if |events| == 0 then []
    else if KeyOf(events[0]) == key then [events[0].(ical := ical)] + events[1..]
    else
      var rest := SetIcal(events[1..], key, ical);
      var r := [events[0]] + rest;
      assert r[1..] == rest;
      r
  }

  /** `CalendarEvents.deleteOne({ _id })` of the record `findOne` returned for `key`. */
  function DeleteFirst(events: seq<EventRecord>, key: Key): (r: seq<EventRecord>)
    ensures key !in View(events) ==> r == events
    ensures key in View(events) ==> |r| == |events| - 1
  {
    if |events| == 0 then []
    else if KeyOf(events[0]) == key then events[1..]
    else [events[0]] + DeleteFirst(events[1..], key)
  }

  /** With unique keys, deleting the record of `key` removes exactly `key` from the view. */
  lemma {:induction false} DeleteFirstView(events: seq<EventRecord>, key: Key)
    requires UniqueKeys(events)
    ensures View(DeleteFirst(events, key)) == View(events) - {key}
    ensures UniqueKeys(DeleteFirst(events, key))
  {
    if |events| > 0 {
      KeyAbsentFromTail(events);
      UniqueKeysTail(events);
      if KeyOf(events[0]) == key {
        assert View(events) - {key} == View(events[1..]);
      } else {
        var rest := DeleteFirst(events[1..], key);
        DeleteFirstView(events[1..], key);
        var r := [events[0]] + rest;
        assert r[1..] == rest;
        UniqueKeysCons(events[0], rest);
      }
    }
  }

  /** A record whose key the rest does not hold can go in front of records with unique keys. */
  lemma UniqueKeysCons(e: EventRecord, rest: seq<EventRecord>)
    requires UniqueKeys(rest) && KeyOf(e) !in View(rest)
    ensures UniqueKeys([e] + rest)
  {
    var r := [e] + rest;
    ViewKeys(rest);
    forall i, j | 0 <= i < j < |r| ensures KeyOf(r[i]) != KeyOf(r[j]) {
      if i == 0 {
        assert r[j] == rest[j - 1];
      } else {
        assert r[i] == rest[i - 1] && r[j] == rest[j - 1];
      }
    }
  }

  lemma UniqueKeysTail(events: seq<EventRecord>)
    requires |events| > 0 && UniqueKeys(events)
    ensures UniqueKeys(events[1..])
  {
    forall i, j | 0 <= i < j < |events[1..]| ensures KeyOf(events[1..][i]) != KeyOf(events[1..][j]) {
      assert events[1..][i] == events[i + 1] && events[1..][j] == events[j + 1];
    }
  }

  /** With unique keys, the head's key does not occur in the tail's view. */
  lemma KeyAbsentFromTail(events: seq<EventRecord>)
    requires |events| > 0 && UniqueKeys(events)
    ensures KeyOf(events[0]) !in View(events[1..])
  {
    var tail := events[1..];
    ViewKeys(tail);
    forall i | 0 <= i < |tail| ensures KeyOf(tail[i]) != KeyOf(events[0]) {
      assert tail[i] == events[i + 1];
    }
  }

  // ---------------------------------------------------------------- invariant

  /**
   * The store invariant: internal ids are positions, every event belongs to an
   * existing calendar, and (calendar, eventId) is unique.
   */
  predicate Wf(w: World)
  {
    && (forall i :: 0 <= i < |w.calendars| ==> w.calendars[i].id == i)
    && (forall i :: 0 <= i < |w.events| ==> w.events[i].calendar < |w.calendars|)
    && UniqueKeys(w.events)
  }
}

=== FILE: sync_token.dfy ===
/**
 * The synchronisation token of a calendar: a `/`-separated string whose last
 * segment is a decimal counter, bumped by one on every mutation of the calendar.
 */
module SyncToken {
  import opened Wrappers
  import opened JsText

  /** Everything before the last `/`, as `parts.slice(0, -1).join('/')` yields it. */
  function Prefix(token: string): string
  {
    var parts := Split(token, '/');
    Join(parts[..|parts| - 1], '/')
  }

  /** The counter: the last segment read by `Number.parseInt(…, 10)` (`None` for NaN). */
  function Counter(token: string): Option<int>
  {
    var parts := Split(token, '/');
    ParseInt(parts[|parts| - 1])
  }

  /** A prefix followed by `/` and a rendered counter splits back into those two parts. */
  lemma {:induction false} TokenParts(prefix: string, n: Option<int>)
    ensures Prefix(prefix + "/" + NumberToString(n)) == prefix
    ensures Counter(prefix + "/" + NumberToString(n)) == n
  {
    var last := NumberToString(n);
    var t := prefix + "/" + last;
    assert t == prefix + ['/'] + last;
    SplitAppendSegment(prefix, '/', last);
    var parts := Split(t, '/');
    assert parts[..|parts| - 1] == Split(prefix, '/');
    JoinSplit(prefix, '/');
    ParseIntOfNumberToString(n);
  }

  /**
   * `bumpSyncToken`: keep every segment before the last `/` and replace the last
   * segment n by n + 1. A token without `/` gains a leading `/`; a last segment
   * that does not start with digits becomes `NaN` and stays `NaN`.
   */
  function BumpSyncToken(token: string): (r: string)
    ensures Prefix(r) == Prefix(token)
    ensures Counter(r) == Increment(Counter(token))
  {
    var parts := Split(token, '/');
    var r := Join(parts[..|parts| - 1], '/') + "/" + NumberToString(Increment(ParseInt(parts[|parts| - 1])));
    TokenParts(Prefix(token), Increment(Counter(token)));
    r
  }

  /** The token of a calendar that has just been created under `webUrl`. */
  function InitialSyncToken(webUrl: string): (t: string)
    ensures Prefix(t) == webUrl + "/ns/sync-token"
    ensures Counter(t) == Some(1)
  {
    var t := webUrl + "/ns/sync-token/1";
    assert t == (webUrl + "/ns/sync-token") + "/" + NumberToString(Some(1));
    TokenParts(webUrl + "/ns/sync-token", Some(1));
    t
  }

  /** On a well-formed token `<base>/<n>` a bump yields exactly `<base>/<n+1>`. */
  lemma BumpWellFormed(base: string, n: int)
    ensures BumpSyncToken(base + "/" + NumberToString(Some(n))) == base + "/" + NumberToString(Some(n + 1))
  {
    TokenParts(base, Some(n));
  }

  // ---------------------------------------------------------------- repeated bumps

  /** `k` applications of `f`. */
  function Iterate<T>(f: T -> T, x: T, k: nat): T
    decreases k
  {
    if k == 0 then x else Iterate(f, f(x), k - 1)
  }

  /** A family `w` that `f` shifts by one is shifted by `k` after `k` applications. */
  lemma {:induction false} IterateShifts<T>(f: T -> T, w: int -> T, n: int, k: nat)
    requires forall m :: f(w(m)) == w(m + 1)
    ensures Iterate(f, w(n), k) == w(n + k)
    decreases k
  {
    if k > 0 {
      IterateShifts(f, w, n + 1, k - 1);
    }
  }

  /** An observation `g` that turns `f` into `h` turns `k` applications of `f` into `k` of `h`. */
  lemma {:induction false} IterateObserved<T, U>(f: T -> T, g: T -> U, h: U -> U, x: T, k: nat)
    requires forall y :: g(f(y)) == h(g(y))
    ensures g(Iterate(f, x, k)) == Iterate(h, g(x), k)
    decreases k
  {
    if k > 0 {
      IterateObserved(f, g, h, f(x), k - 1);
    }
  }

  /** `k` successive bumps of a token. */
  function BumpTimes(token: string, k: nat): string
  {
    Iterate(BumpSyncToken, token, k)
  }

  /** On `<base>/<n>`, `k` bumps give exactly `<base>/<n+k>`. */
  lemma BumpTimesWellFormed(base: string, n: int, k: nat)
    ensures BumpTimes(base + "/" + NumberToString(Some(n)), k) == base + "/" + NumberToString(Some(n + k))
  {
    var w := (m: int) => base + "/" + NumberToString(Some(m));
    forall m: int ensures BumpSyncToken(w(m)) == w(m + 1) {
      BumpWellFormed(base, m);
    }
    IterateShifts(BumpSyncToken, w, n, k);
  }

  /** Bumping `k` times never touches the prefix. */
  lemma BumpTimesKeepsPrefix(token: string, k: nat)
    ensures Prefix(BumpTimes(token, k)) == Prefix(token)
  {
    IterateObserved(BumpSyncToken, Prefix, (p: string) => p, token, k);
    IdentityIterate(Prefix(token), k);
  }

  lemma {:induction false} IdentityIterate(p: string, k: nat)
    ensures Iterate((q: string) => q, p, k) == p
    decreases k
  {
    if k > 0 {
      IdentityIterate(p, k - 1);
    }
  }
}

=== FILE: wrappers.dfy ===
/** Failure-compatible wrappers used throughout the model. */
module Wrappers {

  datatype Option<+T> = None | Some(value: T)

  /** The outcome of an operation that may throw: a value or the error it raised. */
  datatype Result<+R, +E> = Success(value: R) | Failure(error: E) {
    predicate IsFailure() {
      Failure?
    }

    function PropagateFailure<U>(): Result<U, E>
      requires Failure?
    {
      Failure(error)
    }

    function Extract(): R
      requires Success?
    {
      value
    }
  }
}
